=== FILE: README.md ===
# Distributed scheduler and balance ledger, in Dafny

This project models the core of a Node.js service built from two parts.

The first part is a leader-less job scheduler. Every process runs the same
`DistributedScheduler` against three shared PostgreSQL tables:
`SchedulerJobs`, `SchedulerInstances` and `SchedulerHistory`. Each instance
registers itself and refreshes a heartbeat. It sweeps peers that have been
silent for two minutes. Every tick it claims at most one due job, using a
PostgreSQL advisory lock per job, and it records each execution in the
history. Around the scheduler sit:

- the cron helpers `calculateNextRun`, `validateCronExpression` and
  `getCronDescription`;
- the hand-written `getNextRunTime` of the seed migration;
- the job-management decisions of `SchedulerController`.

The second part is a balance ledger. A `User` domain object holds a signed
balance. `UserRepository` updates that balance in one transaction, run under
`executeWithRetries`. That wrapper retries errors that `isRetryableError`
classifies as transient, waiting `calculateRetryDelay` between attempts.
`UserService` validates requests and maps failures to errors. The
`errorHandler` middleware turns those errors into HTTP statuses and codes.

All state is immutable values, and every step is a pure function:

- `Scheduler.Cluster` holds the store, the scheduler object of each
  instance, and the executions in flight.
- `SchedulerSafety.Step` applies any event an instance or an HTTP client
  can cause. `SchedulerSafety.ReachableExclusive` proves that in every
  cluster reachable from fresh instances, at most one execution of a job is
  in flight.

Whatever the program reads from outside becomes a parameter:

- the clock (`now`, integer milliseconds);
- `Math.random()`;
- the cron parser (`CronUtils.CronParser`, with its "next run lies in the
  future" promise as an explicit hypothesis, `NextIsFuture`);
- how a handler's promise settles;
- the order in which a query returns rows;
- the error the database raises on each attempt.

Module layout, one module per source component:

| module | models |
|---|---|
| `Wrappers` | `Option`, `Result` |
| `Clock` | instants as milliseconds; start of minute, hour and day |
| `Text` | the JavaScript string operations used: `toLowerCase`, `includes`, `startsWith`, `split`, `parseInt`, integer rendering |
| `Errors` | the thrown values: `InsufficientFundsError`, `UserNotFoundError`, `ApplicationError`, and any other error by the properties read from it |
| `Consts` | `src/utils/consts.js` |
| `Retryable` | `src/utils/isRetryableError.js` |
| `RetryDelay` | `src/utils/calculateRetryDelay.js` |
| `Retries` | `src/utils/excecuteWithRetries.js` |
| `CronUtils` | `src/utils/cronUtils.js` |
| `SeedCron` | `getNextRunTime` of `migrations/20250619252416-seed-scheduler-jobs.js` |
| `SchedulerStore` | the three scheduler tables and the advisory locks |
| `Scheduler` | `src/services/Scheduler.js` |
| `SchedulerController` | `createJob`, `updateJob`, `deleteJob` and the `getJobs` figures |
| `SchedulerSafety` | the cluster invariant, the event trace and mutual exclusion |
| `ForeignKeys` | the three deletes under the history table's foreign keys (see Findings) |
| `ProcessExit` | the tail of `executeJob` as written for a rejection with `undefined` or `null`, and the process exit that follows (see Findings) |
| `UserDomain` | `src/domain/User.js` and the ORM model's `canWithdraw` |
| `UserRepository` | `src/repositories/UserRepository.js` |
| `UserService` | `src/services/UserService.js` |
| `ErrorHandler` | `src/middleware/errorHandler.js` |

## Model

| member | source | states |
|---|---|---|
| `Clock.MinuteOfHour` | migrations/20250619252416-seed-scheduler-jobs.js:23 | the minute `getMinutes()` reads lies in 0..59, and the start of the current minute is the start of the hour plus that many minutes |
| `Clock.HourOfDay` | migrations/20250619252416-seed-scheduler-jobs.js:30 | the hour `getHours()` reads lies in 0..23, and the start of the current hour is the start of the day plus that many hours |
| `Text.Split` | migrations/20250619252416-seed-scheduler-jobs.js:9 | `split(' ')` yields at least one piece, and no piece contains the separator |
| `Text.JoinSplit` | migrations/20250619252416-seed-scheduler-jobs.js:9 | joining the pieces of `split(' ')` with single spaces gives back the expression |
| `Text.SplitJoin` | migrations/20250619252416-seed-scheduler-jobs.js:9-15 | fields without spaces, joined by single spaces, split back into exactly those fields |
| `Text.ParseInt` | migrations/20250619252416-seed-scheduler-jobs.js:22-38 | `parseInt` with no radix: leading white space skipped (JavaScript's white space and line terminators, the Unicode space separators included), an optional sign, a `0x` prefix for hexadecimal, the longest digit run; no digit gives `NaN`; `Text.ParseIntToString` states that it reads back rendered integers |
| `Text.LeadingSpaceSkipped` | migrations/20250619252416-seed-scheduler-jobs.js:22 | a leading white-space character, a Unicode space or line separator included, does not change what `parseInt` reads |
| `Text.ParseIntToString` | migrations/20250619252416-seed-scheduler-jobs.js:22 | `parseInt` reads back the decimal text of every integer |
| `Errors.NewApplicationError` | src/errors/ApplicationError.js:4-6 | an `ApplicationError` keeps its message and defaults its status code to 500 |
| `Retryable.IsRetryableError` | src/utils/isRetryableError.js:3-29 | the classifier itself: the driver-code test, then the network-code test, then the keyword test; its properties are stated by the rows below |
| `Retryable.RetryableIsDisjunction` | src/utils/isRetryableError.js:3-29 | an error is transient exactly when its driver code is listed, or its own code is listed, or its lower-cased message contains a keyword; the order of the tests does not matter |
| `Retryable.DomainErrorsNotRetryable` | src/utils/isRetryableError.js:14-28 | `InsufficientFundsError`, `UserNotFoundError` and the repository's "Database operation failed" wrapper are never classified transient, whatever their numbers |
| `Retryable.InsufficientFundsMessageKeywordFree` | src/errors/InsufficientFundsError.js:6 | the insufficient-funds message contains none of the ten keywords, in any case, for every user id and amount |
| `Retryable.UserNotFoundMessageKeywordFree` | src/errors/UserNotFoundError.js:5 | the user-not-found message contains no keyword, for every user id |
| `Retryable.WrapperMessageKeywordFree` | src/repositories/UserRepository.js:85 | "Database operation failed" contains no keyword |
| `Retryable.DriverCodeCaseSensitive` | src/utils/isRetryableError.js:5-7 | SQLSTATE `40P01` is transient, while `40p01` is not: driver codes compare case-sensitively |
| `Retryable.NetworkCodeCaseSensitive` | src/utils/isRetryableError.js:9-12 | a lower-case `econnreset` code is not transient by code |
| `Retryable.KeywordIgnoresCase` | src/utils/isRetryableError.js:14-28 | a message "LOCK" is transient: keywords match case-insensitively |
| `RetryDelay.CalculateRetryDelay` | src/utils/calculateRetryDelay.js:6-12 | the delay never exceeds `MAX_DELAY` = 100, and it is at least `BASE_DELAY` = 2 for a non-negative random draw |
| `RetryDelay.PowMonotone` | src/utils/calculateRetryDelay.js:9 | `Math.pow(1.5, n)` does not decrease as `n` grows |
| `RetryDelay.DelayMonotone` | src/utils/calculateRetryDelay.js:7-10 | for a fixed draw, a later attempt never waits less |
| `RetryDelay.DelayCappedFromTen` | src/utils/calculateRetryDelay.js:7-10 | from attempt 10 on, the cap always applies |
| `RetryDelay.DelayUncappedToNine` | src/utils/calculateRetryDelay.js:9 | up to attempt 9, the cap never applies: the delay is `2·1.5^attempt` plus less than 5 of jitter |
| `RetryDelay.DefaultRetriesNeverCapped` | src/utils/excecuteWithRetries.js:18-24 | every attempt the default limit waits after (0..8) gets an uncapped delay, below 57 (the longest is under `2·1.5^8 + 5`) |
| `Retries.Attempts` | src/utils/excecuteWithRetries.js:8-29 | at most `maxRetries` calls, and at least one when `maxRetries` is positive; one wait fewer than calls; the last call decides the outcome; an error is rethrown only on the last attempt or when it is not transient; with `maxRetries <= 0`, nothing is called and `undefined` is thrown |
| `Retries.AttemptsUnfold` | src/utils/excecuteWithRetries.js:14-25 | a transient failure before the last attempt is followed by one wait and the remaining attempts |
| `Retries.AttemptsWaits` | src/utils/excecuteWithRetries.js:23-24 | the j-th wait is `calculateRetryDelay` of the attempt that just failed |
| `Retries.AttemptsRetried` | src/utils/excecuteWithRetries.js:18-20 | every call before the last failed with a transient error |
| `Retries.AttemptsThrowError` | src/utils/excecuteWithRetries.js:15-20 | once the loop has run, what it throws is the error of a call, never `undefined` |
| `Retries.ExecuteWithRetries` | src/utils/excecuteWithRetries.js:8-29 | the loop as written computes the same calls, waits and outcome as the attempt-by-attempt definition |
| `Retries.DefaultLimit` | src/utils/excecuteWithRetries.js:8-13 | with the default limit there are 1 to 10 calls, and a first-call success returns at once without a wait |
| `Retries.AlwaysTransient` | src/utils/excecuteWithRetries.js:11-20 | an operation that always fails transiently is called exactly `maxRetries` times, and its last error is rethrown |
| `Retries.BusinessErrorsNotRetried` | src/utils/excecuteWithRetries.js:18-20 | a business error or the repository's wrapper on the first call ends the retries after that one call |
| `Retries.DefaultWaitsBelowNine` | src/utils/excecuteWithRetries.js:18-24 | under the default limit, every wait is for an attempt below 9 |
| `Retries.DefaultWaitsUncapped` | src/utils/excecuteWithRetries.js:23-24 | under the default limit, no wait the wrapper makes ever reaches the 100 cap |
| `CronUtils.FallbackTime` | src/utils/cronUtils.js:14-18 | the fallback lies on an hour boundary, strictly after now and at most one hour later |
| `CronUtils.FallbackUnique` | src/utils/cronUtils.js:14-18 | those two properties pin the fallback down: it is the only hour boundary in (now, now + 1 h] |
| `CronUtils.TryNextRun` | src/utils/cronUtils.js:7-9 | the `try` block yields an instant exactly when the parse succeeds and `next()` does not throw, and that instant is `next()` of the parsed expression |
| `CronUtils.CalculateNextRun` | src/utils/cronUtils.js:6-23 | never throws; when the parse and `next()` both succeed it is the parser's next instant, and when either throws it is the fallback |
| `CronUtils.ValidateCronExpression` | src/utils/cronUtils.js:28-38 | valid exactly when the parse succeeds; otherwise it carries the parser's message |
| `CronUtils.GetCronDescription` | src/utils/cronUtils.js:43-50 | the canonical text on a parse, and 'Invalid cron expression' exactly on a parse failure |
| `CronUtils.NextRunIsFuture` | src/utils/cronUtils.js:6-23 | under the parser's promise, the next run is after now; for an expression the validator rejects it is at most one hour away |
| `CronUtils.HelpersAgree` | src/utils/cronUtils.js:6-50 | a rejected expression falls back and is described as invalid; an accepted one is described by the text the parser prints and scheduled by `next()` of the parsed expression, and still falls back when `next()` throws; the fallback path is taken exactly when the validator rejects or `next()` throws |
| `SeedCron.GetNextRunTime` | migrations/20250619252416-seed-scheduler-jobs.js:7-56 | throws 'Invalid cron expression format' exactly when `split(' ')` does not give six parts |
| `SeedCron.CeilDiv` | migrations/20250619252416-seed-scheduler-jobs.js:23 | `Math.ceil(a / n)` is the least `q` with `a <= q·n` (for positive `n`) |
| `SeedCron.TimeClip` | migrations/20250619252416-seed-scheduler-jobs.js:18 | the `Date` range: an instant is kept exactly when it lies within 8.64·10^15 ms of the epoch, otherwise the date is invalid |
| `SeedCron.SetField` | migrations/20250619252416-seed-scheduler-jobs.js:23-25 | a one-argument setter replaces one field, keeps the coarser fields and the finer remainder, and gives an invalid date exactly when the date was invalid, the argument is `NaN`, or the instant it computes leaves the range |
| `SeedCron.StepValue` | migrations/20250619252416-seed-scheduler-jobs.js:23 | `Math.ceil(current / N) * N` is `NaN` exactly when `N` is `NaN` or zero; for a positive `N` it is the least multiple of `N` at or above `current`, and for a negative one it lies in (`current + N`, `current`] |
| `SeedCron.FieldsNextRun` | migrations/20250619252416-seed-scheduler-jobs.js:20-53 | the four branches on the minute and hour fields: minute step, hour step, fixed time, top of the next hour; any valid result, and the clock reading, lie in the `Date` range; the `SeedCron` lemmas below state what each branch yields |
| `SeedCron.FixedTime` | migrations/20250619252416-seed-scheduler-jobs.js:36-46 | an unreadable hour or minute, or a clock reading outside the range, gives an invalid date; a valid result lies in the range on a whole minute; `SeedCron.FixedTimeBounds` states when it is valid and where it lands |
| `SeedCron.MinuteStep` | migrations/20250619252416-seed-scheduler-jobs.js:21-26 | valid exactly when the clock reading is in range, `parseInt` read a non-zero step, and the instant `setMinutes` computes (the rounded-up minute with the current second and millisecond) is in range; the result is then the start of that minute |
| `SeedCron.HourStep` | migrations/20250619252416-seed-scheduler-jobs.js:28-34 | valid exactly when the clock reading is in range, the step is a non-zero number, and the instant `setHours` computes is in range; the result is then the start of that hour |
| `SeedCron.NextHour` | migrations/20250619252416-seed-scheduler-jobs.js:47-53 | the top of the next hour, valid exactly when the clock reading and the instant an hour later are in range |
| `SeedCron.OnlyMinuteAndHourMatter` | migrations/20250619252416-seed-scheduler-jobs.js:9-15 | for six space-free fields, the result is decided by the minute and hour fields alone |
| `SeedCron.OtherFieldsIgnored` | migrations/20250619252416-seed-scheduler-jobs.js:15-53 | two expressions that agree on minute and hour get the same next run, whatever the second, day, month and weekday fields say |
| `SeedCron.MinuteStepFirst` | migrations/20250619252416-seed-scheduler-jobs.js:21-34 | a `*/N` minute field takes precedence over anything in the hour field |
| `SeedCron.StepGrid` | migrations/20250619252416-seed-scheduler-jobs.js:23-33 | rounding the current minute or hour up to a multiple of `N` lands on the `N`-unit grid, in [current unit, current unit + N units) |
| `SeedCron.MinuteStepBounds` | migrations/20250619252416-seed-scheduler-jobs.js:21-26 | a positive minute step lands on the hour's `N`-minute grid, in [start of this minute, start of this minute + N min), which can be before now; the date is valid exactly when the clock reading is in range and that instant plus the current second and millisecond does not pass the end of the range, so always when `now + N min` is in range |
| `SeedCron.OversizedStepInvalid` | migrations/20250619252416-seed-scheduler-jobs.js:21-26 | a minute step longer than the whole range after the epoch (such as 200000000000) gives an invalid date at any instant since 1970 that is not in the first minute of its hour |
| `SeedCron.HourStepBounds` | migrations/20250619252416-seed-scheduler-jobs.js:28-34 | a positive hour step lands on the day's `N`-hour grid, in [start of this hour, start of this hour + N h); valid exactly when the clock reading is in range and that instant plus the current minutes does not pass the end of the range |
| `SeedCron.BadStepInvalid` | migrations/20250619252416-seed-scheduler-jobs.js:21-26 | a step of zero, or one `parseInt` cannot read, gives an invalid date |
| `SeedCron.FixedTimeBounds` | migrations/20250619252416-seed-scheduler-jobs.js:36-46 | a fixed time H:M within 0..23 and 0..59 is today if still ahead, else tomorrow: strictly after now, at most a day later, at H:M:00.000; the date is valid exactly when the clock reading and that instant are in range |
| `SeedCron.FixedTimeUnreadable` | migrations/20250619252416-seed-scheduler-jobs.js:36-40 | a fixed time whose hour or minute `parseInt` cannot read gives an invalid date |
| `SeedCron.DefaultIsFallback` | migrations/20250619252416-seed-scheduler-jobs.js:47-53 | the default branch gives the same top-of-next-hour as the cron helper's fallback, and an invalid date when the clock reading or the instant an hour later is out of range |
| `SeedCron.EveryFifteenMinutes` | migrations/20250619252416-seed-scheduler-jobs.js:21-23 | `*/15` in the minute field reads as a step of 15 minutes |
| `SeedCron.WideSpaceSkipped` | migrations/20250619252416-seed-scheduler-jobs.js:22 | `parseInt` reads 15 from an ideographic space followed by "15" |
| `SeedCron.HealthCheckAtQuarterPast` | migrations/20250619252416-seed-scheduler-jobs.js:91-99 | the health check's `0 */15 * * * *` seeded at 10:15:30 gets 10:15:00, half a minute in the past |
| `SchedulerStore.Stale` | src/services/Scheduler.js:127-132 | a row is swept when its heartbeat is older than now − 120 s |
| `SchedulerStore.ActiveIsNotStale` | src/controllers/SchedulerController.js:17-21 | an instance reported active (heartbeat ≥ now − 120 s) is exactly one the sweep keeps (not < now − 120 s) |
| `SchedulerStore.Due` | src/services/Scheduler.js:160-165 | a job is due when it is active and its `next_run` is at or before now |
| `SchedulerStore.DueJobs` | src/services/Scheduler.js:160-165 | the due jobs are exactly the active jobs with `next_run <= now` |
| `Scheduler.Init` | src/services/Scheduler.js:7-13 | fresh scheduler objects are not running, have no handlers, and share an empty store with nothing in flight |
| `Scheduler.Start` | src/services/Scheduler.js:18-52 | a no-op when already running; otherwise upserts only this instance's row with heartbeat now and sets the flag; the other instances, this instance's handlers, the id counters, the jobs, the history, the locks and the executions in flight are unchanged |
| `Scheduler.AddJob` | src/services/Scheduler.js:145-148 | registers the handler name on this instance only; the store and the other instances are unchanged |
| `Scheduler.FailOpenRecords` | src/services/Scheduler.js:77-89 | exactly this instance's records without `finished_at` become failed with "Instance stopped" at now; every other record is unchanged |
| `Scheduler.Stop` | src/services/Scheduler.js:57-101 | a no-op when not running; otherwise fails this instance's open records, deletes only its row and clears the flag; the other instances, this instance's handlers, the id counters, the jobs, the locks and the executions in flight are untouched |
| `Scheduler.Heartbeat` | src/services/Scheduler.js:119-140 | keeps exactly the rows that are this instance's or not stale; refreshes this instance's heartbeat only when its row still exists (a swept row is not re-created); jobs, history and locks are unchanged |
| `Scheduler.ClaimJob` | src/services/Scheduler.js:179-198 | claiming takes the job's lock, inserts one `running` record for (job, instance) with a fresh id, starts one execution that remembers whether the handler lookup found anything (a registered name, or one inherited from `Object.prototype`), and moves only this job's `next_run` to `calculateNextRun` at the tick |
| `Scheduler.Claims` | src/services/Scheduler.js:171-206 | the claim loop keeps the instances and the job ids; it only takes locks, and only for jobs of the due list |
| `Scheduler.Tick` | src/services/Scheduler.js:153-210 | a stopped instance's tick changes nothing; a tick keeps the instances, releases no lock, and locks only jobs that were due |
| `Scheduler.FirstFree` | src/services/Scheduler.js:171-189 | the reference choice of a tick: at most `cap` jobs, each from the due list and with a free lock |
| `Scheduler.ClaimsAreFirstFree` | src/services/Scheduler.js:171-206 | the loop claims exactly the first free jobs in query order, up to the cap; a held lock is skipped without a record or a `next_run` change |
| `Scheduler.TickIsFirstFree` | src/services/Scheduler.js:153-210 | a stopped instance's tick changes nothing; a running one claims the first due job with a free lock, if any, and changes nothing else |
| `Scheduler.FirstFreeSkipsLocked` | src/services/Scheduler.js:171-189 | failed lock attempts do not count toward the cap: the first due job with a free lock is taken, however many locked ones precede it |
| `Scheduler.AllLockedNothingFree` | src/services/Scheduler.js:188-205 | when every due job's lock is held, the tick claims nothing |
| `Scheduler.ClaimedNotDue` | src/services/Scheduler.js:196-198 | under the parser's promise, a claimed job is no longer due at the tick's instant |
| `Scheduler.Finalised` | src/services/Scheduler.js:225-250 | the record gets `finished_at`; it is completed exactly when the lookup found a handler and the call resolved; otherwise its status is `failed`: a failed lookup fails it with "Handler <name> not found", a rejection with its message, and one whose value has no `message` leaves `error_message` as it was; a rejection with `undefined` or `null` is failed the same way, which is the intended behaviour (the code as written is `ProcessExit.FinishAsWritten`, see Findings) |
| `Scheduler.Finish` | src/services/Scheduler.js:215-264 | settling an execution finalises its record, releases its job's lock, and ends that execution only; the instances, the jobs and the id counters are unchanged |
| `Scheduler.InheritedNameFound` | src/services/Scheduler.js:225-229 | a handler name inherited from `Object.prototype` (`toString`, `constructor`, …) is found though no instance registered it, so a successful call completes the record; any other unregistered name fails it with "not found" |
| `SchedulerController.CreateJob` | src/controllers/SchedulerController.js:131-200 | 400 for a missing field, then 400 for a rejected interval, then 409 for a taken name, and nothing is created; every complete request with an accepted interval and a free name gets the 201 "Job created successfully", which adds exactly one job, with `is_active` defaulting to true and `next_run` from `calculateNextRun` |
| `SchedulerController.CreatedJobNotDue` | src/controllers/SchedulerController.js:168-178 | a created job's expression parses, so it is scheduled by the parser's `next()` (by the fallback only when `next()` throws), and under the parser's promise it is not due when created |
| `SchedulerController.CreatePreservesWellFormed` | src/controllers/SchedulerController.js:156-178 | creating keeps job names unique |
| `SchedulerController.Updated` | src/controllers/SchedulerController.js:232-242 | only the fields present in the body change; `next_run` moves exactly when a non-empty interval differs from the stored one |
| `SchedulerController.UpdateJob` | src/controllers/SchedulerController.js:205-266 | 404 for an unknown id; 400 for a non-empty interval the validator rejects; 500 when the new name is another job's; nothing changes on any of these; every other request gets the 200 "Job updated successfully", and only the addressed job changes |
| `SchedulerController.EmptyIntervalStoredUnchecked` | src/controllers/SchedulerController.js:220-242 | an empty interval skips validation yet is stored, and `next_run` stays |
| `SchedulerController.SameIntervalKeepsNextRun` | src/controllers/SchedulerController.js:240-242 | resubmitting the stored interval leaves the job as it was |
| `SchedulerController.UpdatePreservesWellFormed` | src/controllers/SchedulerController.js:233-244 | updating keeps job names unique |
| `SchedulerController.HasRunningRecord` | src/controllers/SchedulerController.js:284-296 | the job has a record with status running and no `finished_at`: what makes `deleteJob` refuse with 400 |
| `SchedulerController.DeleteJob` | src/controllers/SchedulerController.js:271-315 | 404 for an unknown id; 400 exactly when a record of the job is running without `finished_at`; otherwise the job alone is removed |
| `SchedulerController.DeletePreservesWellFormed` | src/controllers/SchedulerController.js:301 | deleting keeps job names unique |
| `SchedulerController.JobStatus` | src/controllers/SchedulerController.js:48-68 | a job shows 'running' exactly when some record of it is running without `finished_at`, and 'waiting' otherwise |
| `SchedulerController.ActiveInstances` | src/controllers/SchedulerController.js:17-24 | the listed instances are exactly the rows whose heartbeat is within 120 s |
| `SchedulerController.RunningRecords` | src/controllers/SchedulerController.js:27-45 | the records counted as running are exactly those with status running and no `finished_at` |
| `SchedulerController.ActiveJobs` | src/controllers/SchedulerController.js:110 | the active jobs are exactly the jobs with `is_active` |
| `SchedulerController.GetSummary` | src/controllers/SchedulerController.js:108-113 | active jobs never exceed all jobs, and active instances never exceed the instance rows |
| `SchedulerController.ActiveListIsSweepSurvivors` | src/controllers/SchedulerController.js:17-21 | the instances reported active are exactly those a heartbeat sweep at the same instant would keep |
| `SchedulerSafety.InitInv` | src/services/Scheduler.js:7-13 | fresh instances over the empty store satisfy the cluster invariant |
| `SchedulerSafety.OpenImpliesLocked` | src/services/Scheduler.js:179-188 | a record without `finished_at` means its job's lock is held |
| `SchedulerSafety.AtMostOneOpenPerJob` | src/services/Scheduler.js:179-189 | at most one record of a job is without `finished_at` at any time |
| `SchedulerSafety.RunningStatusImpliesLocked` | src/controllers/SchedulerController.js:48-68 | the job list shows a job as running only while its lock is held |
| `SchedulerSafety.RunningCountBounded` | src/controllers/SchedulerController.js:108-113 | the summary's running count never exceeds the number of held locks |
| `SchedulerSafety.StoppedJobLockedButWaiting` | src/services/Scheduler.js:77-94 | after `stop`, a job still executing on the stopped instance is shown as waiting, yet its lock stays held, so no tick can claim it |
| `SchedulerSafety.StopThenSuccess` | src/services/Scheduler.js:237-240 | an execution that succeeds after its instance stopped overwrites the failed record with completed, and keeps the "Instance stopped" message |
| `SchedulerSafety.StartInv` | src/services/Scheduler.js:18-52 | `start` keeps the cluster invariant |
| `SchedulerSafety.AddJobInv` | src/services/Scheduler.js:145-148 | `addJob` keeps the cluster invariant |
| `SchedulerSafety.StopInv` | src/services/Scheduler.js:57-101 | `stop` keeps the cluster invariant |
| `SchedulerSafety.HeartbeatInv` | src/services/Scheduler.js:119-140 | the heartbeat and sweep keep the cluster invariant |
| `SchedulerSafety.ClaimJobInv` | src/services/Scheduler.js:179-198 | claiming a job whose lock is free keeps the cluster invariant |
| `SchedulerSafety.ClaimsInv` | src/services/Scheduler.js:171-206 | the claim loop keeps the cluster invariant |
| `SchedulerSafety.TickInv` | src/services/Scheduler.js:153-210 | a tick keeps the cluster invariant |
| `SchedulerSafety.FinishInv` | src/services/Scheduler.js:215-264 | settling an execution keeps the cluster invariant |
| `SchedulerSafety.CreateJobInv` | src/controllers/SchedulerController.js:131-200 | `createJob` keeps the cluster invariant |
| `SchedulerSafety.UpdateJobInv` | src/controllers/SchedulerController.js:205-266 | `updateJob` keeps the cluster invariant |
| `SchedulerSafety.DeleteJobInv` | src/controllers/SchedulerController.js:271-315 | `deleteJob` keeps the cluster invariant |
| `SchedulerSafety.Step` | src/services/Scheduler.js:18-264 | any event an instance or a client can cause (start, stop, addJob, heartbeat, tick, a run settling, createJob, updateJob, deleteJob) applied to the cluster; the set of instances never changes |
| `SchedulerSafety.StepInv` | src/services/Scheduler.js:18-264 | every enabled event of any instance or client keeps the cluster invariant |
| `SchedulerSafety.ReplayInv` | src/services/Scheduler.js:18-264 | every trace of enabled events keeps the cluster invariant |
| `SchedulerSafety.ReachableExclusive` | src/services/Scheduler.js:179-189 | in every cluster reachable from fresh instances, no two executions of one job are in flight |
| `ProcessExit.RunsOf` | src/server.js:68-71 | the executions in flight of one instance's process are exactly the runs started by that instance |
| `ProcessExit.Exit` | src/server.js:68-71 | the process exit ends exactly that instance's executions and releases exactly the locks they held; the history, the instance rows, the jobs, the id counters and the other instances are unchanged, and the instance's flag is cleared |
| `ProcessExit.FinishAsWritten` | src/services/Scheduler.js:244-263 | a found handler rejecting with `undefined` or `null` throws at `error.message` before the record update, unlocks in `finally`, and the unhandled rejection exits the process; every other outcome settles as `Scheduler.Finish` |
| `ProcessExit.NullishRejectionLeavesRecordRunning` | src/services/Scheduler.js:244-250 | from any state of the invariant, that rejection leaves the record open and `running` with no execution and its job unlocked; the job shows as running, its delete answers 400, and the invariant is broken |
| `ProcessExit.NullishRejectionAsIntended` | src/services/Scheduler.js:244-250 | settled as intended, the same execution's record is failed and closed, and the invariant holds |
| `ForeignKeys.StopAsWritten` | src/services/Scheduler.js:57-101 | under the schema, `stop` on an instance whose row exists and is referenced fails its open records but keeps its row and flag; otherwise (a delete that finds no row included) it is the intended `stop` |
| `ForeignKeys.StopAfterAnyRunSticks` | src/services/Scheduler.js:92-100 | an instance that a history row still references keeps its row and its flag after `stop`, and a later `start` is a no-op |
| `ForeignKeys.StopAsIntended` | src/services/Scheduler.js:77-96 | the intended `stop` removes the row, clears the flag, and leaves none of the instance's records open |
| `ForeignKeys.HeartbeatAsWritten` | src/services/Scheduler.js:119-140 | under the schema, when any stale peer is referenced, the sweep deletes nothing, though the heartbeat update happens |
| `ForeignKeys.OneReferencedRowBlocksSweep` | src/services/Scheduler.js:127-132 | one dead instance that a history row still references keeps every dead instance in the table, which the intended sweep would remove |
| `ForeignKeys.DeleteJobAsWritten` | src/controllers/SchedulerController.js:271-315 | under the schema, deleting a job that history references answers 500 and changes nothing; otherwise it is the intended `deleteJob` |
| `ForeignKeys.ClaimedJobUndeletable` | src/controllers/SchedulerController.js:301 | a claimed job cannot be deleted while its record remains, even after its execution settles |
| `ForeignKeys.DeleteAsIntended` | src/controllers/SchedulerController.js:301 | as intended, a job without a running execution is deleted |
| `UserDomain.FromDatabase` | src/domain/User.js:9-16 | the domain user carries the row's id, balance and timestamps |
| `UserDomain.ToJson` | src/domain/User.js:38-45 | the JSON view carries the user's id, balance and timestamps |
| `UserDomain.JsonOfRow` | src/domain/User.js:9-45 | `toJSON(fromDatabase(row))` reproduces the row field for field |
| `UserDomain.JsonOfRowInjective` | src/domain/User.js:9-45 | distinct rows give distinct JSON views |
| `UserDomain.CanWithdraw` | src/domain/User.js:18-20 | the domain's rule: a signed amount may be applied when the balance stays non-negative |
| `UserDomain.ModelCanWithdraw` | src/models/User.js:16-18 | the ORM model's rule: a positive sum may be taken out when the balance covers it |
| `UserDomain.CanWithdrawAgreesWithModel` | src/models/User.js:16-18 | the domain's `canWithdraw(-a)` (signed amount) agrees with the ORM model's `canWithdraw(a)` (`balance >= a`) |
| `UserDomain.Withdraw` | src/domain/User.js:22-28 | throws exactly when `balance + amount < 0`, leaving the balance; otherwise it adds the amount, and the new balance is never negative |
| `UserDomain.Deposit` | src/domain/User.js:30-36 | rejects exactly the negative amounts; otherwise it adds the amount, and the balance does not drop |
| `UserDomain.DepositZero` | src/domain/User.js:34-35 | depositing 0 changes nothing |
| `UserDomain.WithdrawUndoesDeposit` | src/domain/User.js:22-36 | withdrawing what was just deposited restores an account with a non-negative balance |
| `UserDomain.DepositUndoesWithdraw` | src/domain/User.js:22-36 | depositing what was just withdrawn restores the account |
| `UserDomain.NoDoubleWithdraw` | src/domain/User.js:22-28 | of two withdrawals of the whole positive balance, the second throws |
| `UserRepository.Route` | src/repositories/UserRepository.js:74-85 | business and transient errors are rethrown unchanged; anything else becomes `ApplicationError('Database operation failed', 500)` |
| `UserRepository.RouteIdempotent` | src/repositories/UserRepository.js:74-85 | routing an already-routed error changes nothing: the wrapper routes to itself |
| `UserRepository.Transaction` | src/repositories/UserRepository.js:37-87 | a fault while opening the transaction, before the `try`, escapes as it is; a fault inside the `try` is routed; a missing account raises `UserNotFound`; `balance + amount < 0` raises `InsufficientFunds` with the user id, the absolute amount and the balance; every failure leaves the ledger; otherwise it commits `balance + amount` to that account only and returns `{id, balance}` |
| `UserRepository.TransactionIsWithdraw` | src/repositories/UserRepository.js:54-60 | the transaction commits exactly when the domain's `canWithdraw` holds, and then stores what `withdraw` computes |
| `UserRepository.UpdateBalance` | src/repositories/UserRepository.js:30-32 | the update is the transaction under `executeWithRetries` with the default limit and `isRetryableError`; only a returned update changes the ledger |
| `UserRepository.UpdateBalanceCommits` | src/repositories/UserRepository.js:59-65 | there are 1 to 10 attempts, and a returned update committed `balance + amount >= 0` on an existing account |
| `UserRepository.TransactionErrors` | src/repositories/UserRepository.js:37-85 | over driver faults, a fault while opening surfaces as it is; any other failure is only `UserNotFound`, the matching `InsufficientFunds`, a transient driver error, or the wrapper |
| `UserRepository.UpdateBalanceErrors` | src/repositories/UserRepository.js:30-39 | a failed update throws one of those errors, or the fault the last attempt met while opening its transaction; never `undefined` |
| `UserRepository.BeginFaultEscapesUnwrapped` | src/repositories/UserRepository.js:37-39 | a non-transient driver error while opening the first transaction ends the update after one call and escapes unwrapped, while the same error at the row lookup becomes the wrapper |
| `UserRepository.UpdateBalanceBusiness` | src/repositories/UserRepository.js:49-56 | a business error the update throws is the one the account's state calls for |
| `UserRepository.BusinessErrorEndsUpdate` | src/repositories/UserRepository.js:74-77 | a fault-free first attempt that meets a missing account or insufficient funds ends the update after one call, with the ledger unchanged |
| `UserRepository.UpdateBalanceSafe` | src/repositories/UserRepository.js:44-60 | an update keeps every balance non-negative, and changes no other account |
| `UserRepository.ApplyAllSafe` | src/repositories/UserRepository.js:44-60 | any serial sequence of updates keeps every balance non-negative: no double spend |
| `UserRepository.SecondWithdrawalRefused` | src/repositories/UserRepository.js:54-56 | after withdrawing a whole positive balance, a second equal withdrawal is refused with `InsufficientFunds` and 0 available |
| `UserService.ValidateUserId` | src/services/UserService.js:62-66 | accepts exactly the positive integers; otherwise `ApplicationError` 400 "User ID must be a positive integer" |
| `UserService.ValidateAmount` | src/services/UserService.js:71-75 | accepts exactly the integers; otherwise `ApplicationError` 400 "Amount must be an integer" |
| `UserService.WrapUpdateError` | src/services/UserService.js:51-56 | business errors pass unchanged; anything else becomes `ApplicationError('Failed to update balance', 500)` |
| `UserService.UpdateBalance` | src/services/UserService.js:45-57 | the id is validated first, then the amount, and neither invalid input reaches the repository or changes the ledger; otherwise it returns the repository's result and wraps its error |
| `UserService.UpdateBalanceServiceErrors` | src/services/UserService.js:45-57 | a failed call surfaces only a validation error, a business error, or the 500 wrapper; never a raw driver error |
| `UserService.UpdateBalanceBusinessError` | src/services/UserService.js:52-54 | a business error reaching the caller is the one the account's state calls for |
| `UserService.UpdateBalanceCommits` | src/services/UserService.js:50 | a successful call returns the old balance plus the amount |
| `UserService.UpdateBalanceStores` | src/services/UserService.js:50 | a successful call stores the new balance of that account alone |
| `UserService.UpdateBalanceFailureKeepsLedger` | src/services/UserService.js:45-57 | a failed call, valid or not, changes no account |
| `UserService.GetUserById` | src/services/UserService.js:25-40 | validates the id first; a missing user is `UserNotFound`; any other lookup failure is 500 "Failed to retrieve user"; success returns that row |
| `UserService.GetAllUsers` | src/services/UserService.js:14-20 | fails with 500 "Failed to retrieve users" exactly when the query fails; otherwise one user per returned row, in order |
| `UserService.AllUsersListed` | src/repositories/UserRepository.js:14-17 | when the query lists every account once, the users listed are exactly the accounts, each once and with its balance |
| `ErrorHandler.Respond` | src/middleware/errorHandler.js:21-106 | the response of each branch: always `success: false`; a fixed status per branch (the `ApplicationError`'s own for its branch); a 503 exactly from the connection and network branches, or an `ApplicationError` carrying 503 |
| `ErrorHandler.FirstMatch` | src/middleware/errorHandler.js:21-106 | the rule chosen is the first that matches the error |
| `ErrorHandler.FirstMatchIs` | src/middleware/errorHandler.js:21-106 | a matching rule with no earlier match is the one chosen |
| `ErrorHandler.Handle` | src/middleware/errorHandler.js:9-107 | every response has `success: false`; the `INTERNAL_SERVER_ERROR` code goes exactly to the errors no earlier branch claims, as a 500 with the error's message in development and "Internal server error" otherwise |
| `ErrorHandler.OwnErrorsKeepStatus` | src/middleware/errorHandler.js:21-57 | the application's own errors get the status they carry (422, 404, or the `ApplicationError`'s own) with their code |
| `ErrorHandler.BusinessDetails` | src/middleware/errorHandler.js:21-47 | insufficient funds reports user id, requested amount and available balance; user not found reports the user id |
| `ErrorHandler.ValidationListsFields` | src/middleware/errorHandler.js:59-71 | a `SequelizeValidationError` is a 400 VALIDATION_ERROR with one (field, message) entry per inner error, whatever else it carries |
| `ErrorHandler.ConnectionErrorsUnavailable` | src/middleware/errorHandler.js:73-84 | the four Sequelize connection errors are a 503 DATABASE_CONNECTION_ERROR |
| `ErrorHandler.NetworkErrorsUnavailable` | src/middleware/errorHandler.js:86-98 | a driver error with one of the five listed codes, not claimed by name, is a 503 `NETWORK_ERROR` "Network connection error" |
| `ErrorHandler.RetryableNetworkCodes` | src/middleware/errorHandler.js:86-106 | every retryable network code is transient; it is a 503 `NETWORK_ERROR` except ECONNABORTED and ENETUNREACH, which fall through to a 500 `INTERNAL_SERVER_ERROR` |
| `ErrorHandler.FallbackResponse` | src/middleware/errorHandler.js:100-106 | every driver error not claimed by name or code is a 500 `INTERNAL_SERVER_ERROR` with its own message in development and "Internal server error" otherwise |
| `ErrorHandler.FallbackHidesMessage` | src/middleware/errorHandler.js:100-106 | outside development, an unexpected error is a 500 that hides its message |
| `ErrorHandler.BalanceUpdateStatuses` | src/middleware/errorHandler.js:9-107 | a failed balance update answers 400, 404, 422 or 500, never 503 |

## Left out

- Wall-clock time, `setInterval`/`setTimeout`, the 15 s and 30 s timer periods and the waits of `executeWithRetries`: the clock is a parameter (`now`) of each step, and waits are recorded as the attempt numbers they are computed for.
- `Scheduler.Tick`: the due query (src/services/Scheduler.js:160-165) and the lock attempts (180-186) form one atomic step, and the 0–200 ms random pause between them (176) is not modelled. In the source a peer can act on a stale due list: instances A and B both read job J as due; A locks J, moves its `next_run` and, when the execution fails at once (a missing handler or an immediate rejection), unlocks it; B then locks J and runs it a second time for the same due instant. The model cannot reach that trace, and `Scheduler.ClaimedNotDue` speaks of the instant of one atomic tick only. The two executions never overlap, since B locks only after A has unlocked.
- `Math.random()`: the draw is a parameter of `CalculateRetryDelay`, assumed to be in [0, 1).
- Local time zones and daylight saving in the JavaScript `Date` setters: time is integer UTC milliseconds with fixed 1 h and 24 h lengths.
- IEEE doubles in the back-off: the delay is computed over `real`.
- The internals of the cron-parser library, which is not part of this model: `parse`/`next` are abstract, and "next lies after now" is a hypothesis (`NextIsFuture`). The description is the text `stringify()` prints, which may leave out the seconds field; the schedule is keyed by the expression itself, so two expressions with one description may fire at different instants.
- `CronUtils.FallbackTime`: the fallback is an integer instant; within an hour of the end of the JavaScript `Date` range (8.64·10^15 ms after the epoch) `setHours` would give Invalid Date. The seed migration's own copy of this arithmetic, `SeedCron.NextHour`, does model the range.
- `toLowerCase` on non-ASCII text: only ASCII letters fold, while JavaScript folds every script, and a few non-ASCII letters (the Kelvin sign) fold onto keyword letters.
- `parseInt` on inputs beyond sign, `0x` prefix and decimal or hexadecimal digits (numeric separators, very long inputs that lose precision). Digit strings beyond the double range, which `parseInt` reads as `Infinity`, are read as their exact value; in the seed migration the only difference is a step of more than 308 digits at minute (or hour) zero, where `0 * Infinity` is `NaN` and JavaScript gives Invalid Date while the model gives the start of the hour (or day).
- `SeedCron.MinuteStep`, `SeedCron.HourStep`, `SeedCron.FixedTime`: the `Date` setters' arithmetic is exact integer arithmetic, while JavaScript sums in doubles; they differ only when an intermediate sum exceeds 2^53 ms yet the result lands back in range, which needs a clock reading more than 11 000 years from 1970.
- The 32-bit `INTEGER` columns and JavaScript's 53-bit safe integers: balances, ids and amounts are unbounded integers.
- The process layer and HTTP wiring (`start-cluster.js`, `src/server.js`, `src/app.js`, `index.js`, the routes, `UserController`) and the job handler bodies of `src/jobs/index.js`: they are outside the core, except the `unhandledRejection` exit of `src/server.js`, which `ProcessExit.Exit` models; a handler is an opaque promise that resolves or rejects.
- Real advisory-lock semantics: session ownership, pooled connections (the unlock may run on a different session from the lock), and `hashtext` collisions between job ids. Locks are one shared set of job ids.
- Errors from the unlock query, which the source only logs: the lock is always released.
- The order of the statements inside one claim: the lock, the history insert of the background `executeJob` and the `next_run` update form one atomic step.
- `Scheduler.ClaimJob`: the history insert of `executeJob` never fails here. In the source it runs before the `try` whose `finally` unlocks (src/services/Scheduler.js:218-225), so a failed insert rejects `executeJob`, which nobody awaits; the `unhandledRejection` handler then exits the process (src/server.js:68-71). The exit closes the process's pooled sessions, which releases every advisory lock they hold, this job's included. The instance row stays until a peer's sweep, and every record the process had open stays open and `running`. A failing `history.update` in the `catch` (246-250) ends the same way after the `finally` has unlocked. In the model no database write of `executeJob` fails; the exit itself is modelled, for the nullish rejection of Findings, by `ProcessExit.Exit`.
- Database failures in `stop`, `updateHeartbeat` and `runScheduler`, other than the foreign-key failures of Findings: the source catches and logs them. A database failure in `start` is logged and rethrown (src/services/Scheduler.js:48-51), and the application's start-up then exits the process (src/app.js:82-85); in the model `start` always succeeds. Database failures in the controller other than the unique index on the job name: the source answers 500 for them.
- The race between the name check of `createJob` and the insert; the unique index would then answer 500.
- Foreign-key checks on inserts (a history row for an instance that a peer has just swept); `SchedulerSafety` uses the intended deletes.
- `null` and non-string body fields in `createJob` and `updateJob`: a field is either absent or a string (or a boolean for `is_active`).
- `getJobHistory`, `getInstanceInfo`, `recent_history`, and the `running_instance` and `running_time_seconds` fields of `getJobs`: they only format rows.
- Row locking, isolation and the 5 s transaction timeout: a transaction is one atomic step, and a rollback leaves the ledger as it was. A database fault is modelled either while the transaction opens (before the `try`, so it escapes unrouted) or at the row lookup; a fault at the balance update or the commit is caught by the same block and ends the same way as one at the lookup.
- Other updates interleaved between the attempts of one `updateBalance`: each attempt sees the same ledger.
- `BaseError` is not part of this model: the error codes and status codes come from the three subclasses' constructor arguments.
- The `min: 0` validation of the ORM `User` model and the `CHECK (balance >= 0)` constraint are never reached by the repository, which checks first; they appear only as the invariant `NonNegative`.
- `Retries.ExecuteWithRetries`: the transient test is a parameter; the repository passes `IsRetryableError`, and every lemma about the repository uses that test.
- `Scheduler.Finalised`: for a handler name inherited from `Object.prototype` the lookup succeeds, and what the call then does is left to the outcome parameter. The model does not state that the methods needing a receiver (`hasOwnProperty`, `valueOf`, …) and `__proto__` (not a function) always reject with a `TypeError`. Nor does it model that `addJob` under `__proto__` replaces the object's prototype instead of adding a handler.
- A rejection whose value is not `undefined` or `null` but has no `message` (a plain string, say) leaves `error_message` as it was, as the ORM does not write an attribute set to `undefined`; a rejection with `undefined` or `null` is the Findings row on `ProcessExit`; a rejection value with a non-string `message` is not modelled.
- `ProcessExit.Exit`: a restarted process constructs a new scheduler object under a fresh `uuidv4()` id, while the model keeps the dead id's entry as a stopped object with no handlers; the `SchedulerSafety` trace does not include the exit, since it follows the intended `Scheduler.Finish`.
- `Scheduler.Finish`: the two-minute floor of `executeJob` guards only a completed record; a missing handler or a rejection settles at once, since `Promise.all` rejects without waiting for the timer.
- `SchedulerController.GetSummary`: its contract states only the bounds between the counts; the counts are the sizes of `ActiveJobs`, `RunningRecords` and `ActiveInstances`, whose contracts give their members.

## Findings

| source | as written | input that shows it | evidently intended | confidence | as-written member | corrected member |
|---|---|---|---|---|---|---|
| migrations/20250619252414-create-scheduler-tables.js:87-94 | `instance_id` references `SchedulerInstances` with no `ON DELETE` action, so the delete in `stop` (src/services/Scheduler.js:92-94) fails while a history row points at the instance; the error is only logged and `isRunning` stays set, but both timers were already cleared (src/services/Scheduler.js:66-74), so the instance neither ticks nor beats any more and `start` is a no-op (`ForeignKeys.StopAsWritten`) | an instance with one recorded execution, not yet pruned by the cleanup job, calls `stop` | `stop` removes the instance row and clears the flag | medium, not executed (holds when the migration created the tables, not a `sync()` of the models) | `ForeignKeys.StopAfterAnyRunSticks` | `ForeignKeys.StopAsIntended` |
| migrations/20250619252414-create-scheduler-tables.js:87-94 | the sweep in `updateHeartbeat` (src/services/Scheduler.js:128-132) is a single `DELETE`; one stale row that history references makes it fail, so no stale row is removed (`ForeignKeys.HeartbeatAsWritten`) | two silent peers, one of which a history row still references | every row silent for over two minutes is removed | medium, not executed (same schema condition) | `ForeignKeys.OneReferencedRowBlocksSweep` | `Scheduler.Heartbeat` |
| migrations/20250619252414-create-scheduler-tables.js:79-86 | `job_id` references `SchedulerJobs` with no `ON DELETE` action, so `job.destroy()` in `deleteJob` (src/controllers/SchedulerController.js:301) fails with a 500 while a history row references the job, that is, until the cleanup job prunes its finished records after thirty days (`ForeignKeys.DeleteJobAsWritten`) | a job claimed once whose execution has finished, deleted before its record is pruned | a job that is not running is deleted | medium, not executed (same schema condition) | `ForeignKeys.ClaimedJobUndeletable` | `ForeignKeys.DeleteAsIntended` |
| src/services/Scheduler.js:243-250 | the `catch` of `executeJob` reads `error.message` for the record update; for a rejection with `undefined` or `null` that read throws a `TypeError`, so the record is never updated, the `finally` unlocks, and the rejection of the unawaited `executeJob` makes the `unhandledRejection` handler exit the process (src/server.js:68-71). The record stays `running` with no `finished_at` for good: the job shows as running and `deleteJob` answers 400 until someone edits the table | a handler `() => Promise.reject()` (or one that throws `undefined`) registered and claimed | the record is failed and closed, as `error?.message` would do | medium, not executed | `ProcessExit.NullishRejectionLeavesRecordRunning` | `ProcessExit.NullishRejectionAsIntended` |

=== FILE: clock.dfy ===
/** Instants as integer milliseconds since the epoch, read in UTC with fixed
    hour and day lengths (no time zone, no daylight saving). The JavaScript
    `Date` setters used by the scheduler reduce to the arithmetic below. */
module Clock {

  type Time = int

  const SECOND: int := 1000
  const MINUTE: int := 60 * SECOND
  const HOUR: int := 60 * MINUTE
  const DAY: int := 24 * HOUR

  function MinuteStart(t: Time): (r: Time)
    ensures r <= t < r + MINUTE && r % MINUTE == 0
  {
    t - t % MINUTE
  }

  function HourStart(t: Time): (r: Time)
    ensures r <= t < r + HOUR && r % HOUR == 0
  {
    t - t % HOUR
  }

  function DayStart(t: Time): (r: Time)
    ensures r <= t < r + DAY && r % DAY == 0
  {
    t - t % DAY
  }

  /** Euclidean division is determined by its quotient and remainder. */
  lemma DivModUnique(t: int, d: int, q: int, r: int)
    requires d > 0 && 0 <= r < d && t == q * d + r
    ensures t / d == q && t % d == r
  {
    var q', r' := t / d, t % d;
    assert (q - q') * d == r' - r;
    if q > q' {
      MulAtLeast(q - q', d);
    } else if q < q' {
      MulAtLeast(q' - q, d);
    }
  }

  lemma MulAtLeast(a: int, d: int)
    requires a >= 1 && d > 0
    ensures a * d >= d
  {
  }

  /** Splitting the remainder by a coarser unit into finer units. */
  lemma NestedMod(t: int, unit: int, k: int)
    requires unit > 0 && k > 0
    ensures (t % (k * unit)) / unit < k
    ensures t % (k * unit) == (t % (k * unit)) / unit * unit + t % unit
  {
    var big := k * unit;
    var q := t / big;
    var r := t % big;
    var m := r / unit;
    var s := r % unit;
    assert r == m * unit + s;
    assert t == (q * k + m) * unit + s by {
      assert t == q * big + r;
      assert q * big == q * k * unit;
    }
    DivModUnique(t, unit, q * k + m, s);
  }

  function MinuteOfHour(t: Time): (m: int)
    ensures 0 <= m < 60
    ensures MinuteStart(t) == HourStart(t) + m * MINUTE
  {
    NestedMod(t, MINUTE, 60);
    (t % HOUR) / MINUTE
  }

  function HourOfDay(t: Time): (h: int)
    ensures 0 <= h < 24
    ensures HourStart(t) == DayStart(t) + h * HOUR
  {
    NestedMod(t, HOUR, 24);
    (t % DAY) / HOUR
  }
}

=== FILE: consts.dfy ===
/** Retry configuration and the transient-error code lists shared by the
    retry wrapper and the error handler. */
module Consts {

  const MAX_RETRIES: int := 10
  const BASE_DELAY: real := 2.0
  const MAX_DELAY: real := 100.0
  const BACKOFF_MULTIPLIER: real := 1.5

  /** PostgreSQL SQLSTATE codes treated as transient (PostgreSQL manual,
      Appendix A "Error Codes"): deadlock_detected, lock_not_available,
      connection_does_not_exist, connection_failure, admin_shutdown,
      crash_shutdown, cannot_connect_now. */
  const RETRYABLE_ERROR_CODES: seq<string> :=
    ["40P01", "55P03", "08003", "08006", "57P01", "57P02", "57P03"]

  /** Node.js socket error codes treated as transient. */
  const RETRYABLE_NETWORK_ERRORS: seq<string> :=
    ["ECONNRESET", "EPIPE", "ENOTFOUND", "ECONNREFUSED", "ETIMEDOUT", "ECONNABORTED", "ENETUNREACH"]
}

=== FILE: cron_utils.dfy ===
/** The cron helpers: `calculateNextRun`, `validateCronExpression` and
    `getCronDescription`, over an abstract cron parser. */
module CronUtils {
  import opened Wrappers
  import opened Clock

  /** The cron-parser library, which is not part of this model. `parse`
      yields the text `stringify()` prints for the parsed expression, or the
      message it throws; that text can leave fields out (the seconds field,
      by default), so it does not determine the schedule. `next` gives the
      first instant the parsed form of an expression matches, seen from a
      clock reading, or `None` when `next()` throws (no matching instant
      within the library's search range); it is keyed by the expression
      itself, of which the parsed form is a function. */
  datatype CronParser = CronParser(parse: string -> Result<string, string>, next: (string, Time) -> Option<Time>)

  /** The library's promise, taken as an assumption: an instant `next()`
      returns lies strictly after the current one. */
  ghost predicate NextIsFuture(p: CronParser) {
    forall c: string, now: Time :: p.next(c, now).Some? ==> p.next(c, now).value > now
  }

  /** The fallback: the top of the next hour. It is the one hour boundary in
      `(now, now + HOUR]`. */
  function FallbackTime(now: Time): (r: Time)
    ensures r % HOUR == 0
    ensures now < r <= now + HOUR
  {
    HourStart(now) + HOUR
  }

  /** No two hour boundaries lie within one hour of each other, so the
      contract of `FallbackTime` determines it. */
  lemma FallbackUnique(now: Time, r: Time)
    requires r % HOUR == 0 && now < r <= now + HOUR
    ensures r == FallbackTime(now)
  {
    var f := FallbackTime(now);
    assert (r - f) % HOUR == 0;
  }

  /** The body of the `try` in `calculateNextRun`: parse, then `next()`.
      `None` when either of the two throws. */
  function TryNextRun(p: CronParser, expr: string, now: Time): (r: Option<Time>)
    ensures r.Some? <==> p.parse(expr).Success? && p.next(expr, now).Some?
    ensures r.Some? ==> r == p.next(expr, now)
  {
    match p.parse(expr)
    case Success(_) => p.next(expr, now)
    case Failure(_) => None
  }

  /** `calculateNextRun`: never throws; when the parse or `next()` throws,
      the result is the fallback. */
  function CalculateNextRun(p: CronParser, expr: string, now: Time): (r: Time)
    ensures p.parse(expr).Success? && p.next(expr, now).Some? ==> r == p.next(expr, now).value
    ensures p.parse(expr).Failure? ==> r == FallbackTime(now)
    ensures p.parse(expr).Success? && p.next(expr, now).None? ==> r == FallbackTime(now)
  {
    TryNextRun(p, expr, now).GetOr(FallbackTime(now))
  }

  /** The `{ valid, error }` object of `validateCronExpression`. */
  datatype Validation = Validation(valid: bool, error: Option<string>)

  function ValidateCronExpression(p: CronParser, expr: string): (v: Validation)
    ensures v.valid <==> p.parse(expr).Success?
    ensures v.valid ==> v.error.None?
    ensures !v.valid ==> v.error == Some(p.parse(expr).error)
  {
    match p.parse(expr)
    case Success(_) => Validation(true, None)
    case Failure(msg) => Validation(false, Some(msg))
  }

  const INVALID_DESCRIPTION: string := "Invalid cron expression"

  function GetCronDescription(p: CronParser, expr: string): (d: string)
    ensures p.parse(expr).Success? ==> d == p.parse(expr).value
    ensures p.parse(expr).Failure? ==> d == INVALID_DESCRIPTION
  {
    match p.parse(expr)
    case Success(c) => c
    case Failure(_) => INVALID_DESCRIPTION
  }

  /** Under the library's promise the next run is always in the future, and
      an expression that does not parse waits at most one hour. */
  lemma NextRunIsFuture(p: CronParser, expr: string, now: Time)
    requires NextIsFuture(p)
    ensures CalculateNextRun(p, expr, now) > now
    ensures !ValidateCronExpression(p, expr).valid ==> CalculateNextRun(p, expr, now) <= now + HOUR
  {
  }

  /** How the three helpers relate. A rejected expression falls back and is
      described as invalid; an accepted one is described by the parser's
      text and scheduled by `next()`, and still falls back when `next()`
      throws, although the validator accepted it. `calculateNextRun` takes
      the fallback path exactly when the validator rejects or `next()`
      fails. */
  lemma HelpersAgree(p: CronParser, expr: string, now: Time)
    ensures !ValidateCronExpression(p, expr).valid ==>
              CalculateNextRun(p, expr, now) == FallbackTime(now)
              && GetCronDescription(p, expr) == INVALID_DESCRIPTION
    ensures ValidateCronExpression(p, expr).valid ==>
              GetCronDescription(p, expr) == p.parse(expr).value
              && CalculateNextRun(p, expr, now) == p.next(expr, now).GetOr(FallbackTime(now))
    ensures TryNextRun(p, expr, now).None? <==>
              !ValidateCronExpression(p, expr).valid || p.next(expr, now).None?
  {
  }
}

=== FILE: error_handler.dfy ===
/** The `errorHandler` middleware: an ordered list of rules from a thrown
    error to an HTTP status, an error code and a message. The first rule
    that matches decides; every response carries `success: false`. */
module ErrorHandler {
  import opened Wrappers
  import opened Errors
  import opened Consts
  import opened Retryable
  import UserService
  import UserRepository

  /** The `details` object of a response. */
  datatype Details =
    | NoDetails
    | FundsDetails(userId: int, requestedAmount: int, availableBalance: int)
    | UserDetails(userId: int)
    | FieldDetails(fields: seq<FieldError>)

  datatype Response = Response(status: int, success: bool, code: string, message: string, details: Details)

  const CONNECTION_ERROR_NAMES: seq<string> :=
    ["SequelizeConnectionError", "SequelizeConnectionTimedOutError",
     "SequelizeHostNotFoundError", "SequelizeHostNotReachableError"]

  const NETWORK_ERROR_CODES: seq<string> := ["ECONNRESET", "EPIPE", "ENOTFOUND", "ECONNREFUSED", "ETIMEDOUT"]

  const VALIDATION_NAME: string := "SequelizeValidationError"

  /** The rules in the order the middleware tries them. */
  datatype Rule = FundsRule | UserRule | ApplicationRule | ValidationRule | ConnectionRule | NetworkRule | FallbackRule

  const RULES: seq<Rule> :=
    [FundsRule, UserRule, ApplicationRule, ValidationRule, ConnectionRule, NetworkRule, FallbackRule]

  predicate Matches(rule: Rule, e: Error) {
    match rule
    case FundsRule => e.InsufficientFunds?
    case UserRule => e.UserNotFound?
    case ApplicationRule => e.ApplicationError?
    case ValidationRule => e.Raw? && e.name == VALIDATION_NAME
    case ConnectionRule => e.Raw? && e.name in CONNECTION_ERROR_NAMES
    case NetworkRule => e.Code().Some? && e.Code().value in NETWORK_ERROR_CODES
    case FallbackRule => true
  }

  /** The response a rule gives; `development` is `NODE_ENV === 'development'`. */
  function Respond(rule: Rule, e: Error, development: bool): (r: Response)
    ensures !r.success
    ensures rule != ApplicationRule ==> r.status in {400, 404, 422, 500, 503}
    ensures r.status == 503 <==> rule == ConnectionRule || rule == NetworkRule
                                 || (rule == ApplicationRule && e.ApplicationError? && e.statusCode == 503)
  {
    match rule
    case FundsRule =>
      if e.InsufficientFunds? then
        Response(422, false, "INSUFFICIENT_FUNDS", "Insufficient funds",
                 FundsDetails(e.userId, e.requestedAmount, e.availableBalance))
      else Response(422, false, "INSUFFICIENT_FUNDS", "Insufficient funds", NoDetails)
    case UserRule =>
      Response(404, false, "USER_NOT_FOUND", "User not found", if e.UserNotFound? then UserDetails(e.userId) else NoDetails)
    case ApplicationRule =>
      Response(if e.ApplicationError? then e.statusCode else 500, false, "APPLICATION_ERROR", e.Message(), NoDetails)
    case ValidationRule =>
      Response(400, false, "VALIDATION_ERROR", "Validation error", FieldDetails(if e.Raw? then e.errors else []))
    case ConnectionRule =>
      Response(503, false, "DATABASE_CONNECTION_ERROR", "Database connection error", NoDetails)
    case NetworkRule =>
      Response(503, false, "NETWORK_ERROR", "Network connection error", NoDetails)
    case FallbackRule =>
      Response(500, false, "INTERNAL_SERVER_ERROR", if development then e.Message() else "Internal server error", NoDetails)
  }

  /** The index of the first rule of `rules` that matches. */
  function FirstMatch(rules: seq<Rule>, e: Error): (k: nat)
    ensures k <= |rules|
    ensures k < |rules| ==> Matches(rules[k], e)
    ensures forall j :: 0 <= j < k ==> !Matches(rules[j], e)
  {
    if |rules| == 0 then 0
    else if Matches(rules[0], e) then 0
    else 1 + FirstMatch(rules[1..], e)
  }

  /** The first matching rule is the one the contract of `FirstMatch`
      describes. */
  lemma {:induction false} FirstMatchIs(rules: seq<Rule>, e: Error, k: nat)
    requires k < |rules| && Matches(rules[k], e)
    requires forall j :: 0 <= j < k ==> !Matches(rules[j], e)
    ensures FirstMatch(rules, e) == k
    decreases k
  {
    if k > 0 {
      assert !Matches(rules[0], e);
      FirstMatchIs(rules[1..], e, k - 1);
    }
  }

  /** No rule before the last one matches: the error is unexpected. */
  predicate Unexpected(e: Error) {
    forall j :: 0 <= j < |RULES| - 1 ==> !Matches(RULES[j], e)
  }

  /** `errorHandler(err)`. Every response has `success: false`; the
      internal-server-error code is given exactly to the unexpected errors,
      with the error's own message only in development. */
  function Handle(e: Error, development: bool): (r: Response)
    ensures !r.success
    ensures r.code == "INTERNAL_SERVER_ERROR" <==> Unexpected(e)
    ensures Unexpected(e) ==>
              r == Response(500, false, "INTERNAL_SERVER_ERROR",
                            if development then e.Message() else "Internal server error", NoDetails)
  {
    var k := FirstMatch(RULES, e);
    if k < |RULES| then Respond(RULES[k], e, development)
    else assert Matches(RULES[6], e); Respond(FallbackRule, e, development)
  }

  /** The application's own errors get the status they carry, with their
      code. */
  lemma OwnErrorsKeepStatus(e: Error, development: bool)
    requires !e.Raw?
    ensures Handle(e, development).status == e.StatusCode().value
    ensures Handle(e, development).code == e.Code().value
  {
    assert Matches(RULES[0], e) || Matches(RULES[1], e) || Matches(RULES[2], e);
  }

  /** The details of the two business errors carry their payload. */
  lemma BusinessDetails(e: Error, development: bool)
    ensures e.InsufficientFunds? ==>
      Handle(e, development).details == FundsDetails(e.userId, e.requestedAmount, e.availableBalance)
    ensures e.UserNotFound? ==> Handle(e, development).details == UserDetails(e.userId)
  {
    if e.UserNotFound? {
      FirstMatchIs(RULES, e, 1);
    }
  }

  /** A validation error lists one entry per inner error, whatever else it
      carries: its rule comes before the connection and network rules. */
  lemma ValidationListsFields(text: string, code: Option<string>, original: Option<DriverError>,
                              errors: seq<FieldError>, development: bool)
    ensures var r := Handle(Raw(VALIDATION_NAME, text, code, original, errors), development);
      r.status == 400 && r.code == "VALIDATION_ERROR" && r.details == FieldDetails(errors)
  {
    FirstMatchIs(RULES, Raw(VALIDATION_NAME, text, code, original, errors), 3);
  }

  /** A database connection error by name is a 503. */
  lemma ConnectionErrorsUnavailable(name: string, text: string, code: Option<string>, original: Option<DriverError>,
                                    errors: seq<FieldError>, development: bool)
    requires name in CONNECTION_ERROR_NAMES
    ensures var r := Handle(Raw(name, text, code, original, errors), development);
      r.status == 503 && r.code == "DATABASE_CONNECTION_ERROR"
  {
    FirstMatchIs(RULES, Raw(name, text, code, original, errors), 4);
  }

  /** A driver error with one of the retryable network codes is reported
      as unavailable, except `ECONNABORTED` and `ENETUNREACH`, which the
      middleware does not list and which fall through to a 500. */
  lemma RetryableNetworkCodes(name: string, text: string, c: string, original: Option<DriverError>,
                              errors: seq<FieldError>, development: bool)
    requires name != VALIDATION_NAME && name !in CONNECTION_ERROR_NAMES
    requires c in RETRYABLE_NETWORK_ERRORS
    ensures var e := Raw(name, text, Some(c), original, errors);
      IsRetryableError(e)
      && (Handle(e, development).status == 503 <==> c != "ECONNABORTED" && c != "ENETUNREACH")
      && (Handle(e, development).status == 503 ==> Handle(e, development).code == "NETWORK_ERROR")
      && (Handle(e, development).status == 500 <==> c == "ECONNABORTED" || c == "ENETUNREACH")
      && (Handle(e, development).status == 500 ==> Handle(e, development).code == "INTERNAL_SERVER_ERROR")
  {
    var e := Raw(name, text, Some(c), original, errors);
    if c in NETWORK_ERROR_CODES {
      FirstMatchIs(RULES, e, 5);
    } else {
      FirstMatchIs(RULES, e, 6);
    }
  }

  /** A driver error that is neither a validation nor a connection error
      by name, and carries one of the five listed codes, is a 503 network
      error. */
  lemma NetworkErrorsUnavailable(name: string, text: string, c: string, original: Option<DriverError>,
                                 errors: seq<FieldError>, development: bool)
    requires name != VALIDATION_NAME && name !in CONNECTION_ERROR_NAMES
    requires c in NETWORK_ERROR_CODES
    ensures var r := Handle(Raw(name, text, Some(c), original, errors), development);
      r.status == 503 && r.code == "NETWORK_ERROR" && r.message == "Network connection error"
  {
    FirstMatchIs(RULES, Raw(name, text, Some(c), original, errors), 5);
  }

  /** Every driver error that no earlier rule claims falls through to the
      500: its own message in development, a fixed one otherwise. */
  lemma FallbackResponse(e: Error, development: bool)
    requires e.Raw? && e.name != VALIDATION_NAME && e.name !in CONNECTION_ERROR_NAMES
    requires !(e.Code().Some? && e.Code().value in NETWORK_ERROR_CODES)
    ensures Handle(e, development) ==
              Response(500, false, "INTERNAL_SERVER_ERROR",
                       if development then e.Message() else "Internal server error", NoDetails)
  {
    FirstMatchIs(RULES, e, 6);
  }

  /** Outside development an unexpected error's message is never shown:
      whatever the error, a response with the internal-server-error code is
      a 500 with the fixed message. */
  lemma FallbackHidesMessage(e: Error)
    requires Handle(e, false).code == "INTERNAL_SERVER_ERROR"
    ensures Handle(e, false).status == 500 && Handle(e, false).message == "Internal server error"
  {
  }

  /** The statuses a failed balance update can produce: never a 503, since
      transient database errors are wrapped by the service once the retries
      run out. */
  lemma BalanceUpdateStatuses(l: map<int, int>, userId: UserService.Value, amount: UserService.Value,
                              faults: nat -> UserRepository.Fault, development: bool)
    ensures var r := UserService.UpdateBalance(l, userId, amount, faults).0;
      r.Failure? ==> Handle(r.error, development).status in {400, 404, 422, 500}
  {
    var r := UserService.UpdateBalance(l, userId, amount, faults).0;
    if r.Failure? {
      UserService.UpdateBalanceServiceErrors(l, userId, amount, faults);
      OwnErrorsKeepStatus(r.error, development);
    }
  }
}

=== FILE: errors.dfy ===
/** Every value the core throws or catches, as one tagged type. The three
    domain errors carry the payload their constructors record; `Raw` stands
    for any other thrown object (a Sequelize error, a socket error, a plain
    `Error`), described by the properties the core reads from it. */
module Errors {
  import opened Wrappers
  import opened Text

  /** One entry of a validation error's `errors` list. */
  datatype FieldError = FieldError(path: string, message: string)

  /** The driver-level error a Sequelize error wraps (`error.original`). */
  datatype DriverError = DriverError(code: Option<string>)

  datatype Error =
    | InsufficientFunds(userId: int, requestedAmount: int, availableBalance: int)
    | UserNotFound(userId: int)
    | ApplicationError(text: string, statusCode: int)
    | Raw(name: string, text: string, code: Option<string>, original: Option<DriverError>,
          errors: seq<FieldError>)
  {
    /** `error.message`. */
    function Message(): string {
      match this
      case InsufficientFunds(u, req, avail) =>
        "Insufficient funds for user " + IntToString(u) + ". Requested: " + IntToString(req)
        + ", Available: " + IntToString(avail)
      case UserNotFound(u) => "User with id " + IntToString(u) + " not found"
      case ApplicationError(t, _) => t
      case Raw(_, t, _, _, _) => t
    }

    /** `error.code`: the fixed code of each domain error, or the raw one. */
    function Code(): Option<string> {
      match this
      case InsufficientFunds(_, _, _) => Some("INSUFFICIENT_FUNDS")
      case UserNotFound(_) => Some("USER_NOT_FOUND")
      case ApplicationError(_, _) => Some("APPLICATION_ERROR")
      case Raw(_, _, c, _, _) => c
    }

    /** `error.statusCode`, which only the application's own errors carry. */
    function StatusCode(): Option<int> {
      match this
      case InsufficientFunds(_, _, _) => Some(422)
      case UserNotFound(_) => Some(404)
      case ApplicationError(_, sc) => Some(sc)
      case Raw(_, _, _, _, _) => None
    }

    /** `error.original`: only errors raised by the database driver have one. */
    function Original(): Option<DriverError> {
      if Raw? then original else None
    }

    /** The business errors that are surfaced unchanged by every layer. */
    predicate IsBusiness() {
      InsufficientFunds? || UserNotFound?
    }
  }

  /** `new ApplicationError(message)`: the status code defaults to 500. */
  function NewApplicationError(message: string): (e: Error)
    ensures e.ApplicationError? && e.Message() == message && e.statusCode == 500
  {
    ApplicationError(message, 500)
  }

  /** A plain `new Error(message)`. */
  function PlainError(message: string): (e: Error)
    ensures e.Raw? && e.Message() == message && e.Code().None? && e.Original().None?
  {
    Raw("Error", message, None, None, [])
  }
}

=== FILE: process_exit.dfy ===
/** The tail of `executeJob` as written, for a handler that rejects with
    `undefined` or `null`. The `catch` reads `error.message` for the record
    update, and on a nullish value that read throws a `TypeError` before the
    update is sent. The `finally` still unlocks the job; then the call's
    promise rejects, nobody awaits it, and the process's `unhandledRejection`
    handler exits. The exit closes the process's database sessions, so the
    advisory locks they hold are released, and it ends every execution the
    process still had in flight. No record is written: each one the process
    had open stays `running` without `finished_at`, and nothing in the
    scheduler or the cleanup ever closes it, since `stop` is never called for
    the dead instance and the cleanup deletes finished records only.
    `Scheduler.Finish` is the intended behaviour, which closes the record as
    failed. */
module ProcessExit {
  import opened Wrappers
  import opened Clock
  import opened SchedulerStore
  import opened Scheduler
  import opened SchedulerSafety
  import SchedulerController

  /** The executions the process of instance `inst` has in flight. */
  function RunsOf(runs: map<RecordId, Run>, inst: InstanceId): (r: set<RecordId>)
    ensures forall rid :: rid in r <==> rid in runs && runs[rid].instance == inst
  {
    set rid | rid in runs && runs[rid].instance == inst
  }

  /** The exit of the process of instance `inst`: its executions end, the
      locks they hold are released with its sessions, and its scheduler
      object is gone (kept here as a stopped entry with no handlers). The
      store is otherwise untouched: the records stay open and the instance
      row stays until a peer's sweep. */
  function Exit(c: Cluster, inst: InstanceId): (r: Cluster)
    ensures r.store.history == c.store.history && r.store.instances == c.store.instances
    ensures r.store.jobs == c.store.jobs
    ensures r.store.nextRecordId == c.store.nextRecordId && r.store.nextJobId == c.store.nextJobId
    ensures forall rid :: rid in r.runs <==> rid in c.runs && c.runs[rid].instance != inst
    ensures forall rid :: rid in r.runs ==> r.runs[rid] == c.runs[rid]
    ensures forall id :: id in r.store.locks <==>
              id in c.store.locks && forall rid :: rid in c.runs && c.runs[rid].instance == inst ==> c.runs[rid].jobId != id
    ensures r.nodes.Keys == c.nodes.Keys
    ensures inst in c.nodes ==> !r.nodes[inst].isRunning
    ensures forall j :: j in c.nodes && j != inst ==> r.nodes[j] == c.nodes[j]
  {
    var dead := RunsOf(c.runs, inst);
    var freed := set rid | rid in dead :: c.runs[rid].jobId;
    Cluster(c.store.(locks := c.store.locks - freed),
            if inst in c.nodes then c.nodes[inst := Node(false, {})] else c.nodes,
            map rid | rid in c.runs && rid !in dead :: c.runs[rid])
  }

  /** Settling record `rid` as written: a found handler that rejects with
      `undefined` or `null` exits the process; every other outcome is
      `Scheduler.Finish`. */
  function FinishAsWritten(c: Cluster, rid: RecordId, now: Time, outcome: Outcome): (r: Cluster)
    requires rid in c.runs && rid in c.store.history
    ensures c.runs[rid].hasHandler && outcome.RejectedNullish? ==> r == Exit(c, c.runs[rid].instance)
    ensures !(c.runs[rid].hasHandler && outcome.RejectedNullish?) ==> r == Finish(c, rid, now, outcome)
  {
    if c.runs[rid].hasHandler && outcome.RejectedNullish? then Exit(c, c.runs[rid].instance)
    else Finish(c, rid, now, outcome)
  }

  /** From any state of the invariant, a nullish rejection leaves the
      record open and `running` with no execution behind it and its job's
      lock free: the controller reports the job running and refuses to
      delete it, while a peer may claim and run it again. The invariant
      that the intended `Scheduler.Finish` keeps is broken. */
  lemma NullishRejectionLeavesRecordRunning(c: Cluster, rid: RecordId, now: Time)
    requires Inv(c) && rid in c.runs && c.runs[rid].hasHandler
    requires Open(c.store.history[rid])
    ensures var r := FinishAsWritten(c, rid, now, RejectedNullish);
      var id := c.runs[rid].jobId;
      rid in r.store.history && Open(r.store.history[rid]) && r.store.history[rid].status == Running
      && rid !in r.runs && id !in r.store.locks
      && SchedulerController.JobStatus(r.store, id) == SchedulerController.RunningState
      && (id in r.store.jobs ==> SchedulerController.DeleteJob(r.store, id).reply.status == 400)
      && !Inv(r)
  {
  }

  /** The intended settlement of the same execution closes its record and
      keeps the invariant. */
  lemma NullishRejectionAsIntended(c: Cluster, rid: RecordId, now: Time)
    requires Inv(c) && rid in c.runs && c.runs[rid].hasHandler
    ensures var r := Finish(c, rid, now, RejectedNullish);
      !Open(r.store.history[rid]) && r.store.history[rid].status == Failed && Inv(r)
  {
    FinishInv(c, rid, now, RejectedNullish);
  }
}

=== FILE: references.dfy ===
/** The foreign keys of `SchedulerHistory`. The migration declares `job_id`
    and `instance_id` as references without an `ON DELETE` action, so the
    database refuses to delete a job or an instance row while a history row
    points at it. This module models the three deletes as they behave under
    that schema; the rest of the model uses the deletes as intended, which
    always succeed. A referencing row goes away only when the history is
    pruned (the cleanup handler deletes records finished more than thirty
    days before), which lifts the refusal. */
module ForeignKeys {
  import opened Wrappers
  import opened Clock
  import opened CronUtils
  import opened SchedulerStore
  import opened Scheduler
  import SchedulerController

  /** Some history row references instance `i`. */
  predicate InstanceReferenced(s: Store, i: InstanceId) {
    exists rid :: rid in s.history && s.history[rid].instanceId == i
  }

  /** Some history row references job `id`. */
  predicate JobReferenced(s: Store, id: JobId) {
    exists rid :: rid in s.history && s.history[rid].jobId == id
  }

  // ---------------------------------------------------------------------
  // stop

  /** `stop` under the schema: the timers are cleared and the open records
      failed first; when the instance row is referenced its delete throws,
      the handler swallows the error, and `isRunning` stays set because the
      assignment follows the delete. The instance is left with its flag set
      and no timer armed: it neither ticks nor beats any more, and `start`
      will not re-arm it. A delete that finds no row (a peer swept it)
      violates no reference and succeeds. */
  function StopAsWritten(c: Cluster, i: InstanceId, now: Time): (r: Cluster)
    requires i in c.nodes
    ensures c.nodes[i].isRunning && i in c.store.instances && InstanceReferenced(c.store, i) ==>
              r == c.(store := c.store.(history := FailOpenRecords(c.store.history, i, now)))
    ensures !(c.nodes[i].isRunning && i in c.store.instances && InstanceReferenced(c.store, i)) ==>
              r == Stop(c, i, now)
  {
    if !c.nodes[i].isRunning then c
    else
      if i in c.store.instances && InstanceReferenced(c.store, i)
      then c.(store := c.store.(history := FailOpenRecords(c.store.history, i, now)))
      else Stop(c, i, now)
  }

  /** An instance that a history row still references cannot stop: its
      row stays, its flag stays set, and a later `start` is a no-op. */
  lemma StopAfterAnyRunSticks(c: Cluster, i: InstanceId, rid: RecordId, t1: Time, t2: Time)
    requires i in c.nodes && c.nodes[i].isRunning && i in c.store.instances
    requires rid in c.store.history && c.store.history[rid].instanceId == i
    ensures var r := StopAsWritten(c, i, t1);
      i in r.store.instances && r.nodes[i].isRunning && Start(r, i, t2) == r
  {
  }

  /** As intended, `stop` removes the row and clears the flag. */
  lemma StopAsIntended(c: Cluster, i: InstanceId, now: Time)
    requires i in c.nodes && c.nodes[i].isRunning
    ensures var r := Stop(c, i, now);
      i !in r.store.instances && !r.nodes[i].isRunning
      && forall rid :: rid in r.store.history && r.store.history[rid].instanceId == i ==> !Open(r.store.history[rid])
  {
  }

  // ---------------------------------------------------------------------
  // The heartbeat sweep

  /** The sweep is one `DELETE` over every stale row: when any stale row is
      referenced, the statement fails and no row is deleted. The heartbeat
      update before it still happens. */
  function HeartbeatAsWritten(s: Store, i: InstanceId, now: Time): (r: Store)
    ensures (exists j :: j in s.instances && j != i && Stale(s.instances[j], now) && InstanceReferenced(s, j)) ==>
              r.instances == (if i in s.instances then s.instances[i := now] else s.instances)
    ensures !(exists j :: j in s.instances && j != i && Stale(s.instances[j], now) && InstanceReferenced(s, j)) ==>
              r == Heartbeat(s, i, now)
    ensures r.jobs == s.jobs && r.history == s.history && r.locks == s.locks
  {
    var beat := if i in s.instances then s.instances[i := now] else s.instances;
    if exists j :: j in beat && Stale(beat[j], now) && InstanceReferenced(s, j)
    then s.(instances := beat)
    else Heartbeat(s, i, now)
  }

  /** One dead instance that a history row still references keeps every
      dead instance in the table, including the ones nothing references. */
  lemma OneReferencedRowBlocksSweep(s: Store, i: InstanceId, dead: InstanceId, other: InstanceId, rid: RecordId, now: Time)
    requires dead != i && other != i
    requires dead in s.instances && Stale(s.instances[dead], now)
    requires other in s.instances && Stale(s.instances[other], now)
    requires rid in s.history && s.history[rid].instanceId == dead
    ensures var r := HeartbeatAsWritten(s, i, now);
      dead in r.instances && other in r.instances
    ensures other !in Heartbeat(s, i, now).instances && dead !in Heartbeat(s, i, now).instances
  {
  }

  // ---------------------------------------------------------------------
  // deleteJob

  const DELETE_FAILED_MESSAGE: string := "Failed to delete job"

  /** `deleteJob` under the schema: after the two checks, the delete of a
      job that history references throws and the reply is 500. */
  function DeleteJobAsWritten(s: Store, id: JobId): (h: SchedulerController.Handled)
    ensures h.reply.status == 500 <==> id in s.jobs && !SchedulerController.HasRunningRecord(s, id) && JobReferenced(s, id)
    ensures h.reply.status == 500 ==> h.store == s
    ensures !(h.reply.status == 500) ==> h == SchedulerController.DeleteJob(s, id)
  {
    var d := SchedulerController.DeleteJob(s, id);
    if d.reply.status == 200 && JobReferenced(s, id)
    then SchedulerController.Handled(SchedulerController.Reply(500, DELETE_FAILED_MESSAGE, None), s)
    else d
  }

  /** A claimed job cannot be deleted while its record remains: once its
      execution settles the delete fails instead of succeeding. */
  lemma ClaimedJobUndeletable(c: Cluster, p: CronParser, i: InstanceId, now: Time, id: JobId, later: Time, outcome: Outcome)
    requires i in c.nodes && id in c.store.jobs
    ensures var c1 := ClaimJob(c, p, i, now, id);
      var c2 := Finish(c1, c.store.nextRecordId, later, outcome);
      DeleteJobAsWritten(c2.store, id).reply.status != 200
  {
    var rid := c.store.nextRecordId;
    var c1 := ClaimJob(c, p, i, now, id);
    var c2 := Finish(c1, rid, later, outcome);
    assert c2.store.history[rid].jobId == id;
  }

  /** As intended, a job without a running execution is deleted. */
  lemma DeleteAsIntended(s: Store, id: JobId)
    requires id in s.jobs && !SchedulerController.HasRunningRecord(s, id)
    ensures var h := SchedulerController.DeleteJob(s, id);
      h.reply.status == 200 && id !in h.store.jobs
  {
  }
}

=== FILE: retries.dfy ===
/** `executeWithRetries`: call an operation up to `maxRetries` times, stop at
    the first success, rethrow at once an error that is not transient or that
    the last attempt raised, and wait `calculateRetryDelay(attempt)` between
    attempts. The operation is a function from the attempt number to what
    that call returned or threw, so one value describes every call it makes.
    The test for a transient error is a parameter, `transient`: the
    repository passes `IsRetryableError`, and the loop is proved for any
    test. */
module Retries {
  import opened Wrappers
  import opened Consts
  import opened Errors
  import opened Retryable
  import opened RetryDelay

  /** What the wrapper's promise settles with. `Threw(None)` is the
      `throw lastError` after a loop that never ran, which throws `undefined`. */
  datatype Outcome<T> = Returned(value: T) | Threw(error: Option<Error>)

  /** The outcome, how many times the operation was called, and the attempt
      number handed to `calculateRetryDelay` before each wait. */
  datatype Run<T> = Run(outcome: Outcome<T>, calls: nat, waits: seq<nat>)

  /** The calls from attempt `attempt` on, one attempt per recursive step. */
  function Attempts<T>(op: nat -> Result<T, Error>, transient: Error -> bool, maxRetries: int, attempt: nat): (r: Run<T>)
    decreases maxRetries - attempt
    ensures attempt >= maxRetries ==> r == Run(Threw(None), 0, [])
    ensures attempt < maxRetries ==> 1 <= r.calls <= maxRetries - attempt
    ensures attempt < maxRetries ==> |r.waits| == r.calls - 1
    // the last call decides the outcome
    ensures r.outcome.Returned? ==>
              r.calls >= 1 && op(attempt + r.calls - 1) == Success(r.outcome.value)
    ensures r.outcome.Threw? && r.outcome.error.Some? ==>
              r.calls >= 1 && op(attempt + r.calls - 1) == Failure(r.outcome.error.value)
              && (attempt + r.calls == maxRetries || !transient(r.outcome.error.value))
  {
    if attempt >= maxRetries then Run(Threw(None), 0, [])
    else match op(attempt)
      case Success(v) => Run(Returned(v), 1, [])
      case Failure(e) =>
        if attempt == maxRetries - 1 || !transient(e) then Run(Threw(Some(e)), 1, [])
        else
          var rest := Attempts(op, transient, maxRetries, attempt + 1);
          Run(rest.outcome, rest.calls + 1, [attempt] + rest.waits)
  }

  /** The loop unfolded once: a transient failure before the last attempt
      is followed by a wait and the remaining attempts. */
  lemma AttemptsUnfold<T>(op: nat -> Result<T, Error>, transient: Error -> bool, maxRetries: int, attempt: nat)
    requires attempt < maxRetries - 1 && op(attempt).Failure? && transient(op(attempt).error)
    ensures var rest := Attempts(op, transient, maxRetries, attempt + 1);
      Attempts(op, transient, maxRetries, attempt) == Run(rest.outcome, rest.calls + 1, [attempt] + rest.waits)
  {
  }

  /** Each wait is for the number of the attempt that just failed. */
  lemma {:induction false} AttemptsWaits<T>(op: nat -> Result<T, Error>, transient: Error -> bool, maxRetries: int, attempt: nat)
    ensures var r := Attempts(op, transient, maxRetries, attempt);
      forall j :: 0 <= j < |r.waits| ==> r.waits[j] == attempt + j
    decreases maxRetries - attempt
  {
    if attempt < maxRetries - 1 && op(attempt).Failure? && transient(op(attempt).error) {
      var r := Attempts(op, transient, maxRetries, attempt);
      var rest := Attempts(op, transient, maxRetries, attempt + 1);
      AttemptsUnfold(op, transient, maxRetries, attempt);
      AttemptsWaits(op, transient, maxRetries, attempt + 1);
      forall j | 0 < j < |r.waits|
        ensures r.waits[j] == attempt + j
      {
        assert r.waits[j] == rest.waits[j - 1];
      }
    }
  }

  /** Every call but the last failed with a transient error. */
  lemma {:induction false} AttemptsRetried<T>(op: nat -> Result<T, Error>, transient: Error -> bool, maxRetries: int, attempt: nat)
    ensures var r := Attempts(op, transient, maxRetries, attempt);
      forall j :: attempt <= j < attempt + r.calls - 1 ==> op(j).Failure? && transient(op(j).error)
    decreases maxRetries - attempt
  {
    if attempt < maxRetries - 1 && op(attempt).Failure? && transient(op(attempt).error) {
      AttemptsUnfold(op, transient, maxRetries, attempt);
      AttemptsRetried(op, transient, maxRetries, attempt + 1);
    }
  }

  /** Once the loop has run, what it throws is the error of a call, never
      `undefined`. */
  lemma {:induction false} AttemptsThrowError<T>(op: nat -> Result<T, Error>, transient: Error -> bool, maxRetries: int, attempt: nat)
    requires attempt < maxRetries
    ensures Attempts(op, transient, maxRetries, attempt).outcome.Threw? ==> Attempts(op, transient, maxRetries, attempt).outcome.error.Some?
    decreases maxRetries - attempt
  {
    if op(attempt).Failure? && attempt < maxRetries - 1 && transient(op(attempt).error) {
      AttemptsThrowError(op, transient, maxRetries, attempt + 1);
    }
  }

  /** The loop's state after `attempt` iterations: every call so far failed
      transiently and was followed by a wait for its attempt number. */
  ghost predicate RetriedSoFar<T>(op: nat -> Result<T, Error>, transient: Error -> bool, attempt: nat, waits: seq<nat>) {
    |waits| == attempt
    && forall j :: 0 <= j < attempt ==> waits[j] == j && op(j).Failure? && transient(op(j).error)
  }

  /** The recursion from attempt `k` on reaches the same stop as the loop,
      with the waits the loop records from `k` on. */
  lemma {:induction false} StopFrom<T>(op: nat -> Result<T, Error>, transient: Error -> bool, maxRetries: int, attempt: nat, waits: seq<nat>,
                                       last: Outcome<T>, k: nat)
    requires k <= attempt < maxRetries
    requires RetriedSoFar(op, transient, attempt, waits)
    requires op(attempt).Success? ==> last == Returned(op(attempt).value)
    requires op(attempt).Failure? ==> last == Threw(Some(op(attempt).error))
                                      && (attempt == maxRetries - 1 || !transient(op(attempt).error))
    ensures Attempts(op, transient, maxRetries, k) == Run(last, attempt + 1 - k, waits[k..])
    decreases attempt - k
  {
    if k < attempt {
      assert op(k).Failure? && transient(op(k).error) && k < maxRetries - 1;
      StopFrom(op, transient, maxRetries, attempt, waits, last, k + 1);
      assert waits[k..] == [k] + waits[k + 1..];
    } else {
      assert waits[k..] == [];
    }
  }

  /** The wrapper as written, one loop iteration per attempt. */
  method ExecuteWithRetries<T>(op: nat -> Result<T, Error>, transient: Error -> bool, maxRetries: int) returns (r: Run<T>)
    ensures r == Attempts(op, transient, maxRetries, 0)
  {
    var attempt: nat := 0;
    var waits: seq<nat> := [];
    var lastError: Option<Error> := None;
    while attempt < maxRetries
      invariant attempt == 0 || attempt < maxRetries
      invariant attempt == 0 ==> lastError == None
      invariant RetriedSoFar(op, transient, attempt, waits)
      decreases maxRetries - attempt
    {
      var result := op(attempt);
      if result.Failure? {
        lastError := Some(result.error);
      }
      if result.Success? || attempt == maxRetries - 1 || !transient(result.error) {
        var outcome := if result.Success? then Returned(result.value) else Threw(lastError);
        StopFrom(op, transient, maxRetries, attempt, waits, outcome, 0);
        return Run(outcome, attempt + 1, waits);
      }
      // the wait of calculateRetryDelay(attempt) milliseconds is not modelled
      waits := waits + [attempt];
      attempt := attempt + 1;
    }
    return Run(Threw(lastError), attempt, waits);
  }

  /** With the default limit the operation runs at most ten times, at least
      once, and a success on the first call is returned without a wait. */
  lemma DefaultLimit<T>(op: nat -> Result<T, Error>, transient: Error -> bool)
    ensures 1 <= Attempts(op, transient, MAX_RETRIES, 0).calls <= 10
    ensures op(0).Success? ==> Attempts(op, transient, MAX_RETRIES, 0) == Run(Returned(op(0).value), 1, [])
  {
  }

  /** A transient error is retried while attempts remain: an operation that
      always fails transiently is called exactly `maxRetries` times and the
      last error is rethrown. */
  lemma {:induction false} AlwaysTransient<T>(op: nat -> Result<T, Error>, transient: Error -> bool, maxRetries: int, attempt: nat)
    requires attempt < maxRetries
    requires forall j :: op(j).Failure? && transient(op(j).error)
    ensures Attempts(op, transient, maxRetries, attempt).calls == maxRetries - attempt
    ensures Attempts(op, transient, maxRetries, attempt).outcome
         == Threw(Some(op(maxRetries - 1).error))
    decreases maxRetries - attempt
  {
    if attempt < maxRetries - 1 {
      AlwaysTransient(op, transient, maxRetries, attempt + 1);
    }
  }

  /** The two business errors and the repository's wrapper end the retries
      at once. */
  lemma BusinessErrorsNotRetried<T>(op: nat -> Result<T, Error>, maxRetries: int)
    requires 1 <= maxRetries
    requires op(0).Failure?
    requires op(0).error.IsBusiness() || op(0).error == ApplicationError("Database operation failed", 500)
    ensures Attempts(op, IsRetryableError, maxRetries, 0) == Run(Threw(Some(op(0).error)), 1, [])
  {
    match op(0).error
    case InsufficientFunds(u, req, avail) => DomainErrorsNotRetryable(u, req, avail);
    case UserNotFound(u) => DomainErrorsNotRetryable(u, 0, 0);
    case _ => DomainErrorsNotRetryable(0, 0, 0);
  }

  /** Under the default limit every wait is for an attempt below nine. */
  lemma DefaultWaitsBelowNine<T>(op: nat -> Result<T, Error>, transient: Error -> bool)
    ensures var r := Attempts(op, transient, MAX_RETRIES, 0);
      forall j :: 0 <= j < |r.waits| ==> r.waits[j] < MAX_RETRIES - 1
  {
    AttemptsWaits(op, transient, MAX_RETRIES, 0);
  }

  /** Every wait the wrapper makes under the default limit is an uncapped
      back-off. */
  lemma DefaultWaitsUncapped<T>(op: nat -> Result<T, Error>, transient: Error -> bool, random: nat -> real)
    requires forall j :: 0.0 <= random(j) < 1.0
    ensures forall j :: 0 <= j < |Attempts(op, transient, MAX_RETRIES, 0).waits| ==>
              CalculateRetryDelay(Attempts(op, transient, MAX_RETRIES, 0).waits[j], random(j)) < MAX_DELAY
  {
    DefaultWaitsBelowNine(op, transient);
    forall a: nat, x: real | a < MAX_RETRIES - 1 && 0.0 <= x < 1.0
      ensures CalculateRetryDelay(a, x) < MAX_DELAY
    {
      DefaultRetriesNeverCapped(a, x);
    }
  }
}

=== FILE: retry_delay.dfy ===
/** `calculateRetryDelay`: exponential back-off with up to five units of
    random jitter, capped at `MAX_DELAY`. The random draw is a parameter. */
module RetryDelay {
  import opened Consts

  /** `Math.pow(b, n)` for a whole exponent. */
  function Pow(b: real, n: nat): (r: real)
    requires b >= 1.0
    ensures r >= 1.0
  {
    if n == 0 then 1.0 else b * Pow(b, n - 1)
  }

  function Min(a: real, b: real): (r: real)
    ensures r <= a && r <= b && (r == a || r == b)
  {
    if a <= b then a else b
  }

  /** The delay before retry number `attempt + 1`; `random` stands for the
      value `Math.random()` returned. */
  function CalculateRetryDelay(attempt: nat, random: real): (d: real)
    ensures d <= MAX_DELAY
    ensures random >= 0.0 ==> d >= BASE_DELAY
  {
    Min(MAX_DELAY, BASE_DELAY * Pow(BACKOFF_MULTIPLIER, attempt) + random * 5.0)
  }

  lemma {:induction false} PowMonotone(b: real, m: nat, n: nat)
    requires b >= 1.0 && m <= n
    ensures Pow(b, m) <= Pow(b, n)
    decreases n - m
  {
    if m < n {
      PowMonotone(b, m, n - 1);
      assert Pow(b, n) == b * Pow(b, n - 1);
    }
  }

  lemma PowTenth()
    ensures Pow(BACKOFF_MULTIPLIER, 8) == 25.62890625
    ensures Pow(BACKOFF_MULTIPLIER, 9) == 38.443359375
    ensures Pow(BACKOFF_MULTIPLIER, 10) == 57.6650390625
  {
  }

  /** For a fixed draw a later attempt never waits less. */
  lemma DelayMonotone(a: nat, b: nat, random: real)
    requires a <= b
    ensures CalculateRetryDelay(a, random) <= CalculateRetryDelay(b, random)
  {
    PowMonotone(BACKOFF_MULTIPLIER, a, b);
  }

  /** From the eleventh attempt on the cap always applies. */
  lemma DelayCappedFromTen(attempt: nat, random: real)
    requires attempt >= 10 && random >= 0.0
    ensures CalculateRetryDelay(attempt, random) == MAX_DELAY
  {
    PowTenth();
    PowMonotone(BACKOFF_MULTIPLIER, 10, attempt);
  }

  /** Up to the tenth attempt the cap never applies, so the delay is the
      pure exponential plus the jitter, and it lies within five units above
      the exponential. */
  lemma DelayUncappedToNine(attempt: nat, random: real)
    requires attempt <= 9 && 0.0 <= random < 1.0
    ensures CalculateRetryDelay(attempt, random) < MAX_DELAY
    ensures BASE_DELAY * Pow(BACKOFF_MULTIPLIER, attempt) <= CalculateRetryDelay(attempt, random)
    ensures CalculateRetryDelay(attempt, random) < BASE_DELAY * Pow(BACKOFF_MULTIPLIER, attempt) + 5.0
  {
    PowTenth();
    PowMonotone(BACKOFF_MULTIPLIER, attempt, 9);
  }

  /** The retry wrapper waits only after attempts `0 .. MAX_RETRIES - 2`, so
      with the default limit no wait ever reaches the cap; the longest,
      after attempt 8, stays below `2 * 1.5^8 + 5`, about 56.26. */
  lemma DefaultRetriesNeverCapped(attempt: nat, random: real)
    requires attempt < MAX_RETRIES - 1 && 0.0 <= random < 1.0
    ensures CalculateRetryDelay(attempt, random) < MAX_DELAY
    ensures CalculateRetryDelay(attempt, random) < 57.0
  {
    DelayUncappedToNine(attempt, random);
    PowTenth();
    PowMonotone(BACKOFF_MULTIPLIER, attempt, 8);
  }
}

=== FILE: retryable.dfy ===
/** `isRetryableError`: an error is transient when its driver code is a
    transient PostgreSQL SQLSTATE, when its own code is a transient socket
    code, or when its lower-cased message mentions one of ten keywords. */
module Retryable {
  import opened Wrappers
  import opened Text
  import opened Consts
  import opened Errors

  const RETRYABLE_KEYWORDS: seq<string> :=
    ["deadlock", "lock", "timeout", "connection", "econnreset", "epipe", "enetunreach",
     "econnrefused", "enotfound", "etimedout"]

  /** The error wraps a driver error whose SQLSTATE is one of the
      transient codes. */
  predicate ByDriverCode(e: Error) {
    e.Original().Some? && e.Original().value.code.Some?
    && e.Original().value.code.value in RETRYABLE_ERROR_CODES
  }

  /** The error's own code is one of the transient socket codes. */
  predicate ByNetworkCode(e: Error) {
    e.Code().Some? && e.Code().value in RETRYABLE_NETWORK_ERRORS
  }

  /** The lower-cased message contains one of the keywords. */
  predicate ByKeyword(e: Error) {
    exists k :: k in RETRYABLE_KEYWORDS && Contains(ToLower(e.Message()), k)
  }

  /** The three tests in source order; the first that holds decides. */
  predicate IsRetryableError(e: Error) {
    if ByDriverCode(e) then true
    else if ByNetworkCode(e) then true
    else ByKeyword(e)
  }

  /** The answer is the disjunction of the three tests, so the order in
      which they are tried does not change it. */
  lemma RetryableIsDisjunction(e: Error)
    ensures IsRetryableError(e) <==> ByDriverCode(e) || ByNetworkCode(e) || ByKeyword(e)
  {
  }

  // ---------------------------------------------------------------------
  // The domain errors and the repository's wrapper are not transient

  /** No keyword occurs in the lower-cased text `w`. */
  predicate KeywordFree(w: string) {
    forall k :: k in RETRYABLE_KEYWORDS ==> !Contains(ToLower(w), k)
  }

  /** Neither case of the lower-case letter `c` occurs in `w`. */
  predicate Lacks(w: string, c: char)
    requires IsLower(c)
  {
    c !in w && UpperChar(c) !in w
  }

  lemma AbsentByLetter(w: string, k: string, j: int)
    requires 0 <= j < |k| && IsLower(k[j]) && Lacks(w, k[j])
    ensures !Contains(ToLower(w), k)
  {
    if Contains(ToLower(w), k) {
      ContainsChars(ToLower(w), k, j);
      LowerCharOrigin(w, k[j]);
    }
  }

  // Every keyword contains one letter of each triple below, so a text that
  // lacks a whole triple is keyword-free.

  lemma KeywordFreeNoCOP(w: string)
    requires Lacks(w, 'c') && Lacks(w, 'o') && Lacks(w, 'p')
    ensures KeywordFree(w)
  {
    AbsentByLetter(w, "deadlock", 6);
    AbsentByLetter(w, "lock", 2);
    AbsentByLetter(w, "timeout", 4);
    AbsentByLetter(w, "connection", 0);
    AbsentByLetter(w, "econnreset", 1);
    AbsentByLetter(w, "epipe", 1);
    AbsentByLetter(w, "enetunreach", 9);
    AbsentByLetter(w, "econnrefused", 1);
    AbsentByLetter(w, "enotfound", 2);
    AbsentByLetter(w, "etimedout", 6);
  }

  lemma KeywordFreeNoCTP(w: string)
    requires Lacks(w, 'c') && Lacks(w, 't') && Lacks(w, 'p')
    ensures KeywordFree(w)
  {
    AbsentByLetter(w, "deadlock", 6);
    AbsentByLetter(w, "lock", 2);
    AbsentByLetter(w, "timeout", 0);
    AbsentByLetter(w, "connection", 0);
    AbsentByLetter(w, "econnreset", 1);
    AbsentByLetter(w, "epipe", 1);
    AbsentByLetter(w, "enetunreach", 9);
    AbsentByLetter(w, "econnrefused", 1);
    AbsentByLetter(w, "enotfound", 3);
    AbsentByLetter(w, "etimedout", 1);
  }

  lemma KeywordFreeNoOPH(w: string)
    requires Lacks(w, 'o') && Lacks(w, 'p') && Lacks(w, 'h')
    ensures KeywordFree(w)
  {
    AbsentByLetter(w, "deadlock", 5);
    AbsentByLetter(w, "lock", 1);
    AbsentByLetter(w, "timeout", 4);
    AbsentByLetter(w, "connection", 1);
    AbsentByLetter(w, "econnreset", 2);
    AbsentByLetter(w, "epipe", 1);
    AbsentByLetter(w, "enetunreach", 10);
    AbsentByLetter(w, "econnrefused", 2);
    AbsentByLetter(w, "enotfound", 2);
    AbsentByLetter(w, "etimedout", 6);
  }

  lemma KeywordFreeNoCPE(w: string)
    requires Lacks(w, 'c') && Lacks(w, 'p') && Lacks(w, 'e')
    ensures KeywordFree(w)
  {
    AbsentByLetter(w, "deadlock", 6);
    AbsentByLetter(w, "lock", 2);
    AbsentByLetter(w, "timeout", 3);
    AbsentByLetter(w, "connection", 0);
    AbsentByLetter(w, "econnreset", 1);
    AbsentByLetter(w, "epipe", 1);
    AbsentByLetter(w, "enetunreach", 9);
    AbsentByLetter(w, "econnrefused", 1);
    AbsentByLetter(w, "enotfound", 0);
    AbsentByLetter(w, "etimedout", 0);
  }

  /** Keyword-free texts joined by a non-empty run of non-letters (a number,
      a space) stay keyword-free, since every keyword is made of letters. */
  lemma KeywordFreeJoin(p: string, d: string, q: string)
    requires KeywordFree(p) && KeywordFree(q)
    requires NoLetters(d) && |d| > 0
    ensures KeywordFree(p + d + q)
  {
    forall k | k in RETRYABLE_KEYWORDS
      ensures !Contains(ToLower(p + d + q), k)
    {
      ToLowerAppend(p + d, q);
      ToLowerAppend(p, d);
      ToLowerKeepsNoLetters(d);
      assert ToLower(p + d + q) == ToLower(p) + d + ToLower(q);
      assert AllLetters(k) && |k| > 0;
      if Contains(ToLower(p + d + q), k) {
        ContainsAcrossSeparator(ToLower(p), d, ToLower(q), k);
      }
    }
  }

  lemma OperationIsLower()
    ensures ToLower("operation") == "operation"
  {
    var w := "operation";
    var l := ToLower(w);
    forall i | 0 <= i < 9
      ensures l[i] == w[i]
    {
      if i == 0 {} else if i == 1 {} else if i == 2 {} else if i == 3 {} else if i == 4 {}
      else if i == 5 {} else if i == 6 {} else if i == 7 {} else {}
    }
  }

  /** "operation" holds every letter of "epipe" but not the word: its only
      'e' is followed by an 'r'. */
  lemma EpipeNotInOperation()
    ensures !Contains("operation", "epipe")
  {
    var w := "operation";
    forall i | 0 <= i <= 4
      ensures !OccursAt(w, "epipe", i)
    {
      OccursAtStart(w, "epipe", i);
      if i == 2 {
        assert w[3] == 'r';
      } else {
        assert w[i] != 'e';
      }
    }
  }

  /** The first two characters of an occurrence. */
  lemma OccursAtStart(s: string, k: string, i: int)
    requires |k| >= 2
    ensures OccursAt(s, k, i) ==> s[i] == k[0] && s[i + 1] == k[1]
  {
    if OccursAt(s, k, i) {
      assert s[i..i + |k|][0] == s[i] && s[i..i + |k|][1] == s[i + 1];
    }
  }

  /** A text without 'c' or 'u' whose lower-cased form lacks "epipe". */
  lemma KeywordFreeNoCU(w: string)
    requires Lacks(w, 'c') && Lacks(w, 'u') && !Contains(ToLower(w), "epipe")
    ensures KeywordFree(w)
  {
    AbsentByLetter(w, "deadlock", 6);
    AbsentByLetter(w, "lock", 2);
    AbsentByLetter(w, "timeout", 5);
    AbsentByLetter(w, "connection", 0);
    AbsentByLetter(w, "econnreset", 1);
    AbsentByLetter(w, "enetunreach", 9);
    AbsentByLetter(w, "econnrefused", 1);
    AbsentByLetter(w, "enotfound", 6);
    AbsentByLetter(w, "etimedout", 7);
  }

  lemma OperationLacksCU()
    ensures Lacks("operation", 'c') && Lacks("operation", 'u')
  {
  }

  lemma OperationLowerLacksEpipe()
    ensures !Contains(ToLower("operation"), "epipe")
  {
    OperationIsLower();
    EpipeNotInOperation();
  }

  lemma OperationKeywordFree()
    ensures KeywordFree("operation")
  {
    OperationLacksCU();
    OperationLowerLacksEpipe();
    KeywordFreeNoCU("operation");
  }

  // Each literal piece of the three messages, checked on its own.

  lemma PieceInsufficient() ensures KeywordFree("Insufficient") {
    KeywordFreeNoOPH("Insufficient");
  }

  lemma PieceFundsForUser() ensures KeywordFree("funds for user ") {
    KeywordFreeNoCTP("funds for user ");
  }

  lemma PieceRequested() ensures KeywordFree(". Requested: ") {
    KeywordFreeNoCOP(". Requested: ");
  }

  lemma PieceAvailable() ensures KeywordFree(", Available: ") {
    KeywordFreeNoCOP(", Available: ");
  }

  lemma PieceEmpty() ensures KeywordFree("") {
    KeywordFreeNoCOP("");
  }

  lemma PieceUserWithId() ensures KeywordFree("User with id ") {
    KeywordFreeNoCOP("User with id ");
  }

  lemma PieceNotFound() ensures KeywordFree(" not found") {
    KeywordFreeNoCPE(" not found");
  }

  lemma PieceDatabase() ensures KeywordFree("Database") {
    KeywordFreeNoCOP("Database");
  }

  lemma PieceFailed() ensures KeywordFree("failed") {
    KeywordFreeNoCOP("failed");
  }

  lemma InsufficientHeadKeywordFree()
    ensures KeywordFree("Insufficient funds for user ")
  {
    PieceInsufficient();
    PieceFundsForUser();
    KeywordFreeJoin("Insufficient", " ", "funds for user ");
    assert "Insufficient" + " " + "funds for user " == "Insufficient funds for user ";
  }

  /** The message is joined left to right, one number at a time, so that
      each step has the shape `KeywordFreeJoin` expects. */
  lemma InsufficientFundsMessageKeywordFree(u: int, req: int, avail: int)
    ensures KeywordFree(InsufficientFunds(u, req, avail).Message())
  {
    var x1 := "Insufficient funds for user " + IntToString(u) + ". Requested: ";
    var x2 := x1 + IntToString(req) + ", Available: ";
    InsufficientHeadKeywordFree();
    PieceRequested();
    KeywordFreeJoin("Insufficient funds for user ", IntToString(u), ". Requested: ");
    PieceAvailable();
    KeywordFreeJoin(x1, IntToString(req), ", Available: ");
    PieceEmpty();
    KeywordFreeJoin(x2, IntToString(avail), "");
    assert x2 + IntToString(avail) + "" == InsufficientFunds(u, req, avail).Message();
  }

  lemma UserNotFoundMessageKeywordFree(u: int)
    ensures KeywordFree(UserNotFound(u).Message())
  {
    PieceUserWithId();
    PieceNotFound();
    KeywordFreeJoin("User with id ", IntToString(u), " not found");
  }

  lemma OperationFailedKeywordFree()
    ensures KeywordFree("operation failed")
  {
    PieceFailed();
    OperationKeywordFree();
    KeywordFreeJoin("operation", " ", "failed");
    assert "operation" + " " + "failed" == "operation failed";
  }

  lemma WrapperMessageKeywordFree()
    ensures KeywordFree("Database operation failed")
  {
    PieceDatabase();
    OperationFailedKeywordFree();
    KeywordFreeJoin("Database", " ", "operation failed");
    assert "Database" + " " + "operation failed" == "Database operation failed";
  }

  /** The two business errors and the repository's wrapper are classified as
      permanent, so the retry wrapper rethrows them at once. */
  lemma DomainErrorsNotRetryable(u: int, req: int, avail: int)
    ensures !IsRetryableError(InsufficientFunds(u, req, avail))
    ensures !IsRetryableError(UserNotFound(u))
    ensures !IsRetryableError(ApplicationError("Database operation failed", 500))
  {
    InsufficientFundsMessageKeywordFree(u, req, avail);
    UserNotFoundMessageKeywordFree(u);
    WrapperMessageKeywordFree();
  }

  lemma PieceX() ensures KeywordFree("x") {
    KeywordFreeNoCOP("x");
  }

  /** Driver codes are compared case-sensitively. */
  lemma DriverCodeCaseSensitive()
    ensures IsRetryableError(Raw("SequelizeDatabaseError", "x", None, Some(DriverError(Some("40P01"))), []))
    ensures !IsRetryableError(Raw("SequelizeDatabaseError", "x", None, Some(DriverError(Some("40p01"))), []))
  {
    PieceX();
    assert "40p01" != "40P01";
  }

  /** Socket codes are compared case-sensitively. */
  lemma NetworkCodeCaseSensitive()
    ensures !IsRetryableError(Raw("Error", "x", Some("econnreset"), None, []))
  {
    PieceX();
    assert "econnreset"[0] == 'e';
  }

  /** Message keywords are matched whatever their case. */
  lemma KeywordIgnoresCase()
    ensures IsRetryableError(Raw("Error", "LOCK", None, None, []))
  {
    LockIsLower();
    assert "lock" in RETRYABLE_KEYWORDS;
    assert "lock"[0..4] == "lock";
    assert OccursAt("lock", "lock", 0);
    assert Contains(ToLower(Raw("Error", "LOCK", None, None, []).Message()), "lock");
  }

  lemma LockIsLower()
    ensures ToLower("LOCK") == "lock"
  {
    var l := ToLower("LOCK");
    forall i | 0 <= i < 4
      ensures l[i] == "lock"[i]
    {
      if i == 0 {} else if i == 1 {} else if i == 2 {} else {}
    }
  }
}

=== FILE: scheduler.dfy ===
/** `DistributedScheduler`: every instance runs the same loop against the
    shared store, and an advisory lock per job decides which instance runs a
    due job. Each step is a pure function of the cluster: the store, the
    scheduler object of every instance, and the `executeJob` calls still in
    flight. */
module Scheduler {
  import opened Wrappers
  import opened Clock
  import opened CronUtils
  import opened SchedulerStore

  const MAX_JOBS_PER_CYCLE: nat := 1

  /** `executeJob` waits at least this long before a success is recorded. */
  const EXECUTION_FLOOR: int := 120 * SECOND

  const STOPPED_MESSAGE: string := "Instance stopped"

  /** One scheduler object: the `isRunning` flag and the names registered
      with `addJob`. `start` arms the two timers as it sets the flag, and
      `stop` clears them before anything else; the flag is cleared only once
      the instance's row is deleted, so a `stop` whose delete fails (see
      `ForeignKeys.StopAsWritten`) leaves the flag set with no timer armed. */
  datatype Node = Node(isRunning: bool, handlers: set<string>)

  /** The names a plain object `{}` inherits from `Object.prototype`. A
      lookup `this.jobs[name]` finds something under each of them even when
      no handler was registered with that name. */
  const INHERITED_NAMES: set<string> :=
    {"constructor", "hasOwnProperty", "isPrototypeOf", "propertyIsEnumerable",
     "toLocaleString", "toString", "valueOf", "__proto__",
     "__defineGetter__", "__defineSetter__", "__lookupGetter__", "__lookupSetter__"}

  /** `this.jobs[name]` is truthy: the name was registered, or is inherited. */
  predicate HandlerFound(n: Node, name: string) {
    name in n.handlers || name in INHERITED_NAMES
  }

  /** An `executeJob` call in flight: its job, the handler name it looked up,
      its instance, and whether that lookup found anything. */
  datatype Run = Run(jobId: JobId, handler: string, instance: InstanceId, hasHandler: bool)

  datatype Cluster = Cluster(store: Store, nodes: map<InstanceId, Node>, runs: map<RecordId, Run>)

  /** How the handler's promise settles. A rejection carries the `message`
      of what it rejects with, or `None` when that value is an object or a
      primitive without a string `message` (a plain string, say), whose
      missing `message` reads as `undefined`. A rejection with `undefined`
      or `null` is apart: reading its `message` throws (see
      `ProcessExit.FinishAsWritten`). */
  datatype Outcome = Resolved | Rejected(message: Option<string>) | RejectedNullish

  /** Freshly constructed scheduler objects over the empty store. */
  function Init(ids: set<InstanceId>): (c: Cluster)
    ensures c.nodes.Keys == ids && c.runs == map[] && c.store == EMPTY
    ensures forall i :: i in c.nodes ==> !c.nodes[i].isRunning && c.nodes[i].handlers == {}
  {
    Cluster(EMPTY, map i | i in ids :: Node(false, {}), map[])
  }

  // ---------------------------------------------------------------------
  // start, addJob, stop

  /** `start`: a no-op when already running; otherwise upsert this
      instance's row with a fresh heartbeat and set the flag. */
  function Start(c: Cluster, i: InstanceId, now: Time): (r: Cluster)
    requires i in c.nodes
    ensures c.nodes[i].isRunning ==> r == c
    ensures r.nodes.Keys == c.nodes.Keys && r.nodes[i].isRunning
    ensures forall j :: j in c.nodes && j != i ==> r.nodes[j] == c.nodes[j]
    ensures r.nodes[i].handlers == c.nodes[i].handlers
    ensures !c.nodes[i].isRunning ==> i in r.store.instances && r.store.instances[i] == now
    ensures forall j :: j != i ==> (j in r.store.instances <==> j in c.store.instances)
    ensures forall j :: j != i && j in r.store.instances ==> r.store.instances[j] == c.store.instances[j]
    ensures r.store.jobs == c.store.jobs && r.store.history == c.store.history
    ensures r.store.locks == c.store.locks && r.runs == c.runs
    ensures r.store.nextRecordId == c.store.nextRecordId && r.store.nextJobId == c.store.nextJobId
  {
    if c.nodes[i].isRunning then c
    else
      Cluster(c.store.(instances := c.store.instances[i := now]),
              c.nodes[i := c.nodes[i].(isRunning := true)], c.runs)
  }

  /** `addJob(name, handler)`: register a handler under `name`. */
  function AddJob(c: Cluster, i: InstanceId, name: string): (r: Cluster)
    requires i in c.nodes
    ensures r.nodes.Keys == c.nodes.Keys && r.nodes[i].handlers == c.nodes[i].handlers + {name}
    ensures r.nodes[i].isRunning == c.nodes[i].isRunning
    ensures forall j :: j in c.nodes && j != i ==> r.nodes[j] == c.nodes[j]
    ensures r.store == c.store && r.runs == c.runs
  {
    c.(nodes := c.nodes[i := c.nodes[i].(handlers := c.nodes[i].handlers + {name})])
  }

  /** The history after `stop` on instance `i`: its open records are failed
      with "Instance stopped" at `now`; no other record changes. */
  function FailOpenRecords(h: map<RecordId, Record>, i: InstanceId, now: Time): (r: map<RecordId, Record>)
    ensures r.Keys == h.Keys
    ensures forall rid :: rid in h && h[rid].instanceId == i && Open(h[rid]) ==>
              r[rid] == h[rid].(finishedAt := Some(now), status := Failed, errorMessage := Some(STOPPED_MESSAGE))
    ensures forall rid :: rid in h && !(h[rid].instanceId == i && Open(h[rid])) ==> r[rid] == h[rid]
  {
    map rid | rid in h ::
      if h[rid].instanceId == i && Open(h[rid])
      then h[rid].(finishedAt := Some(now), status := Failed, errorMessage := Some(STOPPED_MESSAGE))
      else h[rid]
  }

  /** `stop`: a no-op when not running; otherwise fail this instance's open
      records, delete its row and clear the flag. Locks stay held and the
      executions in flight carry on. */
  function Stop(c: Cluster, i: InstanceId, now: Time): (r: Cluster)
    requires i in c.nodes
    ensures !c.nodes[i].isRunning ==> r == c
    ensures r.nodes.Keys == c.nodes.Keys && !r.nodes[i].isRunning
    ensures forall j :: j in c.nodes && j != i ==> r.nodes[j] == c.nodes[j]
    ensures r.nodes[i].handlers == c.nodes[i].handlers
    ensures c.nodes[i].isRunning ==> r.store.instances == c.store.instances - {i}
    ensures c.nodes[i].isRunning ==> r.store.history == FailOpenRecords(c.store.history, i, now)
    ensures r.store.jobs == c.store.jobs && r.store.locks == c.store.locks && r.runs == c.runs
    ensures r.store.nextRecordId == c.store.nextRecordId && r.store.nextJobId == c.store.nextJobId
  {
    if !c.nodes[i].isRunning then c
    else
      Cluster(c.store.(history := FailOpenRecords(c.store.history, i, now),
                       instances := c.store.instances - {i}),
              c.nodes[i := c.nodes[i].(isRunning := false)], c.runs)
  }

  // ---------------------------------------------------------------------
  // updateHeartbeat

  /** Refresh `i`'s heartbeat if its row still exists, then delete every row
      whose heartbeat is older than two minutes. */
  function Heartbeat(s: Store, i: InstanceId, now: Time): (r: Store)
    ensures forall j :: j in r.instances <==>
              j in s.instances && (j == i || !Stale(s.instances[j], now))
    ensures forall j :: j in r.instances ==> r.instances[j] == (if j == i then now else s.instances[j])
    ensures r.jobs == s.jobs && r.history == s.history && r.locks == s.locks
    ensures r.nextJobId == s.nextJobId && r.nextRecordId == s.nextRecordId
  {
    var beat := if i in s.instances then s.instances[i := now] else s.instances;
    s.(instances := map j | j in beat && !Stale(beat[j], now) :: beat[j])
  }

  // ---------------------------------------------------------------------
  // runScheduler

  /** Claim job `id` for instance `i`: take its lock, insert a `running`
      record, start the execution and move `next_run` on. */
  function ClaimJob(c: Cluster, p: CronParser, i: InstanceId, now: Time, id: JobId): (r: Cluster)
    requires i in c.nodes && id in c.store.jobs
    ensures r.store.locks == c.store.locks + {id}
    ensures r.store.nextRecordId == c.store.nextRecordId + 1
    ensures var rid := c.store.nextRecordId;
      r.store.history == c.store.history[rid := Record(id, i, now, None, Running, None)]
      && r.runs == c.runs[rid := Run(id, c.store.jobs[id].handler, i,
                                     HandlerFound(c.nodes[i], c.store.jobs[id].handler))]
    ensures r.store.jobs.Keys == c.store.jobs.Keys
    ensures r.store.jobs[id] == c.store.jobs[id].(nextRun := CalculateNextRun(p, c.store.jobs[id].interval, now))
    ensures forall j :: j in c.store.jobs && j != id ==> r.store.jobs[j] == c.store.jobs[j]
    ensures r.store.instances == c.store.instances && r.nodes == c.nodes
    ensures r.store.nextJobId == c.store.nextJobId
  {
    var s := c.store;
    var job := s.jobs[id];
    var rid := s.nextRecordId;
    Cluster(s.(jobs := s.jobs[id := job.(nextRun := CalculateNextRun(p, job.interval, now))],
               history := s.history[rid := Record(id, i, now, None, Running, None)],
               locks := s.locks + {id},
               nextRecordId := rid + 1),
            c.nodes,
            c.runs[rid := Run(id, job.handler, i, HandlerFound(c.nodes[i], job.handler))])
  }

  /** The loop over the due jobs: stop once the cap is reached, skip a job
      whose lock is held, claim the others. */
  function Claims(c: Cluster, p: CronParser, i: InstanceId, now: Time, order: seq<JobId>, taken: nat): (r: Cluster)
    requires i in c.nodes
    requires forall k :: 0 <= k < |order| ==> order[k] in c.store.jobs
    ensures r.nodes == c.nodes && r.store.jobs.Keys == c.store.jobs.Keys
    ensures r.store.instances == c.store.instances
    // locks are only taken, and only for jobs of the due list
    ensures c.store.locks <= r.store.locks
    ensures forall id :: id in r.store.locks && id !in c.store.locks ==> id in order
    decreases |order|
  {
    if |order| == 0 || taken >= MAX_JOBS_PER_CYCLE then c
    else if order[0] in c.store.locks then Claims(c, p, i, now, order[1..], taken)
    else Claims(ClaimJob(c, p, i, now, order[0]), p, i, now, order[1..], taken + 1)
  }

  /** `runScheduler` on instance `i`; `order` is the order in which the
      query returned the due jobs. */
  function Tick(c: Cluster, p: CronParser, i: InstanceId, now: Time, order: seq<JobId>): (r: Cluster)
    requires i in c.nodes
    requires Enumerates(order, DueJobs(c.store, now))
    ensures !c.nodes[i].isRunning ==> r == c
    ensures r.nodes == c.nodes && r.store.instances == c.store.instances
    // a tick locks nothing but due jobs, and releases nothing
    ensures c.store.locks <= r.store.locks
    ensures forall id :: id in r.store.locks && id !in c.store.locks ==> id in DueJobs(c.store, now)
  {
    if !c.nodes[i].isRunning then c else Claims(c, p, i, now, order, 0)
  }

  /** Reference definition of a tick's choice: the first `cap` jobs of
      `order` whose lock is free. */
  function FirstFree(order: seq<JobId>, locks: set<JobId>, cap: nat): (r: seq<JobId>)
    ensures |r| <= cap && |r| <= |order|
    ensures forall k :: 0 <= k < |r| ==> r[k] in order && r[k] !in locks
  {
    if |order| == 0 || cap == 0 then []
    else if order[0] in locks then FirstFree(order[1..], locks, cap)
    else [order[0]] + FirstFree(order[1..], locks, cap - 1)
  }

  /** Claiming the jobs of `ids` one after the other. */
  function ClaimAll(c: Cluster, p: CronParser, i: InstanceId, now: Time, ids: seq<JobId>): Cluster
    requires i in c.nodes
    requires forall k :: 0 <= k < |ids| ==> ids[k] in c.store.jobs
    decreases |ids|
  {
    if |ids| == 0 then c
    else
      var c1 := ClaimJob(c, p, i, now, ids[0]);
      ClaimAll(c1, p, i, now, ids[1..])
  }

  /** The loop claims exactly the first free jobs, up to what is left of the
      cap. The order lists each job once, so a claim never changes whether
      a later job's lock is free. */
  lemma {:induction false} ClaimsAreFirstFree(c: Cluster, p: CronParser, i: InstanceId, now: Time,
                                              order: seq<JobId>, taken: nat)
    requires i in c.nodes && taken <= MAX_JOBS_PER_CYCLE
    requires forall k :: 0 <= k < |order| ==> order[k] in c.store.jobs
    requires forall k, l :: 0 <= k < l < |order| ==> order[k] != order[l]
    ensures var ids := FirstFree(order, c.store.locks, MAX_JOBS_PER_CYCLE - taken);
      (forall k :: 0 <= k < |ids| ==> ids[k] in c.store.jobs)
      && Claims(c, p, i, now, order, taken) == ClaimAll(c, p, i, now, ids)
    decreases |order|
  {
    if |order| == 0 || taken >= MAX_JOBS_PER_CYCLE {
    } else if order[0] in c.store.locks {
      ClaimsAreFirstFree(c, p, i, now, order[1..], taken);
    } else {
      var c1 := ClaimJob(c, p, i, now, order[0]);
      ClaimsAreFirstFree(c1, p, i, now, order[1..], taken + 1);
      FirstFreeIgnoresAbsent(order[1..], c.store.locks, order[0], MAX_JOBS_PER_CYCLE - taken - 1);
    }
  }

  /** Adding a job that does not occur in `order` to the locks changes no
      choice. */
  lemma {:induction false} FirstFreeIgnoresAbsent(order: seq<JobId>, locks: set<JobId>, id: JobId, cap: nat)
    requires id !in order
    ensures FirstFree(order, locks + {id}, cap) == FirstFree(order, locks, cap)
    decreases |order|
  {
    if |order| > 0 && cap > 0 {
      assert order[0] != id;
      FirstFreeIgnoresAbsent(order[1..], locks, id, cap - 1);
      FirstFreeIgnoresAbsent(order[1..], locks, id, cap);
    }
  }

  /** A tick of a running instance claims the first due job whose lock is
      free, if there is one, and changes nothing else; a stopped instance's
      tick changes nothing. */
  lemma TickIsFirstFree(c: Cluster, p: CronParser, i: InstanceId, now: Time, order: seq<JobId>)
    requires i in c.nodes
    requires Enumerates(order, DueJobs(c.store, now))
    ensures !c.nodes[i].isRunning ==> Tick(c, p, i, now, order) == c
    ensures c.nodes[i].isRunning ==>
      var ids := FirstFree(order, c.store.locks, MAX_JOBS_PER_CYCLE);
      (|ids| == 0 ==> Tick(c, p, i, now, order) == c)
      && (|ids| == 1 ==> ids[0] in c.store.jobs
                         && Tick(c, p, i, now, order) == ClaimJob(c, p, i, now, ids[0]))
  {
    if c.nodes[i].isRunning {
      ClaimsAreFirstFree(c, p, i, now, order, 0);
      var ids := FirstFree(order, c.store.locks, MAX_JOBS_PER_CYCLE);
      if |ids| == 1 {
        var c1 := ClaimJob(c, p, i, now, ids[0]);
        assert ClaimAll(c, p, i, now, ids) == ClaimAll(c1, p, i, now, ids[1..]);
      }
    }
  }

  /** The cap counts successful locks only: jobs whose lock is held are
      passed over, and the first due job with a free lock is the one taken. */
  lemma {:induction false} FirstFreeSkipsLocked(order: seq<JobId>, locks: set<JobId>, k: nat)
    requires k < |order| && order[k] !in locks
    requires forall j :: 0 <= j < k ==> order[j] in locks
    ensures FirstFree(order, locks, MAX_JOBS_PER_CYCLE) == [order[k]]
    decreases k
  {
    if k > 0 {
      FirstFreeSkipsLocked(order[1..], locks, k - 1);
    }
  }

  /** When every due job's lock is held the tick takes nothing. */
  lemma {:induction false} AllLockedNothingFree(order: seq<JobId>, locks: set<JobId>, cap: nat)
    requires forall j :: 0 <= j < |order| ==> order[j] in locks
    ensures FirstFree(order, locks, cap) == []
    decreases |order|
  {
    if |order| > 0 && cap > 0 {
      AllLockedNothingFree(order[1..], locks, cap);
    }
  }

  /** A claimed job is no longer due at the tick's instant, since its next
      run lies after it. The tick is one atomic step here; a peer holding a
      due list read before this claim is not modelled. */
  lemma ClaimedNotDue(c: Cluster, p: CronParser, i: InstanceId, now: Time, id: JobId)
    requires i in c.nodes && id in c.store.jobs
    requires NextIsFuture(p)
    ensures !Due(ClaimJob(c, p, i, now, id).store.jobs[id], now)
  {
    NextRunIsFuture(p, c.store.jobs[id].interval, now);
  }

  // ---------------------------------------------------------------------
  // The tail of executeJob

  /** The record as `executeJob` finalises it. A missing handler fails at
      once; a rejection fails with its message; a success marks the record
      completed and leaves its error message as it was, and so does a
      rejection without a message, since an `undefined` field is not
      written. A rejection with `undefined` or `null` fails the record the
      same way, as `error?.message` would: this is the intended behaviour,
      which the rest of the model uses; `ProcessExit.FinishAsWritten` is
      the code as written. */
  function Finalised(rec: Record, run: Run, now: Time, outcome: Outcome): (r: Record)
    ensures r.jobId == rec.jobId && r.instanceId == rec.instanceId && r.startedAt == rec.startedAt
    ensures r.finishedAt == Some(now)
    ensures r.status == Completed <==> run.hasHandler && outcome.Resolved?
    ensures !(run.hasHandler && outcome.Resolved?) ==> r.status == Failed
    ensures !run.hasHandler ==> r.errorMessage == Some("Handler " + run.handler + " not found")
    ensures run.hasHandler && outcome.Rejected? && outcome.message.Some? ==> r.errorMessage == outcome.message
    ensures run.hasHandler && outcome.Rejected? && outcome.message.None? ==> r.errorMessage == rec.errorMessage
    ensures run.hasHandler && outcome.RejectedNullish? ==> r.errorMessage == rec.errorMessage
    ensures run.hasHandler && outcome.Resolved? ==> r.errorMessage == rec.errorMessage
  {
    if !run.hasHandler then
      rec.(finishedAt := Some(now), status := Failed,
           errorMessage := Some("Handler " + run.handler + " not found"))
    else match outcome
      case Resolved => rec.(finishedAt := Some(now), status := Completed)
      case Rejected(msg) => rec.(finishedAt := Some(now), status := Failed, errorMessage := if msg.Some? then msg else rec.errorMessage)
      case RejectedNullish => rec.(finishedAt := Some(now), status := Failed)
  }

  /** A completed record needs the handler and the two-minute timer both to
      have resolved; a failure can come at any time. */
  predicate FinishAllowed(c: Cluster, rid: RecordId, now: Time, outcome: Outcome) {
    rid in c.runs && rid in c.store.history
    && (c.runs[rid].hasHandler && outcome.Resolved? ==>
          now >= c.store.history[rid].startedAt + EXECUTION_FLOOR)
  }

  /** The execution of record `rid` settles: the record is finalised and the
      job's lock released. */
  function Finish(c: Cluster, rid: RecordId, now: Time, outcome: Outcome): (r: Cluster)
    requires rid in c.runs && rid in c.store.history
    ensures r.store.history == c.store.history[rid := Finalised(c.store.history[rid], c.runs[rid], now, outcome)]
    ensures r.store.locks == c.store.locks - {c.runs[rid].jobId}
    ensures r.runs == c.runs - {rid}
    ensures r.store.jobs == c.store.jobs && r.store.instances == c.store.instances && r.nodes == c.nodes
    ensures r.store.nextRecordId == c.store.nextRecordId && r.store.nextJobId == c.store.nextJobId
  {
    var run := c.runs[rid];
    Cluster(c.store.(history := c.store.history[rid := Finalised(c.store.history[rid], run, now, outcome)],
                     locks := c.store.locks - {run.jobId}),
            c.nodes, c.runs - {rid})
  }

  /** A handler name inherited from `Object.prototype` is found although no
      instance registered it: the record is not failed with "not found",
      and it is completed when the call settles successfully. A name that is
      neither registered nor inherited fails the record with "not found". */
  lemma InheritedNameFound(c: Cluster, p: CronParser, i: InstanceId, now: Time, id: JobId, later: Time)
    requires i in c.nodes && id in c.store.jobs
    ensures var rid := c.store.nextRecordId;
      var c1 := ClaimJob(c, p, i, now, id);
      var name := c.store.jobs[id].handler;
      (name in INHERITED_NAMES ==> Finish(c1, rid, later, Resolved).store.history[rid].status == Completed)
      && (name !in INHERITED_NAMES && name !in c.nodes[i].handlers ==>
            Finish(c1, rid, later, Resolved).store.history[rid].errorMessage == Some("Handler " + name + " not found"))
  {
  }
}

=== FILE: scheduler_controller.dfy ===
/** The decisions of `SchedulerController`: creating, updating and deleting
    jobs, and the status and summary figures of the job list. HTTP shaping is
    reduced to a status code, a message and optional details. */
module SchedulerController {
  import opened Wrappers
  import opened Clock
  import opened CronUtils
  import opened SchedulerStore

  /** The fields of a request body; `None` is a field that is absent. */
  datatype JobBody = JobBody(name: Option<string>, handler: Option<string>,
                             interval: Option<string>, isActive: Option<bool>)

  /** A string field that JavaScript treats as true: present and non-empty. */
  predicate Truthy(f: Option<string>) {
    f.Some? && f.value != ""
  }

  datatype Reply = Reply(status: int, message: string, details: Option<string>)

  /** The reply and the store after the request. */
  datatype Handled = Handled(reply: Reply, store: Store)

  const REQUIRED_MESSAGE: string := "Name, handler and interval are required"
  const INVALID_CRON_MESSAGE: string := "Invalid cron expression"
  const DUPLICATE_MESSAGE: string := "Job with this name already exists"
  const CREATED_MESSAGE: string := "Job created successfully"
  const NOT_FOUND_MESSAGE: string := "Job not found"
  const UPDATED_MESSAGE: string := "Job updated successfully"
  const UPDATE_FAILED_MESSAGE: string := "Failed to update job"
  const RUNNING_MESSAGE: string := "Cannot delete job that is currently running"
  const DELETED_MESSAGE: string := "Job deleted successfully"

  /** Some job other than `except` is called `name`. */
  predicate NameTaken(s: Store, name: string, except: Option<JobId>) {
    exists id :: id in s.jobs && s.jobs[id].name == name && Some(id) != except
  }

  /** The invariants the table definitions keep: job names are unique and
      every id lies below the auto-increment counter. */
  ghost predicate JobsWellFormed(s: Store) {
    (forall a, b :: a in s.jobs && b in s.jobs && s.jobs[a].name == s.jobs[b].name ==> a == b)
    && (forall id :: id in s.jobs ==> id < s.nextJobId)
  }

  // ---------------------------------------------------------------------
  // createJob

  function CreateJob(p: CronParser, s: Store, body: JobBody, now: Time): (h: Handled)
    // the checks in order: required fields, the expression, the name
    ensures !(Truthy(body.name) && Truthy(body.handler) && Truthy(body.interval)) ==>
              h == Handled(Reply(400, REQUIRED_MESSAGE, None), s)
    ensures Truthy(body.name) && Truthy(body.handler) && Truthy(body.interval)
            && !ValidateCronExpression(p, body.interval.value).valid ==>
              h == Handled(Reply(400, INVALID_CRON_MESSAGE, ValidateCronExpression(p, body.interval.value).error), s)
    ensures h.reply.status == 409 <==>
              Truthy(body.name) && Truthy(body.handler) && Truthy(body.interval)
              && ValidateCronExpression(p, body.interval.value).valid && NameTaken(s, body.name.value, None)
    // a complete, valid request with a free name is created
    ensures h.reply.status == 201 <==>
              Truthy(body.name) && Truthy(body.handler) && Truthy(body.interval)
              && ValidateCronExpression(p, body.interval.value).valid && !NameTaken(s, body.name.value, None)
    ensures h.reply.status == 201 ==> h.reply.message == CREATED_MESSAGE
    // only a 201 changes the store, by adding exactly one job
    ensures h.reply.status != 201 ==> h.store == s
    ensures h.reply.status == 201 ==>
              Truthy(body.name) && Truthy(body.handler) && Truthy(body.interval)
              && var job := Job(body.name.value, body.handler.value, body.interval.value,
                                body.isActive.GetOr(true), CalculateNextRun(p, body.interval.value, now));
                 h.store == s.(jobs := s.jobs[s.nextJobId := job], nextJobId := s.nextJobId + 1)
  {
    if !(Truthy(body.name) && Truthy(body.handler) && Truthy(body.interval)) then
      Handled(Reply(400, REQUIRED_MESSAGE, None), s)
    else
      var v := ValidateCronExpression(p, body.interval.value);
      if !v.valid then Handled(Reply(400, INVALID_CRON_MESSAGE, v.error), s)
      else if NameTaken(s, body.name.value, None) then Handled(Reply(409, DUPLICATE_MESSAGE, None), s)
      else
        var id := s.nextJobId;
        var job := Job(body.name.value, body.handler.value, body.interval.value,
                       body.isActive.GetOr(true), CalculateNextRun(p, body.interval.value, now));
        Handled(Reply(201, CREATED_MESSAGE, None), s.(jobs := s.jobs[id := job], nextJobId := id + 1))
  }

  /** A created job's expression parses, so it is scheduled by the
      parser's `next()`, or by the fallback only when `next()` throws; either
      way, under the parser's promise it is not due when created. */
  lemma CreatedJobNotDue(p: CronParser, s: Store, body: JobBody, now: Time)
    requires NextIsFuture(p)
    requires CreateJob(p, s, body, now).reply.status == 201
    ensures var j := CreateJob(p, s, body, now).store.jobs[s.nextJobId];
      p.parse(j.interval).Success?
      && j.nextRun == p.next(j.interval, now).GetOr(FallbackTime(now))
      && !Due(j, now)
  {
  }

  lemma CreatePreservesWellFormed(p: CronParser, s: Store, body: JobBody, now: Time)
    requires JobsWellFormed(s)
    ensures JobsWellFormed(CreateJob(p, s, body, now).store)
  {
  }

  // ---------------------------------------------------------------------
  // updateJob

  /** The job with the fields of the body applied, `next_run` recomputed
      when a non-empty interval differs from the stored one. */
  function Updated(p: CronParser, job: Job, body: JobBody, now: Time): (j: Job)
    ensures j.name == body.name.GetOr(job.name) && j.handler == body.handler.GetOr(job.handler)
    ensures j.interval == body.interval.GetOr(job.interval) && j.isActive == body.isActive.GetOr(job.isActive)
    ensures j.nextRun != job.nextRun ==> Truthy(body.interval) && body.interval.value != job.interval
    ensures Truthy(body.interval) && body.interval.value != job.interval ==>
              j.nextRun == CalculateNextRun(p, body.interval.value, now)
  {
    var j := job.(name := body.name.GetOr(job.name), handler := body.handler.GetOr(job.handler),
                  interval := body.interval.GetOr(job.interval), isActive := body.isActive.GetOr(job.isActive));
    if Truthy(body.interval) && body.interval.value != job.interval
    then j.(nextRun := CalculateNextRun(p, body.interval.value, now))
    else j
  }

  function UpdateJob(p: CronParser, s: Store, id: JobId, body: JobBody, now: Time): (h: Handled)
    ensures id !in s.jobs ==> h == Handled(Reply(404, NOT_FOUND_MESSAGE, None), s)
    ensures id in s.jobs && Truthy(body.interval) && !ValidateCronExpression(p, body.interval.value).valid ==>
              h == Handled(Reply(400, INVALID_CRON_MESSAGE, ValidateCronExpression(p, body.interval.value).error), s)
    // a new name that another job already has violates the unique index
    ensures h.reply.status == 500 <==>
              id in s.jobs && !(Truthy(body.interval) && !ValidateCronExpression(p, body.interval.value).valid)
              && body.name.Some? && NameTaken(s, body.name.value, Some(id))
    // any other update of an existing job is applied
    ensures h.reply.status == 200 <==>
              id in s.jobs && !(Truthy(body.interval) && !ValidateCronExpression(p, body.interval.value).valid)
              && !(body.name.Some? && NameTaken(s, body.name.value, Some(id)))
    ensures h.reply.status == 200 ==> h.reply.message == UPDATED_MESSAGE
    ensures h.reply.status != 200 ==> h.store == s
    // only the addressed job changes
    ensures h.reply.status == 200 ==>
              id in s.jobs && h.store == s.(jobs := s.jobs[id := Updated(p, s.jobs[id], body, now)])
  {
    if id !in s.jobs then Handled(Reply(404, NOT_FOUND_MESSAGE, None), s)
    else if Truthy(body.interval) && !ValidateCronExpression(p, body.interval.value).valid then
      Handled(Reply(400, INVALID_CRON_MESSAGE, ValidateCronExpression(p, body.interval.value).error), s)
    else if body.name.Some? && NameTaken(s, body.name.value, Some(id)) then
      Handled(Reply(500, UPDATE_FAILED_MESSAGE, None), s)
    else
      Handled(Reply(200, UPDATED_MESSAGE, None), s.(jobs := s.jobs[id := Updated(p, s.jobs[id], body, now)]))
  }

  /** An empty interval skips validation yet is stored, and leaves
      `next_run` alone. */
  lemma EmptyIntervalStoredUnchecked(p: CronParser, s: Store, id: JobId, name: Option<string>, now: Time)
    requires id in s.jobs && !(name.Some? && NameTaken(s, name.value, Some(id)))
    ensures var h := UpdateJob(p, s, id, JobBody(name, None, Some(""), None), now);
      h.reply.status == 200 && h.store.jobs[id].interval == ""
      && h.store.jobs[id].nextRun == s.jobs[id].nextRun
  {
  }

  /** Resubmitting the stored interval does not move `next_run`. */
  lemma SameIntervalKeepsNextRun(p: CronParser, s: Store, id: JobId, now: Time)
    requires id in s.jobs
    ensures var h := UpdateJob(p, s, id, JobBody(None, None, Some(s.jobs[id].interval), None), now);
      h.reply.status == 200 ==> h.store.jobs[id] == s.jobs[id]
  {
  }

  lemma UpdatePreservesWellFormed(p: CronParser, s: Store, id: JobId, body: JobBody, now: Time)
    requires JobsWellFormed(s)
    ensures JobsWellFormed(UpdateJob(p, s, id, body, now).store)
  {
  }

  // ---------------------------------------------------------------------
  // deleteJob

  /** Some record of job `id` has status `running` and no `finished_at`. */
  predicate HasRunningRecord(s: Store, id: JobId) {
    exists rid :: rid in s.history && s.history[rid].jobId == id && RunningRecord(s.history[rid])
  }

  function DeleteJob(s: Store, id: JobId): (h: Handled)
    ensures id !in s.jobs ==> h == Handled(Reply(404, NOT_FOUND_MESSAGE, None), s)
    ensures h.reply.status == 400 <==> id in s.jobs && HasRunningRecord(s, id)
    ensures h.reply.status != 200 ==> h.store == s
    ensures h.reply.status == 200 <==> id in s.jobs && !HasRunningRecord(s, id)
    ensures h.reply.status == 200 ==> h.store == s.(jobs := s.jobs - {id})
  {
    if id !in s.jobs then Handled(Reply(404, NOT_FOUND_MESSAGE, None), s)
    else if HasRunningRecord(s, id) then Handled(Reply(400, RUNNING_MESSAGE, None), s)
    else Handled(Reply(200, DELETED_MESSAGE, None), s.(jobs := s.jobs - {id}))
  }

  lemma DeletePreservesWellFormed(s: Store, id: JobId)
    requires JobsWellFormed(s)
    ensures JobsWellFormed(DeleteJob(s, id).store)
  {
  }

  // ---------------------------------------------------------------------
  // getJobs: status and summary

  datatype JobState = RunningState | Waiting

  /** The status shown for a job: running iff it has a running record. */
  function JobStatus(s: Store, id: JobId): (st: JobState)
    ensures st == RunningState <==> HasRunningRecord(s, id)
  {
    if HasRunningRecord(s, id) then RunningState else Waiting
  }

  /** The instances listed as active at `now`. */
  function ActiveInstances(s: Store, now: Time): (ids: set<InstanceId>)
    ensures forall i :: i in ids <==> i in s.instances && ActiveAt(s.instances[i], now)
  {
    set i | i in s.instances && ActiveAt(s.instances[i], now)
  }

  /** The records counted as running. */
  function RunningRecords(s: Store): (rids: set<RecordId>)
    ensures forall rid :: rid in rids <==> rid in s.history && RunningRecord(s.history[rid])
  {
    set rid | rid in s.history && RunningRecord(s.history[rid])
  }

  function ActiveJobs(s: Store): (ids: set<JobId>)
    ensures forall id :: id in ids <==> id in s.jobs && s.jobs[id].isActive
  {
    set id | id in s.jobs && s.jobs[id].isActive
  }

  datatype Summary = Summary(totalJobs: nat, activeJobs: nat, runningJobs: nat, activeInstances: nat)

  function GetSummary(s: Store, now: Time): (m: Summary)
    ensures m.activeJobs <= m.totalJobs
    ensures m.activeInstances <= |s.instances|
  {
    SubsetCard(ActiveJobs(s), s.jobs.Keys);
    SubsetCard(ActiveInstances(s, now), s.instances.Keys);
    Summary(|s.jobs|, |ActiveJobs(s)|, |RunningRecords(s)|, |ActiveInstances(s, now)|)
  }

  lemma SubsetCard<T>(a: set<T>, b: set<T>)
    requires a <= b
    ensures |a| <= |b|
  {
    if a != b {
      var x :| x in b && x !in a;
      assert a <= b - {x};
      SubsetCard(a, b - {x});
    }
  }

  /** The instances reported active are exactly the ones a heartbeat sweep
      at the same instant would keep. */
  lemma ActiveListIsSweepSurvivors(s: Store, now: Time)
    ensures forall i :: i in ActiveInstances(s, now) <==> i in s.instances && !Stale(s.instances[i], now)
  {
  }
}

=== FILE: scheduler_safety.dfy ===
/** What the advisory locks guarantee across the cluster: at most one
    execution of a job is in flight, every execution in flight holds its
    job's lock, and the controller's "running" status implies the lock is
    held. The invariant is proved for every step an instance or a client of
    the controller can take. */
module SchedulerSafety {
  import opened Wrappers
  import opened Clock
  import opened CronUtils
  import opened SchedulerStore
  import opened Scheduler
  import SchedulerController

  // ---------------------------------------------------------------------
  // The invariant, one clause per predicate

  /** Every execution in flight has its record, for the same job and
      instance. */
  ghost predicate RunsRecorded(c: Cluster) {
    forall rid :: rid in c.runs ==>
      rid in c.store.history && c.store.history[rid].jobId == c.runs[rid].jobId
      && c.store.history[rid].instanceId == c.runs[rid].instance
  }

  /** Every execution in flight holds its job's lock. */
  ghost predicate RunsLocked(c: Cluster) {
    forall rid :: rid in c.runs ==> c.runs[rid].jobId in c.store.locks
  }

  /** No two executions of one job are in flight. */
  ghost predicate RunsExclusive(c: Cluster) {
    forall a, b :: a in c.runs && b in c.runs && c.runs[a].jobId == c.runs[b].jobId ==> a == b
  }

  /** A record without `finished_at` belongs to an execution in flight. */
  ghost predicate OpenRecordsRun(c: Cluster) {
    forall rid :: rid in c.store.history && Open(c.store.history[rid]) ==> rid in c.runs
  }

  /** Status `running` is exactly a missing `finished_at`. */
  ghost predicate StatusMatchesOpen(s: Store) {
    forall rid :: rid in s.history ==> (s.history[rid].status == Running <==> Open(s.history[rid]))
  }

  /** Record ids lie below the auto-increment counter. */
  ghost predicate RecordIdsBelow(s: Store) {
    forall rid :: rid in s.history ==> rid < s.nextRecordId
  }

  ghost predicate Inv(c: Cluster) {
    RunsRecorded(c) && RunsLocked(c) && RunsExclusive(c) && OpenRecordsRun(c)
    && StatusMatchesOpen(c.store) && RecordIdsBelow(c.store)
    && SchedulerController.JobsWellFormed(c.store)
  }

  lemma InitInv(ids: set<InstanceId>)
    ensures Inv(Init(ids))
  {
  }

  // ---------------------------------------------------------------------
  // What the invariant gives

  /** A record without `finished_at` means its job's lock is held. */
  lemma OpenImpliesLocked(c: Cluster, rid: RecordId)
    requires Inv(c)
    requires rid in c.store.history && Open(c.store.history[rid])
    ensures c.store.history[rid].jobId in c.store.locks
  {
    assert rid in c.runs;
  }

  /** At most one record of a job is open at any time. */
  lemma AtMostOneOpenPerJob(c: Cluster, a: RecordId, b: RecordId)
    requires Inv(c)
    requires a in c.store.history && Open(c.store.history[a])
    requires b in c.store.history && Open(c.store.history[b])
    requires c.store.history[a].jobId == c.store.history[b].jobId
    ensures a == b
  {
    assert a in c.runs && b in c.runs;
  }

  /** The job list shows a job as running only while its lock is held. */
  lemma RunningStatusImpliesLocked(c: Cluster, id: JobId)
    requires Inv(c)
    requires SchedulerController.JobStatus(c.store, id) == SchedulerController.RunningState
    ensures id in c.store.locks
  {
    var rid :| rid in c.store.history && c.store.history[rid].jobId == id && RunningRecord(c.store.history[rid]);
    OpenImpliesLocked(c, rid);
  }

  /** The "running" count of the summary never exceeds the locks held. */
  lemma RunningCountBounded(c: Cluster, now: Time)
    requires Inv(c)
    ensures SchedulerController.GetSummary(c.store, now).runningJobs <= |c.store.locks|
  {
    var rr := SchedulerController.RunningRecords(c.store);
    var m := map rid | rid in rr :: c.store.history[rid].jobId;
    InjectiveCard(rr, m, c.store.locks, c);
  }

  /** Records that are running map one-to-one onto held locks. */
  lemma InjectiveCard(rr: set<RecordId>, m: map<RecordId, JobId>, locks: set<JobId>, c: Cluster)
    requires Inv(c)
    requires rr == SchedulerController.RunningRecords(c.store)
    requires m.Keys == rr
    requires forall rid :: rid in m ==> rid in c.store.history && m[rid] == c.store.history[rid].jobId
    ensures |rr| <= |c.store.locks|
  {
    var img := set rid | rid in rr :: m[rid];
    assert img <= c.store.locks by {
      forall rid | rid in rr ensures m[rid] in c.store.locks {
        OpenImpliesLocked(c, rid);
      }
    }
    ImageCard(rr, m, c);
    SchedulerController.SubsetCard(img, c.store.locks);
  }

  /** The job ids of the running records are as many as the records. */
  lemma {:induction false} ImageCard(rr: set<RecordId>, m: map<RecordId, JobId>, c: Cluster)
    requires Inv(c)
    requires rr <= SchedulerController.RunningRecords(c.store)
    requires rr <= m.Keys
    requires forall rid :: rid in m ==> rid in c.store.history && m[rid] == c.store.history[rid].jobId
    ensures |set rid | rid in rr :: m[rid]| == |rr|
    decreases |rr|
  {
    if rr != {} {
      var x :| x in rr;
      var rest := rr - {x};
      ImageCard(rest, m, c);
      var img := set rid | rid in rr :: m[rid];
      var imgRest := set rid | rid in rest :: m[rid];
      assert img == imgRest + {m[x]};
    }
  }

  // ---------------------------------------------------------------------
  // Stopping an instance with an execution in flight

  /** After `stop` the job of an execution in flight on the stopped instance
      is listed as waiting, yet its lock stays held, so no instance claims it
      until the execution settles. */
  lemma StoppedJobLockedButWaiting(c: Cluster, i: InstanceId, rid: RecordId, now: Time)
    requires Inv(c) && i in c.nodes && c.nodes[i].isRunning
    requires rid in c.runs && c.runs[rid].instance == i
    ensures var r := Stop(c, i, now);
      SchedulerController.JobStatus(r.store, c.runs[rid].jobId) == SchedulerController.Waiting
      && c.runs[rid].jobId in r.store.locks
      && (forall order: seq<JobId>, cap: nat :: c.runs[rid].jobId !in FirstFree(order, r.store.locks, cap))
  {
    var r := Stop(c, i, now);
    var id := c.runs[rid].jobId;
    forall x | x in r.store.history && r.store.history[x].jobId == id
      ensures !RunningRecord(r.store.history[x])
    {
      if Open(c.store.history[x]) {
        assert x in c.runs;
      }
    }
  }

  /** An execution that succeeds after its instance was stopped marks the
      record completed while keeping the "Instance stopped" message. */
  lemma StopThenSuccess(c: Cluster, i: InstanceId, rid: RecordId, t1: Time, t2: Time)
    requires i in c.nodes && c.nodes[i].isRunning
    requires rid in c.runs && rid in c.store.history && c.runs[rid].hasHandler
    requires c.store.history[rid].instanceId == i && Open(c.store.history[rid])
    ensures var rec := Finish(Stop(c, i, t1), rid, t2, Resolved).store.history[rid];
      rec.status == Completed && rec.errorMessage == Some(STOPPED_MESSAGE) && rec.finishedAt == Some(t2)
  {
  }

  // ---------------------------------------------------------------------
  // Each step keeps the invariant

  lemma StartInv(c: Cluster, i: InstanceId, now: Time)
    requires Inv(c) && i in c.nodes
    ensures Inv(Start(c, i, now))
  {
  }

  lemma AddJobInv(c: Cluster, i: InstanceId, name: string)
    requires Inv(c) && i in c.nodes
    ensures Inv(AddJob(c, i, name))
  {
  }

  lemma StopInv(c: Cluster, i: InstanceId, now: Time)
    requires Inv(c) && i in c.nodes
    ensures Inv(Stop(c, i, now))
  {
  }

  lemma HeartbeatInv(c: Cluster, i: InstanceId, now: Time)
    requires Inv(c)
    ensures Inv(c.(store := Heartbeat(c.store, i, now)))
  {
  }

  /** Claiming a job whose lock is free keeps the invariant. */
  lemma ClaimJobInv(c: Cluster, p: CronParser, i: InstanceId, now: Time, id: JobId)
    requires Inv(c) && i in c.nodes && id in c.store.jobs && id !in c.store.locks
    ensures Inv(ClaimJob(c, p, i, now, id))
  {
    ClaimJobRuns(c, p, i, now, id);
    ClaimJobRecords(c, p, i, now, id);
    ClaimJobNames(c, p, i, now, id);
  }

  /** The new execution gets a fresh record id and the only lock of its job. */
  lemma ClaimJobRuns(c: Cluster, p: CronParser, i: InstanceId, now: Time, id: JobId)
    requires Inv(c) && i in c.nodes && id in c.store.jobs && id !in c.store.locks
    ensures var r := ClaimJob(c, p, i, now, id);
      RunsRecorded(r) && RunsLocked(r) && RunsExclusive(r)
  {
    assert c.store.nextRecordId !in c.runs;
  }

  lemma ClaimJobRecords(c: Cluster, p: CronParser, i: InstanceId, now: Time, id: JobId)
    requires Inv(c) && i in c.nodes && id in c.store.jobs
    ensures var r := ClaimJob(c, p, i, now, id);
      OpenRecordsRun(r) && StatusMatchesOpen(r.store) && RecordIdsBelow(r.store)
  {
  }

  /** Moving `next_run` keeps every name. */
  lemma ClaimJobNames(c: Cluster, p: CronParser, i: InstanceId, now: Time, id: JobId)
    requires SchedulerController.JobsWellFormed(c.store) && i in c.nodes && id in c.store.jobs
    ensures SchedulerController.JobsWellFormed(ClaimJob(c, p, i, now, id).store)
  {
    var r := ClaimJob(c, p, i, now, id);
    forall a, b | a in r.store.jobs && b in r.store.jobs && r.store.jobs[a].name == r.store.jobs[b].name
      ensures a == b
    {
      assert r.store.jobs[a].name == c.store.jobs[a].name;
      assert r.store.jobs[b].name == c.store.jobs[b].name;
    }
  }

  lemma {:induction false} ClaimsInv(c: Cluster, p: CronParser, i: InstanceId, now: Time,
                                     order: seq<JobId>, taken: nat)
    requires Inv(c) && i in c.nodes
    requires forall k :: 0 <= k < |order| ==> order[k] in c.store.jobs
    ensures Inv(Claims(c, p, i, now, order, taken))
    decreases |order|
  {
    if |order| == 0 || taken >= MAX_JOBS_PER_CYCLE {
    } else if order[0] in c.store.locks {
      ClaimsInv(c, p, i, now, order[1..], taken);
    } else {
      ClaimJobInv(c, p, i, now, order[0]);
      ClaimsInv(ClaimJob(c, p, i, now, order[0]), p, i, now, order[1..], taken + 1);
    }
  }

  lemma TickInv(c: Cluster, p: CronParser, i: InstanceId, now: Time, order: seq<JobId>)
    requires Inv(c) && i in c.nodes
    requires Enumerates(order, DueJobs(c.store, now))
    ensures Inv(Tick(c, p, i, now, order))
  {
    if c.nodes[i].isRunning {
      ClaimsInv(c, p, i, now, order, 0);
    }
  }

  lemma FinishInv(c: Cluster, rid: RecordId, now: Time, outcome: Outcome)
    requires Inv(c) && rid in c.runs && rid in c.store.history
    ensures Inv(Finish(c, rid, now, outcome))
  {
    var r := Finish(c, rid, now, outcome);
    assert RunsLocked(r) by {
      forall x | x in r.runs ensures r.runs[x].jobId in r.store.locks {
        assert x != rid && x in c.runs;
        assert c.runs[x].jobId != c.runs[rid].jobId;
      }
    }
  }

  lemma CreateJobInv(c: Cluster, p: CronParser, body: SchedulerController.JobBody, now: Time)
    requires Inv(c)
    ensures Inv(c.(store := SchedulerController.CreateJob(p, c.store, body, now).store))
  {
    SchedulerController.CreatePreservesWellFormed(p, c.store, body, now);
  }

  lemma UpdateJobInv(c: Cluster, p: CronParser, id: JobId, body: SchedulerController.JobBody, now: Time)
    requires Inv(c)
    ensures Inv(c.(store := SchedulerController.UpdateJob(p, c.store, id, body, now).store))
  {
    SchedulerController.UpdatePreservesWellFormed(p, c.store, id, body, now);
  }

  lemma DeleteJobInv(c: Cluster, id: JobId)
    requires Inv(c)
    ensures Inv(c.(store := SchedulerController.DeleteJob(c.store, id).store))
  {
    SchedulerController.DeletePreservesWellFormed(c.store, id);
  }

  // ---------------------------------------------------------------------
  // Traces

  /** Everything that can happen to the cluster. `Tick` carries the order in
      which the due jobs come back; `Finish` the settled handler promise. */
  datatype Event =
    | StartEvent(i: InstanceId)
    | StopEvent(i: InstanceId)
    | AddJobEvent(i: InstanceId, name: string)
    | HeartbeatEvent(i: InstanceId)
    | TickEvent(i: InstanceId, order: seq<JobId>)
    | FinishEvent(rid: RecordId, outcome: Outcome)
    | CreateEvent(body: SchedulerController.JobBody)
    | UpdateEvent(id: JobId, body: SchedulerController.JobBody)
    | DeleteEvent(id: JobId)

  /** Whether the event can happen now: timers fire only on a running
      instance, a tick sees the due jobs, and an execution settles only
      after its two-minute floor when it succeeds. */
  predicate Enabled(c: Cluster, e: Event, now: Time) {
    match e
    case StartEvent(i) => i in c.nodes
    case StopEvent(i) => i in c.nodes
    case AddJobEvent(i, _) => i in c.nodes
    case HeartbeatEvent(i) => i in c.nodes && c.nodes[i].isRunning
    case TickEvent(i, order) => i in c.nodes && c.nodes[i].isRunning && Enumerates(order, DueJobs(c.store, now))
    case FinishEvent(rid, outcome) => FinishAllowed(c, rid, now, outcome)
    case CreateEvent(_) => true
    case UpdateEvent(_, _) => true
    case DeleteEvent(_) => true
  }

  function Step(c: Cluster, p: CronParser, e: Event, now: Time): (r: Cluster)
    requires Enabled(c, e, now)
    ensures r.nodes.Keys == c.nodes.Keys
  {
    match e
    case StartEvent(i) => Start(c, i, now)
    case StopEvent(i) => Stop(c, i, now)
    case AddJobEvent(i, name) => AddJob(c, i, name)
    case HeartbeatEvent(i) => c.(store := Heartbeat(c.store, i, now))
    case TickEvent(i, order) => TickKeepsNodes(c, p, i, now, order); Tick(c, p, i, now, order)
    case FinishEvent(rid, outcome) => Finish(c, rid, now, outcome)
    case CreateEvent(body) => c.(store := SchedulerController.CreateJob(p, c.store, body, now).store)
    case UpdateEvent(id, body) => c.(store := SchedulerController.UpdateJob(p, c.store, id, body, now).store)
    case DeleteEvent(id) => c.(store := SchedulerController.DeleteJob(c.store, id).store)
  }

  lemma TickKeepsNodes(c: Cluster, p: CronParser, i: InstanceId, now: Time, order: seq<JobId>)
    requires i in c.nodes && Enumerates(order, DueJobs(c.store, now))
    ensures Tick(c, p, i, now, order).nodes == c.nodes
  {
  }

  lemma StepInv(c: Cluster, p: CronParser, e: Event, now: Time)
    requires Inv(c) && Enabled(c, e, now)
    ensures Inv(Step(c, p, e, now))
  {
    match e
    case StartEvent(i) => StartInv(c, i, now);
    case StopEvent(i) => StopInv(c, i, now);
    case AddJobEvent(i, name) => AddJobInv(c, i, name);
    case HeartbeatEvent(i) => HeartbeatInv(c, i, now);
    case TickEvent(i, order) => TickInv(c, p, i, now, order);
    case FinishEvent(rid, outcome) => FinishInv(c, rid, now, outcome);
    case CreateEvent(body) => CreateJobInv(c, p, body, now);
    case UpdateEvent(id, body) => UpdateJobInv(c, p, id, body, now);
    case DeleteEvent(id) => DeleteJobInv(c, id);
  }

  /** Replays a trace of timed events; `None` when some event is not
      enabled at its turn. */
  function Replay(c: Cluster, p: CronParser, trace: seq<(Event, Time)>): (r: Option<Cluster>)
    ensures |trace| == 0 ==> r == Some(c)
    decreases |trace|
  {
    if |trace| == 0 then Some(c)
    else if !Enabled(c, trace[0].0, trace[0].1) then None
    else Replay(Step(c, p, trace[0].0, trace[0].1), p, trace[1..])
  }

  /** Every cluster reachable from freshly started instances keeps the
      invariant, hence mutual exclusion of executions. */
  lemma {:induction false} ReplayInv(c: Cluster, p: CronParser, trace: seq<(Event, Time)>)
    requires Inv(c)
    requires Replay(c, p, trace).Some?
    ensures Inv(Replay(c, p, trace).value)
    decreases |trace|
  {
    if |trace| > 0 {
      StepInv(c, p, trace[0].0, trace[0].1);
      ReplayInv(Step(c, p, trace[0].0, trace[0].1), p, trace[1..]);
    }
  }

  lemma ReachableExclusive(ids: set<InstanceId>, p: CronParser, trace: seq<(Event, Time)>,
                           a: RecordId, b: RecordId)
    requires Replay(Init(ids), p, trace).Some?
    ensures var c := Replay(Init(ids), p, trace).value;
      a in c.runs && b in c.runs && c.runs[a].jobId == c.runs[b].jobId ==> a == b
  {
    InitInv(ids);
    ReplayInv(Init(ids), p, trace);
  }
}

=== FILE: scheduler_store.dfy ===
/** The three scheduler tables and the advisory locks, as one immutable
    value shared by every instance. */
module SchedulerStore {
  import opened Wrappers
  import opened Clock

  type JobId = nat
  type InstanceId = string
  type RecordId = nat

  /** A `SchedulerJobs` row without its timestamps. */
  datatype Job = Job(name: string, handler: string, interval: string, isActive: bool, nextRun: Time)

  datatype Status = Running | Completed | Failed

  /** A `SchedulerHistory` row: one execution of a job on an instance. */
  datatype Record = Record(jobId: JobId, instanceId: InstanceId, startedAt: Time,
                           finishedAt: Option<Time>, status: Status, errorMessage: Option<string>)

  /** The jobs, the instances with their last heartbeat, the history, the
      job ids whose advisory lock is held, and the next auto-increment ids. */
  datatype Store = Store(jobs: map<JobId, Job>, instances: map<InstanceId, Time>,
                         history: map<RecordId, Record>, locks: set<JobId>,
                         nextJobId: JobId, nextRecordId: RecordId)

  /** An instance silent for longer than this is dead (two minutes). */
  const HEARTBEAT_TIMEOUT: int := 120 * SECOND

  /** The heartbeat sweep deletes rows with `last_heartbeat < now - 120 s`. */
  predicate Stale(heartbeat: Time, now: Time) {
    heartbeat < now - HEARTBEAT_TIMEOUT
  }

  /** The job list reports rows with `last_heartbeat >= now - 120 s`. */
  predicate ActiveAt(heartbeat: Time, now: Time) {
    heartbeat >= now - HEARTBEAT_TIMEOUT
  }

  /** Reported active and swept are exact complements. */
  lemma ActiveIsNotStale(heartbeat: Time, now: Time)
    ensures ActiveAt(heartbeat, now) <==> !Stale(heartbeat, now)
  {
  }

  /** `next_run <= now AND is_active = true`. */
  predicate Due(j: Job, now: Time) {
    j.isActive && j.nextRun <= now
  }

  /** A record whose execution has not been finalised (`finished_at` null). */
  predicate Open(r: Record) {
    r.finishedAt.None?
  }

  /** The controller's notion of a running execution: `status = 'running'
      AND finished_at IS NULL`. */
  predicate RunningRecord(r: Record) {
    r.status == Running && r.finishedAt.None?
  }

  function DueJobs(s: Store, now: Time): (ids: set<JobId>)
    ensures forall id :: id in ids <==> id in s.jobs && Due(s.jobs[id], now)
  {
    set id | id in s.jobs && Due(s.jobs[id], now)
  }

  /** `order` lists every member of `ids` exactly once: the rows of a query,
      in whatever order the database returns them. */
  predicate Enumerates(order: seq<JobId>, ids: set<JobId>) {
    (forall k :: 0 <= k < |order| ==> order[k] in ids)
    && (forall id :: id in ids ==> id in order)
    && (forall k, l :: 0 <= k < l < |order| ==> order[k] != order[l])
  }

  /** The empty store the migrations create. */
  const EMPTY: Store := Store(map[], map[], map[], {}, 1, 1)
}

=== FILE: seed_cron.dfy ===
/** `getNextRunTime` of the seed migration: a hand-written next-run
    calculator that understands a step in the minute field, a step in the
    hour field and a fixed time of day, and otherwise picks the top of the
    next hour. */
module SeedCron {
  import opened Wrappers
  import opened Text
  import opened Clock
  import opened CronUtils

  /** A JavaScript `Date`: a valid instant, or the invalid date that a `NaN`
      argument or a time value outside the `Date` range produces. */
  datatype DateValue = ValidDate(ms: Time) | InvalidDate

  const FORMAT_ERROR: string := "Invalid cron expression format"

  /** A `Date` holds at most 10^8 days either side of the epoch. */
  const MAX_DATE: int := 100_000_000 * DAY

  predicate InDateRange(t: int) {
    -MAX_DATE <= t <= MAX_DATE
  }

  /** `TimeClip`: every constructor and setter of `Date` stores its time
      value through it. */
  function TimeClip(t: int): (d: DateValue)
    ensures d.ValidDate? <==> InDateRange(t)
    ensures d.ValidDate? ==> d.ms == t
  {
    if InDateRange(t) then ValidDate(t) else InvalidDate
  }

  /** A one-argument setter (`setHours`, `setMinutes`, `setSeconds`,
      `setMilliseconds`): the count of `unit`s within the enclosing `outer`
      period becomes `v`; coarser fields and the finer remainder are kept.
      `v` may overflow the field (setting minute 75 moves into the next
      hour). A `NaN` argument, or an invalid date, gives an invalid date. */
  function SetField(d: DateValue, v: Option<int>, unit: int, outer: int): (r: DateValue)
    requires 0 < unit && 0 < outer
    ensures r.ValidDate? <==> d.ValidDate? && v.Some? && InDateRange(d.ms - d.ms % outer + v.value * unit + d.ms % unit)
    ensures r.ValidDate? ==> r.ms == d.ms - d.ms % outer + v.value * unit + d.ms % unit
  {
    match d
    case InvalidDate => InvalidDate
    case ValidDate(t) =>
      if v.None? then InvalidDate else TimeClip(t - t % outer + v.value * unit + t % unit)
  }

  /** `setSeconds(0); setMilliseconds(0)`. */
  function ZeroSeconds(d: DateValue): DateValue {
    SetField(SetField(d, Some(0), SECOND, MINUTE), Some(0), 1, SECOND)
  }

  /** `setMinutes(0); setSeconds(0); setMilliseconds(0)`. */
  function ZeroMinutes(d: DateValue): DateValue {
    ZeroSeconds(SetField(d, Some(0), MINUTE, HOUR))
  }

  /** `Math.ceil(a / n)` for a non-zero whole divisor. */
  function CeilDiv(a: int, n: int): (q: int)
    requires n != 0
    ensures n > 0 ==> (q - 1) * n < a <= q * n
    ensures n < 0 ==> q * n <= a < (q - 1) * n
  {
    if n > 0 then -((-a) / n) else -(a / (-n))
  }

  /** `Math.ceil(current / interval) * interval`, with `None` for `NaN`: an
      unreadable interval is `NaN`, and zero gives `x / 0`, infinite or
      `NaN`, times zero, which is `NaN` either way. A positive interval
      rounds `current` up to its next multiple. */
  function StepValue(current: int, n: Option<int>): (v: Option<int>)
    ensures v.Some? <==> n.Some? && n.value != 0
    ensures v.Some? && n.value > 0 ==>
              current <= v.value < current + n.value && v.value % n.value == 0
    ensures v.Some? && n.value < 0 ==> current + n.value < v.value <= current
  {
    match n
    case None => None
    case Some(k) =>
      if k == 0 then None
      else
        var q := CeilDiv(current, k);
        assert (q - 1) * k == q * k - k;
        if k > 0 then MultipleMod(q, k); Some(q * k) else Some(q * k)
  }

  /** Where a step lands: `base` plus the current count of `unit`s rounded up
      to a multiple of `n`. */
  function StepTime(base: Time, current: int, n: int, unit: int): Time
    requires n != 0
  {
    base + CeilDiv(current, n) * n * unit
  }

  /** The minute-step branch on a clock reading: set the minutes to the
      rounded-up step, then clear seconds and milliseconds. Valid exactly
      when the clock reading and the instant `setMinutes` computes (the new
      minute, with the current second and millisecond) are within the
      `Date` range, and `parseInt` read a non-zero step; the result is then
      the start of that minute. */
  function MinuteStep(now: Time, n: Option<int>): (d: DateValue)
    ensures d.ValidDate? ==> InDateRange(d.ms)
    ensures d.ValidDate? <==>
              InDateRange(now) && n.Some? && n.value != 0
              && InDateRange(StepTime(HourStart(now), MinuteOfHour(now), n.value, MINUTE) + now % MINUTE)
    ensures d.ValidDate? ==> d.ms == StepTime(HourStart(now), MinuteOfHour(now), n.value, MINUTE)
  {
    match TimeClip(now)
    case InvalidDate => InvalidDate
    case ValidDate(t) =>
      var v := StepValue(MinuteOfHour(t), n);
      match v
      case None => ZeroSeconds(SetField(ValidDate(t), v, MINUTE, HOUR))
      case Some(k) => MinuteSetClosed(t, k); ZeroSeconds(SetField(ValidDate(t), v, MINUTE, HOUR))
  }

  /** The hour-step branch: set the hours to the rounded-up step, then clear
      minutes, seconds and milliseconds. Valid exactly when the clock
      reading and the instant `setHours` computes are within range and the
      step is a non-zero number; the result is the start of that hour. */
  function HourStep(now: Time, n: Option<int>): (d: DateValue)
    ensures d.ValidDate? ==> InDateRange(d.ms)
    ensures d.ValidDate? <==>
              InDateRange(now) && n.Some? && n.value != 0
              && InDateRange(StepTime(DayStart(now), HourOfDay(now), n.value, HOUR) + now % HOUR)
    ensures d.ValidDate? ==> d.ms == StepTime(DayStart(now), HourOfDay(now), n.value, HOUR)
  {
    match TimeClip(now)
    case InvalidDate => InvalidDate
    case ValidDate(t) =>
      var v := StepValue(HourOfDay(t), n);
      match v
      case None => ZeroMinutes(SetField(ValidDate(t), v, HOUR, DAY))
      case Some(k) => HourSetClosed(t, k); ZeroMinutes(SetField(ValidDate(t), v, HOUR, DAY))
  }

  /** Today at `off` after midnight, or tomorrow when that is not after
      `now`. */
  function TodayOrTomorrow(now: Time, off: int): Time {
    var t := DayStart(now) + off;
    if t <= now then t + DAY else t
  }

  /** The fixed-time branch: `setHours(h)`, `setMinutes(m)`, clear seconds
      and milliseconds, and move a day ahead (`setDate(getDate() + 1)`) when
      the result is not after `now`. A `NaN` hour or minute, or any
      intermediate instant outside the range, gives an invalid date. */
  function FixedTime(h: Option<int>, m: Option<int>, now: Time): (d: DateValue)
    ensures h.None? || m.None? || !InDateRange(now) ==> d == InvalidDate
    ensures d.ValidDate? ==> InDateRange(d.ms) && d.ms % MINUTE == 0
  {
    match TimeClip(now)
    case InvalidDate => InvalidDate
    case ValidDate(t) =>
      var d := ZeroSeconds(SetField(SetField(ValidDate(t), h, HOUR, DAY), m, MINUTE, HOUR));
      if d.ValidDate? then
        FixedSetClosed(t, h.value, m.value);
        if d.ms <= t then
          MultipleShift(d.ms, 1440, MINUTE);
          TimeClip(d.ms + DAY)
        else d
      else d
  }

  /** The default branch: `setHours(getHours() + 1)`, then clear minutes,
      seconds and milliseconds. The top of the next hour, unless the clock
      reading or the instant an hour after it is outside the range. */
  function NextHour(now: Time): (d: DateValue)
    ensures d == if InDateRange(now) && now + HOUR <= MAX_DATE then ValidDate(HourStart(now) + HOUR) else InvalidDate
  {
    match TimeClip(now)
    case InvalidDate => InvalidDate
    case ValidDate(t) =>
      HourSetClosed(t, HourOfDay(t) + 1);
      ZeroMinutes(SetField(ValidDate(t), Some(HourOfDay(t) + 1), HOUR, DAY))
  }

  /** The four branches, on the minute and hour fields, for the clock
      reading `now`; whatever the branch, a valid result lies in the `Date`
      range. */
  function FieldsNextRun(minute: string, hour: string, now: Time): (d: DateValue)
    ensures d.ValidDate? ==> InDateRange(d.ms) && InDateRange(now)
  {
    if StartsWith(minute, "*/") then
      MinuteStep(now, ParseInt(minute[2..]))
    else if StartsWith(hour, "*/") then
      HourStep(now, ParseInt(hour[2..]))
    else if hour != "*" && minute != "*" then
      FixedTime(ParseInt(hour), ParseInt(minute), now)
    else
      NextHour(now)
  }

  /** `getNextRunTime(cronExpression)` read at instant `now`. */
  function GetNextRunTime(expr: string, now: Time): (r: Result<DateValue, string>)
    ensures r.Failure? <==> |Split(expr, ' ')| != 6
    ensures r.Failure? ==> r.error == FORMAT_ERROR
  {
    var parts := Split(expr, ' ');
    if |parts| != 6 then Failure(FORMAT_ERROR)
    else Success(FieldsNextRun(parts[1], parts[2], now))
  }

  /** Only the minute and hour fields count: six space-free fields joined by
      single spaces give the result of those two fields alone. */
  lemma OnlyMinuteAndHourMatter(fields: seq<string>, now: Time)
    requires |fields| == 6
    requires forall f :: f in fields ==> ' ' !in f
    ensures GetNextRunTime(Join(fields, ' '), now) == Success(FieldsNextRun(fields[1], fields[2], now))
  {
    SplitJoin(fields, ' ');
  }

  /** Hence two well-formed expressions that agree on minute and hour agree
      on the result, whatever their other four fields say. */
  lemma OtherFieldsIgnored(a: seq<string>, b: seq<string>, now: Time)
    requires |a| == 6 && |b| == 6
    requires forall f :: f in a ==> ' ' !in f
    requires forall f :: f in b ==> ' ' !in f
    requires a[1] == b[1] && a[2] == b[2]
    ensures GetNextRunTime(Join(a, ' '), now) == GetNextRunTime(Join(b, ' '), now)
  {
    OnlyMinuteAndHourMatter(a, now);
    OnlyMinuteAndHourMatter(b, now);
  }

  /** A minute step takes precedence over anything in the hour field. */
  lemma MinuteStepFirst(minute: string, hour1: string, hour2: string, now: Time)
    requires StartsWith(minute, "*/")
    ensures FieldsNextRun(minute, hour1, now) == FieldsNextRun(minute, hour2, now)
    ensures FieldsNextRun(minute, hour1, now) == MinuteStep(now, ParseInt(minute[2..]))
  {
  }

  lemma MulMonotone(a: int, b: int, c: int)
    requires a <= b && c > 0
    ensures a * c <= b * c
  {
  }

  lemma MulStrict(a: int, b: int, c: int)
    requires a < b && c > 0
    ensures a * c < b * c
  {
  }

  /** The only multiple of `k` strictly between `-k` and `k` is zero. */
  lemma ZeroFactor(x: int, k: int)
    requires k > 0 && -k < x * k < k
    ensures x == 0
  {
    if x >= 1 {
      MulMonotone(1, x, k);
      assert false;
    } else if x <= -1 {
      MulMonotone(x, -1, k);
      assert false;
    }
  }

  lemma MultipleMod(q: int, k: int)
    requires k > 0
    ensures (q * k) % k == 0
  {
    var d := (q * k) / k;
    assert (q - d) * k == (q * k) % k;
    ZeroFactor(q - d, k);
  }

  /** An offset below `u` from a multiple of `u` is its own remainder. */
  lemma ModOffset(b: int, r: int, u: int)
    requires u > 0 && b % u == 0 && 0 <= r < u
    ensures (b + r) % u == r
  {
    DivModUnique(b + r, u, b / u, r);
  }

  /** A multiple of `k·u` is a multiple of `u`. */
  lemma MultipleOfPart(b: int, k: int, u: int)
    requires k > 0 && u > 0 && b % (k * u) == 0
    ensures b % u == 0
  {
    var q := b / (k * u);
    assert b == q * (k * u);
    assert b == (q * k) * u;
    DivModUnique(b, u, q * k, 0);
  }

  lemma MultipleShift(b: int, q: int, u: int)
    requires u > 0 && b % u == 0
    ensures (b + q * u) % u == 0
  {
    assert b + q * u == (b / u + q) * u;
    DivModUnique(b + q * u, u, b / u + q, 0);
  }

  /** Two distinct multiples of `u` are at least `u` apart. */
  lemma MultiplesApart(a: int, b: int, u: int)
    requires u > 0 && a % u == 0 && b % u == 0 && a < b
    ensures a + u <= b
  {
    var p, q := a / u, b / u;
    assert a == p * u && b == q * u;
    if p >= q {
      MulMonotone(q, p, u);
      assert false;
    }
    MulMonotone(p + 1, q, u);
  }

  /** The ends of the range are whole days, hence whole hours, minutes and
      seconds. */
  lemma RangeAligned()
    ensures MAX_DATE % DAY == 0 && MAX_DATE % HOUR == 0
    ensures MAX_DATE % MINUTE == 0 && MAX_DATE % SECOND == 0
    ensures (-MAX_DATE) % MINUTE == 0 && (-MAX_DATE) % HOUR == 0 && (-MAX_DATE) % DAY == 0
  {
    DivModUnique(MAX_DATE, DAY, 100_000_000, 0);
    DivModUnique(MAX_DATE, HOUR, 2_400_000_000, 0);
    DivModUnique(MAX_DATE, MINUTE, 144_000_000_000, 0);
    DivModUnique(MAX_DATE, SECOND, 8_640_000_000_000, 0);
    DivModUnique(-MAX_DATE, DAY, -100_000_000, 0);
    DivModUnique(-MAX_DATE, HOUR, -2_400_000_000, 0);
    DivModUnique(-MAX_DATE, MINUTE, -144_000_000_000, 0);
  }

  /** Rounding an instant of the range down to a whole minute, hour or day
      stays in the range. */
  lemma FloorInRange(t: int, u: int)
    requires InDateRange(t) && (u == MINUTE || u == HOUR || u == DAY)
    ensures InDateRange(t - t % u)
  {
    RangeAligned();
    DivModUnique(t - t % u, u, t / u, 0);
    if t - t % u < -MAX_DATE {
      MultiplesApart(t - t % u, -MAX_DATE, u);
      assert false;
    }
  }

  /** `setSeconds(0); setMilliseconds(0)` on a valid date is the start of its
      minute. */
  lemma ZeroSecondsFloor(t: Time)
    requires InDateRange(t)
    ensures ZeroSeconds(ValidDate(t)) == ValidDate(MinuteStart(t))
  {
    NestedMod(t, SECOND, 60);
    FloorInRange(t, MINUTE);
    var y := MinuteStart(t) + t % SECOND;
    assert SetField(ValidDate(t), Some(0), SECOND, MINUTE) == ValidDate(y);
    MultipleOfPart(MinuteStart(t), 60, SECOND);
    ModOffset(MinuteStart(t), t % SECOND, SECOND);
    DivModUnique(y, 1, y, 0);
  }

  /** Clearing minutes too gives the start of the hour. */
  lemma ZeroMinutesFloor(t: Time)
    requires InDateRange(t)
    ensures ZeroMinutes(ValidDate(t)) == ValidDate(HourStart(t))
  {
    NestedMod(t, MINUTE, 60);
    FloorInRange(t, HOUR);
    var y := HourStart(t) + t % MINUTE;
    assert SetField(ValidDate(t), Some(0), MINUTE, HOUR) == ValidDate(y);
    ZeroSecondsFloor(y);
    MultipleOfPart(HourStart(t), 60, MINUTE);
    ModOffset(HourStart(t), t % MINUTE, MINUTE);
  }

  /** `setMinutes(v)` followed by clearing the seconds: the start of minute
      `v` counted from the start of the hour, provided the instant
      `setMinutes` computes, which keeps the current second and millisecond,
      is in range. */
  lemma MinuteSetClosed(t: Time, v: int)
    requires InDateRange(t)
    ensures var x := HourStart(t) + v * MINUTE;
      ZeroSeconds(SetField(ValidDate(t), Some(v), MINUTE, HOUR))
      == if InDateRange(x + t % MINUTE) then ValidDate(x) else InvalidDate
  {
    var x := HourStart(t) + v * MINUTE;
    if InDateRange(x + t % MINUTE) {
      ZeroSecondsFloor(x + t % MINUTE);
      MultipleOfPart(HourStart(t), 60, MINUTE);
      MultipleShift(HourStart(t), v, MINUTE);
      ModOffset(x, t % MINUTE, MINUTE);
    }
  }

  /** `setHours(v)` followed by clearing minutes and seconds: the start of
      hour `v` counted from the start of the day, provided the instant
      `setHours` computes is in range. */
  lemma HourSetClosed(t: Time, v: int)
    requires InDateRange(t)
    ensures var x := DayStart(t) + v * HOUR;
      ZeroMinutes(SetField(ValidDate(t), Some(v), HOUR, DAY))
      == if InDateRange(x + t % HOUR) then ValidDate(x) else InvalidDate
  {
    var x := DayStart(t) + v * HOUR;
    if InDateRange(x + t % HOUR) {
      ZeroMinutesFloor(x + t % HOUR);
      MultipleOfPart(DayStart(t), 24, HOUR);
      MultipleShift(DayStart(t), v, HOUR);
      ModOffset(x, t % HOUR, HOUR);
    }
  }

  /** After `setHours(h)`, the minutes, seconds and milliseconds are the
      clock reading's. */
  lemma HourSetRemainders(t: Time, h: int)
    ensures var x1 := DayStart(t) + h * HOUR + t % HOUR;
      x1 % HOUR == t % HOUR && x1 % MINUTE == t % MINUTE
      && (DayStart(t) + h * HOUR) % MINUTE == 0
  {
    var d := DayStart(t);
    MultipleOfPart(d, 24, HOUR);
    MultipleShift(d, h, HOUR);
    ModOffset(d + h * HOUR, t % HOUR, HOUR);
    NestedMod(t, MINUTE, 60);
    var mm := (t % HOUR) / MINUTE;
    MultipleOfPart(d + h * HOUR, 60, MINUTE);
    MultipleShift(d + h * HOUR, mm, MINUTE);
    ModOffset(d + h * HOUR + mm * MINUTE, t % MINUTE, MINUTE);
  }

  /** `setHours(h); setMinutes(m)` and clearing the seconds: `h:m:00.000`
      counted from the start of the day, provided both instants the setters
      compute are in range. */
  lemma FixedSetClosed(t: Time, h: int, m: int)
    requires InDateRange(t)
    ensures var f := DayStart(t) + h * HOUR + m * MINUTE;
      f % MINUTE == 0
      && ZeroSeconds(SetField(SetField(ValidDate(t), Some(h), HOUR, DAY), Some(m), MINUTE, HOUR))
         == if InDateRange(DayStart(t) + h * HOUR + t % HOUR) && InDateRange(f + t % MINUTE)
            then ValidDate(f) else InvalidDate
  {
    var x1 := DayStart(t) + h * HOUR + t % HOUR;
    var f := DayStart(t) + h * HOUR + m * MINUTE;
    HourSetRemainders(t, h);
    MultipleShift(DayStart(t) + h * HOUR, m, MINUTE);
    if InDateRange(x1) {
      assert SetField(ValidDate(t), Some(h), HOUR, DAY) == ValidDate(x1);
      assert SetField(ValidDate(x1), Some(m), MINUTE, HOUR) == TimeClip(f + t % MINUTE);
      if InDateRange(f + t % MINUTE) {
        ZeroSecondsFloor(f + t % MINUTE);
        ModOffset(f, t % MINUTE, MINUTE);
      }
    }
  }

  /** The arithmetic of both step branches: `current` units after `base` is
      rounded up to the next multiple of `n` units. */
  lemma StepGrid(base: int, current: int, n: int, unit: int)
    requires n > 0 && unit > 0
    ensures var t := StepTime(base, current, n, unit);
      base + current * unit <= t < base + current * unit + n * unit
      && (t - base) % (n * unit) == 0
  {
    var q := CeilDiv(current, n);
    assert current <= q * n < current + n;
    MulMonotone(current, q * n, unit);
    MulStrict(q * n, current + n, unit);
    assert (current + n) * unit == current * unit + n * unit;
    assert q * n * unit == q * (n * unit);
    MultipleMod(q, n * unit);
  }

  /** A positive minute step lands on the step grid of the current hour, in
      `[start of this minute, start of this minute + N minutes)`; it can lie
      before `now`. The date is valid exactly when the clock reading is in
      range and that instant, with the current second and millisecond, does
      not pass the end of the range; in particular it is valid whenever
      `now + N minutes` is still in range. */
  lemma MinuteStepBounds(minute: string, hour: string, now: Time, n: int)
    requires StartsWith(minute, "*/") && ParseInt(minute[2..]) == Some(n) && n > 0
    ensures var t := StepTime(HourStart(now), MinuteOfHour(now), n, MINUTE);
      MinuteStart(now) <= t < MinuteStart(now) + n * MINUTE
      && (t - HourStart(now)) % (n * MINUTE) == 0
      && FieldsNextRun(minute, hour, now)
         == if InDateRange(now) && t + now % MINUTE <= MAX_DATE then ValidDate(t) else InvalidDate
    ensures InDateRange(now) && now + n * MINUTE <= MAX_DATE ==> FieldsNextRun(minute, hour, now).ValidDate?
  {
    StepGrid(HourStart(now), MinuteOfHour(now), n, MINUTE);
  }

  /** A positive hour step, with no minute step, lands on the step grid of
      the day, in `[start of this hour, start of this hour + N hours)`, and
      is valid exactly when the instant `setHours` computes is in range. */
  lemma HourStepBounds(minute: string, hour: string, now: Time, n: int)
    requires !StartsWith(minute, "*/")
    requires StartsWith(hour, "*/") && ParseInt(hour[2..]) == Some(n) && n > 0
    ensures var t := StepTime(DayStart(now), HourOfDay(now), n, HOUR);
      HourStart(now) <= t < HourStart(now) + n * HOUR
      && (t - DayStart(now)) % (n * HOUR) == 0
      && FieldsNextRun(minute, hour, now)
         == if InDateRange(now) && t + now % HOUR <= MAX_DATE then ValidDate(t) else InvalidDate
    ensures InDateRange(now) && now + n * HOUR <= MAX_DATE ==> FieldsNextRun(minute, hour, now).ValidDate?
  {
    StepGrid(DayStart(now), HourOfDay(now), n, HOUR);
  }

  /** A step longer than the whole range past the epoch gives an invalid
      date at any instant since 1970 outside the first minute of an hour:
      a step of 200000000000 minutes is such a step. */
  lemma OversizedStepInvalid(minute: string, hour: string, now: Time, n: int)
    requires StartsWith(minute, "*/") && ParseInt(minute[2..]) == Some(n)
    requires n * MINUTE > MAX_DATE
    requires 0 <= now && MinuteOfHour(now) > 0
    ensures FieldsNextRun(minute, hour, now) == InvalidDate
  {
    assert n > 0;
    MinuteStepBounds(minute, hour, now, n);
    StepAtLeast(HourStart(now), MinuteOfHour(now), n, MINUTE);
    HourStartNonNegative(now);
  }

  lemma StepAtLeast(base: int, current: int, n: int, unit: int)
    requires n > 0 && unit > 0 && current >= 1
    ensures StepTime(base, current, n, unit) >= base + n * unit
  {
    var q := CeilDiv(current, n);
    assert q >= 1;
    MulMonotone(1, q, n);
    MulMonotone(n, q * n, unit);
  }

  lemma HourStartNonNegative(t: Time)
    requires t >= 0
    ensures HourStart(t) >= 0
  {
    DivModUnique(0, HOUR, 0, 0);
    if HourStart(t) < 0 {
      MultiplesApart(HourStart(t), 0, HOUR);
    }
  }

  /** A step of zero, or one `parseInt` cannot read, gives an invalid date. */
  lemma BadStepInvalid(minute: string, hour: string, now: Time)
    requires StartsWith(minute, "*/")
    requires ParseInt(minute[2..]).None? || ParseInt(minute[2..]) == Some(0)
    ensures FieldsNextRun(minute, hour, now) == InvalidDate
  {
  }

  /** A fixed time of day within range is scheduled for today if still
      ahead, else tomorrow: strictly after `now`, at most a day later, at
      `H:M:00.000`. The date is valid exactly when the clock reading and
      that instant are in range. */
  lemma FixedTimeBounds(minute: string, hour: string, now: Time, h: int, m: int)
    requires !StartsWith(minute, "*/") && !StartsWith(hour, "*/")
    requires hour != "*" && minute != "*"
    requires ParseInt(hour) == Some(h) && ParseInt(minute) == Some(m)
    requires 0 <= h < 24 && 0 <= m < 60
    ensures var t := TodayOrTomorrow(now, h * HOUR + m * MINUTE);
      now < t <= now + DAY && t % DAY == h * HOUR + m * MINUTE
    ensures var t := TodayOrTomorrow(now, h * HOUR + m * MINUTE);
      FieldsNextRun(minute, hour, now)
      == if InDateRange(now) && t <= MAX_DATE then ValidDate(t) else InvalidDate
  {
    TodayOrTomorrowBounds(now, h, m);
    FixedBranch(minute, hour, now, h, m);
    FixedTimeValid(now, h, m);
  }

  lemma TodayOrTomorrowBounds(now: Time, h: int, m: int)
    requires 0 <= h < 24 && 0 <= m < 60
    ensures var t := TodayOrTomorrow(now, h * HOUR + m * MINUTE);
      now < t <= now + DAY && t % DAY == h * HOUR + m * MINUTE
  {
    TimeOfDay(now, h * HOUR + m * MINUTE);
  }

  /** With both fields readable and neither a step, the fixed-time branch
      runs. */
  lemma FixedBranch(minute: string, hour: string, now: Time, h: int, m: int)
    requires !StartsWith(minute, "*/") && !StartsWith(hour, "*/")
    requires hour != "*" && minute != "*"
    requires ParseInt(hour) == Some(h) && ParseInt(minute) == Some(m)
    ensures FieldsNextRun(minute, hour, now) == FixedTime(Some(h), Some(m), now)
  {
  }

  lemma FixedTimeValid(now: Time, h: int, m: int)
    requires 0 <= h < 24 && 0 <= m < 60
    ensures var t := TodayOrTomorrow(now, h * HOUR + m * MINUTE);
      FixedTime(Some(h), Some(m), now) == if InDateRange(now) && t <= MAX_DATE then ValidDate(t) else InvalidDate
  {
    if InDateRange(now) {
      FixedTimeInRange(now, h, m);
    }
  }

  lemma FixedTimeInRange(now: Time, h: int, m: int)
    requires InDateRange(now) && 0 <= h < 24 && 0 <= m < 60
    ensures var t := TodayOrTomorrow(now, h * HOUR + m * MINUTE);
      FixedTime(Some(h), Some(m), now) == if t <= MAX_DATE then ValidDate(t) else InvalidDate
  {
    var f := DayStart(now) + h * HOUR + m * MINUTE;
    FixedSetClosed(now, h, m);
    if now < MAX_DATE {
      FixedBeforeEnd(now, h, m);
      assert ZeroSeconds(SetField(SetField(ValidDate(now), Some(h), HOUR, DAY), Some(m), MINUTE, HOUR)) == ValidDate(f);
    } else {
      FixedAtEnd(now, h, m);
    }
  }

  /** Before the last instant of the range, both instants the setters
      compute lie within today, hence in range. */
  lemma FixedBeforeEnd(now: Time, h: int, m: int)
    requires InDateRange(now) && now < MAX_DATE && 0 <= h < 24 && 0 <= m < 60
    ensures var f := DayStart(now) + h * HOUR + m * MINUTE;
      InDateRange(DayStart(now) + h * HOUR + now % HOUR) && InDateRange(f + now % MINUTE)
      && f < DayStart(now) + DAY <= MAX_DATE
  {
    FloorInRange(now, DAY);
    RangeAligned();
    MultiplesApart(DayStart(now), MAX_DATE, DAY);
    assert h * HOUR <= 23 * HOUR;
    assert m * MINUTE <= 59 * MINUTE;
  }

  /** At the last instant of the range, `h:m` today is not after it, and
      any later instant is out of range. */
  lemma FixedAtEnd(now: Time, h: int, m: int)
    requires now == MAX_DATE && 0 <= h < 24 && 0 <= m < 60
    ensures var f := DayStart(now) + h * HOUR + m * MINUTE;
      FixedTime(Some(h), Some(m), now) == InvalidDate
      && TodayOrTomorrow(now, h * HOUR + m * MINUTE) > MAX_DATE
  {
    DivModUnique(now, DAY, 100_000_000, 0);
    DivModUnique(now, HOUR, 2_400_000_000, 0);
    DivModUnique(now, MINUTE, 144_000_000_000, 0);
    FixedSetClosed(now, h, m);
    TimeOfDay(now, h * HOUR + m * MINUTE);
  }

  /** Today's instant `off` after midnight, pushed to tomorrow when it is not
      ahead of `now`. */
  lemma TimeOfDay(now: Time, off: int)
    requires 0 <= off < DAY
    ensures var r := TodayOrTomorrow(now, off);
      now < r <= now + DAY && r % DAY == off
  {
    var d := DayStart(now);
    ModOffset(d, off, DAY);
    ModOffset(d + DAY, off, DAY);
    assert d + off + DAY == d + DAY + off;
  }

  /** A fixed time whose field values are unreadable gives an invalid date. */
  lemma FixedTimeUnreadable(minute: string, hour: string, now: Time)
    requires !StartsWith(minute, "*/") && !StartsWith(hour, "*/")
    requires hour != "*" && minute != "*"
    requires ParseInt(hour).None? || ParseInt(minute).None?
    ensures FieldsNextRun(minute, hour, now) == InvalidDate
  {
  }

  /** The default branch is the same top-of-next-hour as the cron helper's
      fallback, unless the hour ahead leaves the `Date` range. */
  lemma DefaultIsFallback(minute: string, hour: string, now: Time)
    requires !StartsWith(minute, "*/") && !StartsWith(hour, "*/")
    requires hour == "*" || minute == "*"
    ensures FieldsNextRun(minute, hour, now)
         == if InDateRange(now) && now + HOUR <= MAX_DATE then ValidDate(FallbackTime(now)) else InvalidDate
  {
  }

  lemma HealthCheckFields()
    ensures Join(["0", "*/15", "*", "*", "*", "*"], ' ') == HEALTH_CHECK
  {
  }

  lemma FifteenText()
    ensures IntToString(15) == "15"
  {
    assert NatToString(15) == NatToString(1) + [DigitChar(5)];
  }

  lemma FifteenParses()
    ensures ParseInt("15") == Some(15)
  {
    FifteenText();
    ParseIntToString(15);
  }

  /** An ideographic space before the digits is skipped, as JavaScript
      white space. */
  lemma WideSpaceSkipped()
    ensures ParseInt("\U{3000}15") == Some(15)
  {
    assert "\U{3000}15" == ['\U{3000}'] + "15";
    LeadingSpaceSkipped('\U{3000}', "15");
    FifteenParses();
  }

  const HEALTH_CHECK: string := "0 */15 * * * *"

  lemma EveryFifteenMinutes(hour: string, now: Time)
    ensures FieldsNextRun("*/15", hour, now) == MinuteStep(now, Some(15))
  {
    assert StartsWith("*/15", "*/");
    assert "*/15"[2..] == "15";
    FifteenParses();
  }

  lemma QuarterPastStep()
    ensures var now := 10 * HOUR + 15 * MINUTE + 30 * SECOND;
      MinuteStep(now, Some(15)) == ValidDate(10 * HOUR + 15 * MINUTE)
  {
    var now := 10 * HOUR + 15 * MINUTE + 30 * SECOND;
    assert HourStart(now) == 10 * HOUR;
    assert MinuteOfHour(now) == 15;
  }

  /** At 10:15:30 the every-fifteen-minutes expression of the health check
      yields 10:15:00, half a minute in the past. */
  lemma HealthCheckAtQuarterPast()
    ensures var now := 10 * HOUR + 15 * MINUTE + 30 * SECOND;
      GetNextRunTime(HEALTH_CHECK, now) == Success(ValidDate(10 * HOUR + 15 * MINUTE))
  {
    var now := 10 * HOUR + 15 * MINUTE + 30 * SECOND;
    HealthCheckFields();
    OnlyMinuteAndHourMatter(["0", "*/15", "*", "*", "*", "*"], now);
    EveryFifteenMinutes("*", now);
    QuarterPastStep();
  }
}

=== FILE: text.dfy ===
/** The handful of JavaScript string operations the core relies on, over
    `string` = `seq<char>`: `toLowerCase`, `includes`, `startsWith`,
    `split(' ')`, `parseInt` and the decimal rendering of an integer inside a
    template literal. Only ASCII letters have case here. */
module Text {
  import opened Wrappers

  // ---------------------------------------------------------------------
  // Characters

  predicate IsUpper(c: char) { 'A' <= c <= 'Z' }

  predicate IsLower(c: char) { 'a' <= c <= 'z' }

  predicate IsLetter(c: char) { IsUpper(c) || IsLower(c) }

  predicate IsDigit(c: char) { '0' <= c <= '9' }

  /** A string made of letters only, such as a retry keyword. */
  predicate AllLetters(s: string) {
    forall i :: 0 <= i < |s| ==> IsLetter(s[i])
  }

  /** A string with no letter in it, such as a rendered number. */
  predicate NoLetters(s: string) {
    forall i :: 0 <= i < |s| ==> !IsLetter(s[i])
  }

  function LowerChar(c: char): (r: char)
    ensures IsUpper(c) ==> IsLower(r) && r as int == c as int + 32
    ensures !IsUpper(c) ==> r == c
  {
    if IsUpper(c) then (c as int + 32) as char else c
  }

  function UpperChar(c: char): char
    requires IsLower(c)
  {
    (c as int - 32) as char
  }

  // ---------------------------------------------------------------------
  // toLowerCase

  function ToLower(s: string): (r: string)
    ensures |r| == |s|
    ensures forall i :: 0 <= i < |s| ==> r[i] == LowerChar(s[i])
  {
    if s == [] then [] else [LowerChar(s[0])] + ToLower(s[1..])
  }

  lemma ToLowerAppend(a: string, b: string)
    ensures ToLower(a + b) == ToLower(a) + ToLower(b)
  {
    var l, r := ToLower(a + b), ToLower(a) + ToLower(b);
    assert |l| == |r|;
    forall i | 0 <= i < |l|
      ensures l[i] == r[i]
    {
      if i < |a| {
        assert (a + b)[i] == a[i];
      } else {
        assert (a + b)[i] == b[i - |a|];
      }
    }
  }

  lemma ToLowerKeepsNoLetters(s: string)
    requires NoLetters(s)
    ensures ToLower(s) == s
  {
  }

  /** A lower-case letter of `ToLower(s)` comes from that letter or its
      upper-case form in `s`: the handle for showing a keyword is absent. */
  lemma LowerCharOrigin(s: string, c: char)
    requires IsLower(c) && c in ToLower(s)
    ensures c in s || UpperChar(c) in s
  {
    var i :| 0 <= i < |ToLower(s)| && ToLower(s)[i] == c;
    var d := s[i];
    assert d in s;
    assert LowerChar(d) == c;
    if IsUpper(d) {
      assert d as int == c as int - 32;
    }
  }

  // ---------------------------------------------------------------------
  // includes / startsWith

  predicate StartsWith(s: string, prefix: string) {
    |prefix| <= |s| && s[..|prefix|] == prefix
  }

  /** `k` occurs in `s` starting at index `i`. */
  predicate OccursAt(s: string, k: string, i: int) {
    0 <= i && i + |k| <= |s| && s[i..i + |k|] == k
  }

  /** `s.includes(k)`. */
  predicate Contains(s: string, k: string) {
    exists i :: 0 <= i <= |s| - |k| && OccursAt(s, k, i)
  }

  lemma ContainsLength(s: string, k: string)
    requires Contains(s, k)
    ensures |k| <= |s|
  {
  }

  /** Every character of a contained string occurs in the container. */
  lemma ContainsChars(s: string, k: string, j: int)
    requires Contains(s, k) && 0 <= j < |k|
    ensures k[j] in s
  {
    var i :| 0 <= i <= |s| - |k| && OccursAt(s, k, i);
    assert s[i + j] == s[i..i + |k|][j];
  }

  /** A string of letters cannot straddle a non-empty run of non-letters, so
      it is contained in the part before the run or in the part after it. */
  lemma ContainsAcrossSeparator(p: string, d: string, q: string, k: string)
    requires AllLetters(k) && |k| > 0
    requires NoLetters(d) && |d| > 0
    requires Contains(p + d + q, k)
    ensures Contains(p, k) || Contains(q, k)
  {
    var s := p + d + q;
    var i :| 0 <= i <= |s| - |k| && OccursAt(s, k, i);
    MatchAvoidsRun(s, k, i, |p|, |p| + |d|);
    if i + |k| <= |p| {
      assert p[i..i + |k|] == s[i..i + |k|];
      assert OccursAt(p, k, i);
    } else {
      var j := i - |p| - |d|;
      assert q[j..j + |k|] == s[i..i + |k|];
      assert OccursAt(q, k, j);
    }
  }

  /** An occurrence of a string of letters lies wholly before or wholly
      after a run `s[lo..hi]` of non-letters. */
  lemma MatchAvoidsRun(s: string, k: string, i: int, lo: int, hi: int)
    requires AllLetters(k) && |k| > 0 && OccursAt(s, k, i)
    requires 0 <= lo < hi <= |s|
    requires forall j :: lo <= j < hi ==> !IsLetter(s[j])
    ensures i + |k| <= lo || i >= hi
  {
    // were the two to overlap, position m would hold a letter and a non-letter
    var m := if i < lo then lo else i;
    assert m < |s| ==> s[m] in s;
  }

  // ---------------------------------------------------------------------
  // split(' ') and its inverse

  /** `s.split(sep)`: the maximal pieces between occurrences of `sep`;
      consecutive separators give empty pieces and the result is never empty. */
  function Split(s: string, sep: char): (parts: seq<string>)
    ensures |parts| > 0
    ensures forall p :: p in parts ==> sep !in p
    decreases |s|
  {
    if sep !in s then [s]
    else
      var i := IndexOf(s, sep);
      [s[..i]] + Split(s[i + 1..], sep)
  }

  function IndexOf(s: string, c: char): (i: nat)
    requires c in s
    ensures i < |s| && s[i] == c && c !in s[..i]
  {
    if s[0] == c then 0 else 1 + IndexOf(s[1..], c)
  }

  function Join(parts: seq<string>, sep: char): string
    requires |parts| > 0
  {
    if |parts| == 1 then parts[0] else parts[0] + [sep] + Join(parts[1..], sep)
  }

  lemma {:induction false} JoinSplit(s: string, sep: char)
    ensures Join(Split(s, sep), sep) == s
    decreases |s|
  {
    if sep in s {
      var i := IndexOf(s, sep);
      JoinSplit(s[i + 1..], sep);
      assert s == s[..i] + [sep] + s[i + 1..];
    }
  }

  lemma {:induction false} SplitJoin(parts: seq<string>, sep: char)
    requires |parts| > 0
    requires forall p :: p in parts ==> sep !in p
    ensures Split(Join(parts, sep), sep) == parts
    decreases |parts|
  {
    assert parts[0] in parts;
    if |parts| > 1 {
      assert forall p :: p in parts[1..] ==> p in parts;
      SplitJoin(parts[1..], sep);
      SplitCons(parts[0], sep, Join(parts[1..], sep));
      assert parts == [parts[0]] + parts[1..];
    }
  }

  /** Splitting at the first separator. */
  lemma SplitCons(a: string, sep: char, rest: string)
    requires sep !in a
    ensures Split(a + [sep] + rest, sep) == [a] + Split(rest, sep)
  {
    var s := a + [sep] + rest;
    IndexOfFirst(a, sep, rest);
    var i := IndexOf(s, sep);
    assert s[..i] == a;
    assert s[i + 1..] == rest;
    assert Split(s, sep) == [s[..i]] + Split(s[i + 1..], sep);
  }

  lemma IndexOfFirst(a: string, c: char, b: string)
    requires c !in a
    ensures c in a + [c] + b && IndexOf(a + [c] + b, c) == |a|
  {
    var s := a + [c] + b;
    assert s[|a|] == c;
    assert s[..|a|] == a;
  }

  // ---------------------------------------------------------------------
  // Integer rendering (`${n}`) and parseInt

  function DigitChar(d: int): (c: char)
    requires 0 <= d < 10
    ensures IsDigit(c)
  {
    ('0' as int + d) as char
  }

  function NatToString(n: nat): (s: string)
    ensures |s| > 0 && NoLetters(s)
    ensures forall i :: 0 <= i < |s| ==> IsDigit(s[i])
    ensures |s| > 1 ==> s[0] != '0'
  {
    if n < 10 then [DigitChar(n)] else NatToString(n / 10) + [DigitChar(n % 10)]
  }

  /** The decimal text of an integer, as a template literal renders it. */
  function IntToString(n: int): (s: string)
    ensures |s| > 0 && NoLetters(s)
  {
    if n < 0 then "-" + NatToString(-n) else NatToString(n)
  }

  /** The white space `parseInt` skips: JavaScript's WhiteSpace (tab,
      vertical tab, form feed, space, no-break space, the byte-order mark and
      the other space separators of Unicode category Zs) and LineTerminator
      (line feed, carriage return, line and paragraph separator). */
  predicate IsSpace(c: char) {
    c == ' ' || c == '\t' || c == '\n' || c == '\r' || c == '\U{B}' || c == '\U{C}'
    || c == '\U{A0}' || c == '\U{FEFF}' || c == '\U{1680}'
    || ('\U{2000}' <= c <= '\U{200A}')
    || c == '\U{2028}' || c == '\U{2029}' || c == '\U{202F}' || c == '\U{205F}' || c == '\U{3000}'
  }

  function TrimStart(s: string): (r: string)
    ensures |r| <= |s| && r == s[|s| - |r|..]
    ensures |r| > 0 ==> !IsSpace(r[0])
  {
    if |s| > 0 && IsSpace(s[0]) then TrimStart(s[1..]) else s
  }

  /** Value of `c` as a digit in `radix` (10 or 16), or -1. */
  function DigitValue(c: char, radix: int): (v: int)
    ensures v >= -1
    ensures radix == 10 ==> (v >= 0 <==> IsDigit(c))
  {
    if '0' <= c <= '9' && c as int - '0' as int < radix then c as int - '0' as int
    else if radix == 16 && 'a' <= c <= 'f' then c as int - 'a' as int + 10
    else if radix == 16 && 'A' <= c <= 'F' then c as int - 'A' as int + 10
    else -1
  }

  /** Length of the longest prefix of `s` made of digits of `radix`. */
  function DigitRun(s: string, radix: int): (n: nat)
    ensures n <= |s|
    ensures forall i :: 0 <= i < n ==> DigitValue(s[i], radix) >= 0
    ensures n < |s| ==> DigitValue(s[n], radix) < 0
  {
    if |s| > 0 && DigitValue(s[0], radix) >= 0 then 1 + DigitRun(s[1..], radix) else 0
  }

  /** Value of a digit string, most significant digit first. */
  function DigitsValue(ds: string, radix: int): int
    requires forall i :: 0 <= i < |ds| ==> DigitValue(ds[i], radix) >= 0
  {
    if |ds| == 0 then 0
    else DigitsValue(ds[..|ds| - 1], radix) * radix + DigitValue(ds[|ds| - 1], radix)
  }

  /** The leading digits of `body` in `radix`, or `None` when there are none. */
  function LeadingNumber(body: string, radix: int): Option<int> {
    var n := DigitRun(body, radix);
    if n == 0 then None else Some(DigitsValue(body[..n], radix))
  }

  /** Radix and digits after the sign: a `0x`/`0X` prefix selects radix 16. */
  function RadixAndBody(u: string): (int, string) {
    if |u| >= 2 && u[0] == '0' && (u[1] == 'x' || u[1] == 'X') then (16, u[2..]) else (10, u)
  }

  /** JavaScript `parseInt(s)` with no radix: skip leading white space, read an
      optional sign, read a `0x`/`0X` prefix as radix 16, then the longest run
      of digits. `None` stands for `NaN` (no digit was read). */
  function ParseInt(s: string): Option<int> {
    var t := TrimStart(s);
    var negative := |t| > 0 && t[0] == '-';
    var u := if |t| > 0 && (t[0] == '-' || t[0] == '+') then t[1..] else t;
    var (radix, body) := RadixAndBody(u);
    match LeadingNumber(body, radix)
    case None => None
    case Some(v) => Some(if negative then -v else v)
  }

  /** A leading white-space character, Unicode spaces and line separators
      included, does not change what `parseInt` reads. */
  lemma LeadingSpaceSkipped(c: char, s: string)
    requires IsSpace(c)
    ensures ParseInt([c] + s) == ParseInt(s)
  {
    assert ([c] + s)[1..] == s;
  }

  lemma {:induction false} NatToStringValue(n: nat)
    ensures DigitRun(NatToString(n), 10) == |NatToString(n)|
    ensures DigitsValue(NatToString(n), 10) == n
  {
    var s := NatToString(n);
    DigitRunAll(s);
    if n >= 10 {
      NatToStringValue(n / 10);
      assert s[..|s| - 1] == NatToString(n / 10);
    }
  }

  lemma {:induction false} DigitRunAll(s: string)
    requires forall i :: 0 <= i < |s| ==> IsDigit(s[i])
    ensures DigitRun(s, 10) == |s|
    decreases |s|
  {
    if |s| > 0 {
      DigitRunAll(s[1..]);
    }
  }

  /** The digits of a natural number are read back in radix 10. */
  lemma ReadsDigits(n: nat)
    ensures RadixAndBody(NatToString(n)) == (10, NatToString(n))
    ensures LeadingNumber(NatToString(n), 10) == Some(n)
  {
    var ds := NatToString(n);
    NatToStringValue(n);
    assert !(|ds| >= 2 && ds[0] == '0');
    assert ds[..|ds|] == ds;
  }

  /** parseInt reads back the decimal text of every integer. */
  lemma ParseIntToString(n: int)
    ensures ParseInt(IntToString(n)) == Some(n)
  {
    var s := IntToString(n);
    var ds := NatToString(if n < 0 then -n else n);
    ReadsDigits(if n < 0 then -n else n);
    assert TrimStart(s) == s by {
      assert !IsSpace(s[0]);
    }
    if n < 0 {
      assert s[1..] == ds;
    } else {
      assert s == ds;
    }
  }
}

=== FILE: user.dfy ===
/** The `User` domain object: an account id and a signed balance, with the
    withdrawal and deposit rules, the conversion from a database row and
    the JSON view. */
module UserDomain {
  import opened Wrappers
  import opened Text
  import opened Errors

  /** The `created_at`/`updated_at` values are opaque; the `Users` table has
      no timestamps, so they are usually absent. */
  type Stamp = int

  datatype User = User(id: int, balance: int, createdAt: Option<Stamp>, updatedAt: Option<Stamp>)

  /** A `Users` row as the ORM returns it. */
  datatype Row = Row(id: int, balance: int, createdAt: Option<Stamp>, updatedAt: Option<Stamp>)

  /** The object `toJSON` returns. */
  datatype Json = Json(id: int, balance: int, createdAt: Option<Stamp>, updatedAt: Option<Stamp>)

  function FromDatabase(row: Row): (u: User)
    ensures u.id == row.id && u.balance == row.balance
    ensures u.createdAt == row.createdAt && u.updatedAt == row.updatedAt
  {
    User(row.id, row.balance, row.createdAt, row.updatedAt)
  }

  function ToJson(u: User): (j: Json)
    ensures j.id == u.id && j.balance == u.balance
    ensures j.createdAt == u.createdAt && j.updatedAt == u.updatedAt
  {
    Json(u.id, u.balance, u.createdAt, u.updatedAt)
  }

  /** The JSON view of a loaded user reproduces the row field for field. */
  lemma JsonOfRow(row: Row)
    ensures var j := ToJson(FromDatabase(row));
      j.id == row.id && j.balance == row.balance && j.createdAt == row.createdAt && j.updatedAt == row.updatedAt
  {
  }

  /** Distinct rows give distinct JSON views. */
  lemma JsonOfRowInjective(a: Row, b: Row)
    requires ToJson(FromDatabase(a)) == ToJson(FromDatabase(b))
    ensures a == b
  {
  }

  /** `canWithdraw(amount)`: the amount is signed, negative for a withdrawal,
      and the balance must stay non-negative. */
  predicate CanWithdraw(u: User, amount: int) {
    u.balance + amount >= 0
  }

  /** The ORM model's own `canWithdraw(amount)`, where the amount is the
      positive sum to take out. */
  predicate ModelCanWithdraw(balance: int, amount: int) {
    balance >= amount
  }

  /** The two checks agree once the sign convention is accounted for. */
  lemma CanWithdrawAgreesWithModel(u: User, a: int)
    ensures CanWithdraw(u, -a) <==> ModelCanWithdraw(u.balance, a)
  {
  }

  /** JavaScript's `Math.abs` on an integer. */
  function Abs(n: int): (r: nat)
    ensures r == n || r == -n
  {
    if n < 0 then -n else n
  }

  function InsufficientMessage(balance: int, amount: int): string {
    "Insufficient funds. Available: " + IntToString(balance) + ", Requested: " + IntToString(Abs(amount))
  }

  const NEGATIVE_DEPOSIT_MESSAGE: string := "Deposit amount must be positive"

  /** `withdraw(amount)`: the updated user, whose balance is the value the
      method returns, or the plain error it throws. */
  function Withdraw(u: User, amount: int): (r: Result<User, Error>)
    ensures r.Failure? <==> !CanWithdraw(u, amount)
    ensures r.Failure? ==> r.error == PlainError(InsufficientMessage(u.balance, amount))
    ensures r.Success? ==> r.value == u.(balance := u.balance + amount) && r.value.balance >= 0
  {
    if !CanWithdraw(u, amount) then Failure(PlainError(InsufficientMessage(u.balance, amount)))
    else Success(u.(balance := u.balance + amount))
  }

  /** `deposit(amount)`: rejects a negative amount, otherwise adds it. */
  function Deposit(u: User, amount: int): (r: Result<User, Error>)
    ensures r.Failure? <==> amount < 0
    ensures r.Failure? ==> r.error == PlainError(NEGATIVE_DEPOSIT_MESSAGE)
    ensures r.Success? ==> r.value == u.(balance := u.balance + amount) && r.value.balance >= u.balance
  {
    if amount < 0 then Failure(PlainError(NEGATIVE_DEPOSIT_MESSAGE))
    else Success(u.(balance := u.balance + amount))
  }

  /** A deposit of zero changes nothing. */
  lemma DepositZero(u: User)
    ensures Deposit(u, 0) == Success(u)
  {
  }

  /** Withdrawing what was just deposited restores an account in good
      standing. */
  lemma WithdrawUndoesDeposit(u: User, a: int)
    requires u.balance >= 0 && a >= 0
    ensures Deposit(u, a).Success?
    ensures Withdraw(Deposit(u, a).value, -a) == Success(u)
  {
  }

  /** A withdrawal followed by a deposit of the same size restores the
      account. */
  lemma DepositUndoesWithdraw(u: User, a: int)
    requires a >= 0 && CanWithdraw(u, -a)
    ensures Withdraw(u, -a).Success?
    ensures Deposit(Withdraw(u, -a).value, a) == Success(u)
  {
  }

  /** Two withdrawals of the whole positive balance cannot both succeed. */
  lemma NoDoubleWithdraw(u: User)
    requires u.balance > 0
    ensures Withdraw(u, -u.balance).Success?
    ensures Withdraw(Withdraw(u, -u.balance).value, -u.balance).Failure?
  {
  }
}

=== FILE: user_repository.dfy ===
/** `UserRepository`: the balance update as one transaction that either
    commits or rolls back, run under `executeWithRetries`, and the routing
    of the errors the transaction raises. */
module UserRepository {
  import opened Wrappers
  import opened Consts
  import opened Errors
  import opened Retryable
  import opened Retries
  import opened UserDomain

  /** The `Users` table: account id to balance. */
  type Ledger = map<int, int>

  /** The `{ id, balance }` object a committed update returns. */
  datatype Updated = Updated(id: int, balance: int)

  const WRAPPED_MESSAGE: string := "Database operation failed"

  /** The catch block: business and transient errors are rethrown as they
      are; anything else becomes `ApplicationError('Database operation
      failed', 500)`. */
  function Route(e: Error): (r: Error)
    ensures e.IsBusiness() || IsRetryableError(e) ==> r == e
    ensures !(e.IsBusiness() || IsRetryableError(e)) ==> r == ApplicationError(WRAPPED_MESSAGE, 500)
  {
    if e.IsBusiness() || IsRetryableError(e) then e else ApplicationError(WRAPPED_MESSAGE, 500)
  }

  /** Routing twice is routing once: the wrapper error routes to itself. */
  lemma RouteIdempotent(e: Error)
    ensures Route(Route(e)) == Route(e)
  {
    if !(e.IsBusiness() || IsRetryableError(e)) {
      WrapperMessageKeywordFree();
      DomainErrorsNotRetryable(0, 0, 0);
    }
  }

  /** The outcome of one transaction and the ledger after it. */
  datatype Step = Step(result: Result<Updated, Error>, ledger: Ledger)

  /** The database error one attempt meets, if any: while the transaction
      is being opened, which happens before the `try`, or inside the `try`,
      at the locking row lookup. */
  datatype Fault = NoFault | AtBegin(error: Error) | AtLookup(error: Error)

  /** `_updateBalanceInTransaction`. */
  function Transaction(l: Ledger, userId: int, amount: int, fault: Fault): (s: Step)
    // a failure rolls back
    ensures s.result.Failure? ==> s.ledger == l
    // a fault while opening the transaction escapes the catch block as it is
    ensures fault.AtBegin? ==> s.result == Failure(fault.error)
    ensures fault.AtLookup? ==> s.result == Failure(Route(fault.error))
    ensures fault.NoFault? && userId !in l ==> s.result == Failure(UserNotFound(userId))
    ensures fault.NoFault? && userId in l && l[userId] + amount < 0 ==>
              s.result == Failure(InsufficientFunds(userId, Abs(amount), l[userId]))
    // a commit stores the new balance of this account only
    ensures s.result.Success? <==> fault.NoFault? && userId in l && l[userId] + amount >= 0
    ensures s.result.Success? ==>
              s.result.value == Updated(userId, l[userId] + amount) && s.ledger == l[userId := l[userId] + amount]
  {
    if fault.AtBegin? then Step(Failure(fault.error), l)
    else if fault.AtLookup? then Step(Failure(Route(fault.error)), l)
    else if userId !in l then Step(Failure(Route(UserNotFound(userId))), l)
    else
      var balance := l[userId];
      if balance + amount < 0 then Step(Failure(Route(InsufficientFunds(userId, Abs(amount), balance))), l)
      else Step(Success(Updated(userId, balance + amount)), l[userId := balance + amount])
  }

  /** The transaction agrees with the domain rule: it commits exactly when
      the account exists and `canWithdraw` holds, and then stores what
      `withdraw` would. */
  lemma TransactionIsWithdraw(l: Ledger, userId: int, amount: int)
    requires userId in l
    ensures var u := User(userId, l[userId], None, None);
      Transaction(l, userId, amount, NoFault).result.Success? <==> CanWithdraw(u, amount)
    ensures var u := User(userId, l[userId], None, None);
      CanWithdraw(u, amount) ==> Transaction(l, userId, amount, NoFault).ledger[userId] == Withdraw(u, amount).value.balance
  {
  }

  /** `updateBalance`: the transaction under `executeWithRetries` with the
      default limit. `faults(j)` is the database fault of attempt `j`; no
      other update runs between the attempts. */
  function UpdateBalance(l: Ledger, userId: int, amount: int, faults: nat -> Fault): (r: (Run<Updated>, Ledger))
    ensures r.0 == Attempts(j => Transaction(l, userId, amount, faults(j)).result, IsRetryableError, MAX_RETRIES, 0)
    ensures r.0.outcome.Returned? ==> r.1 == l[userId := r.0.outcome.value.balance]
    ensures !r.0.outcome.Returned? ==> r.1 == l
  {
    var run := Attempts(j => Transaction(l, userId, amount, faults(j)).result, IsRetryableError, MAX_RETRIES, 0);
    if run.outcome.Returned? then (run, l[userId := run.outcome.value.balance]) else (run, l)
  }

  /** The database raises driver errors only, never a domain error. */
  ghost predicate DriverFaults(faults: nat -> Fault) {
    forall j :: faults(j).AtBegin? || faults(j).AtLookup? ==> faults(j).error.Raw?
  }

  /** A returned update committed `balance + amount` on an existing
      account. */
  lemma UpdateBalanceCommits(l: Ledger, userId: int, amount: int, faults: nat -> Fault)
    ensures var run := UpdateBalance(l, userId, amount, faults).0;
      1 <= run.calls <= MAX_RETRIES
      && (run.outcome.Returned? ==>
            userId in l && l[userId] + amount >= 0 && run.outcome.value == Updated(userId, l[userId] + amount))
  {
    var run := UpdateBalance(l, userId, amount, faults).0;
    if run.outcome.Returned? {
      assert Transaction(l, userId, amount, faults(run.calls - 1)).result == Success(run.outcome.value);
    }
  }

  /** The errors one transaction can raise. */
  predicate ExpectedError(l: Ledger, userId: int, amount: int, e: Error) {
    e == UserNotFound(userId)
    || (userId in l && e == InsufficientFunds(userId, Abs(amount), l[userId]))
    || (e.Raw? && IsRetryableError(e))
    || e == ApplicationError(WRAPPED_MESSAGE, 500)
  }

  /** A fault inside the `try` surfaces as one of the expected errors; a
      fault while opening the transaction surfaces as it is, retryable or
      not. */
  lemma TransactionErrors(l: Ledger, userId: int, amount: int, fault: Fault)
    requires fault.AtBegin? || fault.AtLookup? ==> fault.error.Raw?
    ensures var r := Transaction(l, userId, amount, fault).result;
      r.Failure? ==> if fault.AtBegin? then r.error == fault.error else ExpectedError(l, userId, amount, r.error)
  {
  }

  /** A failed update throws one of the two business errors of this call,
      a transient driver error, the wrapper, or the fault that the last
      attempt met while opening its transaction; never `undefined`. */
  lemma UpdateBalanceErrors(l: Ledger, userId: int, amount: int, faults: nat -> Fault)
    requires DriverFaults(faults)
    ensures var run := UpdateBalance(l, userId, amount, faults).0;
      run.outcome.Threw? ==>
        run.outcome.error.Some?
        && (ExpectedError(l, userId, amount, run.outcome.error.value)
            || faults(run.calls - 1) == AtBegin(run.outcome.error.value))
  {
    var run := UpdateBalance(l, userId, amount, faults).0;
    AttemptsThrowError(j => Transaction(l, userId, amount, faults(j)).result, IsRetryableError, MAX_RETRIES, 0);
    if run.outcome.Threw? {
      var k := run.calls - 1;
      TransactionErrors(l, userId, amount, faults(k));
      assert Transaction(l, userId, amount, faults(k)).result == Failure(run.outcome.error.value);
    }
  }

  /** A business error an update throws is the one the account's state
      calls for. */
  lemma UpdateBalanceBusiness(l: Ledger, userId: int, amount: int, faults: nat -> Fault)
    requires DriverFaults(faults)
    ensures var run := UpdateBalance(l, userId, amount, faults).0;
      run.outcome.Threw? && run.outcome.error.Some? && run.outcome.error.value.IsBusiness() ==>
        (run.outcome.error.value == UserNotFound(userId) && userId !in l)
        || (userId in l && run.outcome.error.value == InsufficientFunds(userId, Abs(amount), l[userId])
            && l[userId] + amount < 0)
  {
    var run := UpdateBalance(l, userId, amount, faults).0;
    if run.outcome.Threw? && run.outcome.error.Some? {
      var k := run.calls - 1;
      assert Transaction(l, userId, amount, faults(k)).result == Failure(run.outcome.error.value);
    }
  }

  /** A driver error that is not transient, met while opening the first
      transaction, ends the update after one call and escapes as it is;
      the same error at the row lookup would have become the wrapper. */
  lemma BeginFaultEscapesUnwrapped(l: Ledger, userId: int, amount: int, faults: nat -> Fault, e: Error)
    requires faults(0) == AtBegin(e) && e.Raw? && !IsRetryableError(e)
    ensures UpdateBalance(l, userId, amount, faults) == (Run(Threw(Some(e)), 1, []), l)
    ensures Transaction(l, userId, amount, AtLookup(e)).result == Failure(ApplicationError(WRAPPED_MESSAGE, 500))
  {
  }

  /** A business error ends the update after one call. */
  lemma BusinessErrorEndsUpdate(l: Ledger, userId: int, amount: int, faults: nat -> Fault)
    requires faults(0).NoFault?
    requires userId !in l || l[userId] + amount < 0
    ensures UpdateBalance(l, userId, amount, faults).0.calls == 1
    ensures UpdateBalance(l, userId, amount, faults).1 == l
  {
    var op := j => Transaction(l, userId, amount, faults(j)).result;
    BusinessErrorsNotRetried(op, MAX_RETRIES);
  }

  /** Every balance is non-negative: the `min: 0` rule of the table. */
  ghost predicate NonNegative(l: Ledger) {
    forall u :: u in l ==> l[u] >= 0
  }

  /** An update keeps every balance non-negative and touches only its own
      account. */
  lemma UpdateBalanceSafe(l: Ledger, userId: int, amount: int, faults: nat -> Fault)
    requires NonNegative(l)
    ensures var l2 := UpdateBalance(l, userId, amount, faults).1;
      NonNegative(l2) && l2.Keys == l.Keys
      && forall u :: u in l && u != userId ==> l2[u] == l[u]
  {
    var (run, l2) := UpdateBalance(l, userId, amount, faults);
    if run.outcome.Returned? {
      var k := run.calls - 1;
      assert Transaction(l, userId, amount, faults(k)).result == Success(run.outcome.value);
    }
  }

  /** A request: account, signed amount and the faults of its attempts. */
  datatype Request = Request(userId: int, amount: int, faults: nat -> Fault)

  /** Requests applied one after the other, as the row lock serialises
      them. */
  function ApplyAll(l: Ledger, reqs: seq<Request>): (r: Ledger)
    decreases |reqs|
  {
    if |reqs| == 0 then l
    else ApplyAll(UpdateBalance(l, reqs[0].userId, reqs[0].amount, reqs[0].faults).1, reqs[1..])
  }

  /** No serial history of updates drives a balance below zero: money is
      never spent twice. */
  lemma {:induction false} ApplyAllSafe(l: Ledger, reqs: seq<Request>)
    requires NonNegative(l)
    ensures NonNegative(ApplyAll(l, reqs)) && ApplyAll(l, reqs).Keys == l.Keys
    decreases |reqs|
  {
    if |reqs| > 0 {
      UpdateBalanceSafe(l, reqs[0].userId, reqs[0].amount, reqs[0].faults);
      ApplyAllSafe(UpdateBalance(l, reqs[0].userId, reqs[0].amount, reqs[0].faults).1, reqs[1..]);
    }
  }

  /** Of two fault-free withdrawals of a whole positive balance, the second
      is refused with the funds left. */
  lemma SecondWithdrawalRefused(l: Ledger, userId: int, faults: nat -> Fault)
    requires userId in l && l[userId] > 0
    requires forall j :: faults(j).NoFault?
    ensures var (run1, l1) := UpdateBalance(l, userId, -l[userId], faults);
      run1.outcome == Returned(Updated(userId, 0))
      && UpdateBalance(l1, userId, -l[userId], faults).0.outcome
         == Threw(Some(InsufficientFunds(userId, l[userId], 0)))
  {
    var op := j => Transaction(l, userId, -l[userId], faults(j)).result;
    assert op(0) == Success(Updated(userId, 0));
    var l1 := l[userId := 0];
    var op2 := j => Transaction(l1, userId, -l[userId], faults(j)).result;
    assert op2(0) == Failure(InsufficientFunds(userId, l[userId], 0));
    BusinessErrorsNotRetried(op2, MAX_RETRIES);
  }
}

=== FILE: user_service.dfy ===
/** `UserService`: input validation in front of the repository and the
    mapping of the repository's failures onto application errors. */
module UserService {
  import opened Wrappers
  import opened Errors
  import opened Retryable
  import opened Retries
  import opened UserDomain
  import Repo = UserRepository

  /** A request value as `Number.isInteger` sees it: an integer, or
      anything else (a string, a fraction, `NaN`, `undefined`). */
  datatype Value = Integer(n: int) | NotInteger

  const INVALID_ID_MESSAGE: string := "User ID must be a positive integer"
  const INVALID_AMOUNT_MESSAGE: string := "Amount must be an integer"
  const UPDATE_FAILED_MESSAGE: string := "Failed to update balance"
  const USER_FAILED_MESSAGE: string := "Failed to retrieve user"
  const USERS_FAILED_MESSAGE: string := "Failed to retrieve users"

  /** `_validateUserId`. */
  function ValidateUserId(v: Value): (r: Result<int, Error>)
    ensures r.Success? <==> v.Integer? && v.n > 0
    ensures r.Success? ==> r.value == v.n
    ensures r.Failure? ==> r.error == ApplicationError(INVALID_ID_MESSAGE, 400)
  {
    if v.Integer? && v.n > 0 then Success(v.n) else Failure(ApplicationError(INVALID_ID_MESSAGE, 400))
  }

  /** `_validateAmount`. */
  function ValidateAmount(v: Value): (r: Result<int, Error>)
    ensures r.Success? <==> v.Integer?
    ensures r.Success? ==> r.value == v.n
    ensures r.Failure? ==> r.error == ApplicationError(INVALID_AMOUNT_MESSAGE, 400)
  {
    if v.Integer? then Success(v.n) else Failure(ApplicationError(INVALID_AMOUNT_MESSAGE, 400))
  }

  /** The catch block of `updateBalance`: business errors pass, anything
      else (including a thrown `undefined`) becomes a 500. */
  function WrapUpdateError(e: Option<Error>): (r: Error)
    ensures e.Some? && e.value.IsBusiness() ==> r == e.value
    ensures !(e.Some? && e.value.IsBusiness()) ==> r == ApplicationError(UPDATE_FAILED_MESSAGE, 500)
  {
    if e.Some? && e.value.IsBusiness() then e.value else ApplicationError(UPDATE_FAILED_MESSAGE, 500)
  }

  /** `updateBalance`: the result and the ledger after the call. */
  function UpdateBalance(l: Repo.Ledger, userId: Value, amount: Value, faults: nat -> Repo.Fault)
    : (r: (Result<Repo.Updated, Error>, Repo.Ledger))
    // the user id is checked first, then the amount; neither reaches the
    // repository when invalid
    ensures ValidateUserId(userId).Failure? ==> r == (Failure(ApplicationError(INVALID_ID_MESSAGE, 400)), l)
    ensures ValidateUserId(userId).Success? && ValidateAmount(amount).Failure? ==>
              r == (Failure(ApplicationError(INVALID_AMOUNT_MESSAGE, 400)), l)
    ensures ValidateUserId(userId).Success? && ValidateAmount(amount).Success? ==>
              var repo := Repo.UpdateBalance(l, userId.n, amount.n, faults);
              r.1 == repo.1
              && (repo.0.outcome.Returned? ==> r.0 == Success(repo.0.outcome.value))
              && (repo.0.outcome.Threw? ==> r.0 == Failure(WrapUpdateError(repo.0.outcome.error)))
  {
    match ValidateUserId(userId)
    case Failure(e) => (Failure(e), l)
    case Success(id) =>
      match ValidateAmount(amount)
      case Failure(e) => (Failure(e), l)
      case Success(a) =>
        var repo := Repo.UpdateBalance(l, id, a, faults);
        match repo.0.outcome
        case Returned(v) => (Success(v), repo.1)
        case Threw(e) => (Failure(WrapUpdateError(e)), repo.1)
  }

  /** The errors a balance update can surface: a validation error, one of
      the two business errors, or the 500 wrapper. Transient database errors
      never reach the caller as they are: once the retries run out they are
      wrapped. */
  predicate ServiceError(e: Error) {
    e == ApplicationError(INVALID_ID_MESSAGE, 400) || e == ApplicationError(INVALID_AMOUNT_MESSAGE, 400)
    || e.IsBusiness() || e == ApplicationError(UPDATE_FAILED_MESSAGE, 500)
  }

  lemma UpdateBalanceServiceErrors(l: Repo.Ledger, userId: Value, amount: Value, faults: nat -> Repo.Fault)
    ensures var r := UpdateBalance(l, userId, amount, faults).0;
      r.Failure? ==> ServiceError(r.error) && !r.error.Raw?
  {
  }

  /** A business error reaching the caller is the one the account's state
      calls for. */
  lemma UpdateBalanceBusinessError(l: Repo.Ledger, id: int, amount: int, faults: nat -> Repo.Fault)
    requires id > 0 && Repo.DriverFaults(faults)
    ensures var r := UpdateBalance(l, Integer(id), Integer(amount), faults).0;
      r.Failure? && r.error.IsBusiness() ==>
        (r.error == UserNotFound(id) && id !in l)
        || (id in l && r.error == InsufficientFunds(id, Abs(amount), l[id]) && l[id] + amount < 0)
  {
    var run := Repo.UpdateBalance(l, id, amount, faults).0;
    Repo.UpdateBalanceBusiness(l, id, amount, faults);
    assert UpdateBalance(l, Integer(id), Integer(amount), faults).0
        == (if run.outcome.Returned? then Success(run.outcome.value) else Failure(WrapUpdateError(run.outcome.error)));
  }

  /** A successful call returns the old balance plus the amount. */
  lemma UpdateBalanceCommits(l: Repo.Ledger, id: int, amount: int, faults: nat -> Repo.Fault)
    requires id > 0
    ensures var r := UpdateBalance(l, Integer(id), Integer(amount), faults).0;
      r.Success? ==> id in l && r.value == Repo.Updated(id, l[id] + amount)
  {
    Repo.UpdateBalanceCommits(l, id, amount, faults);
  }

  /** A successful call stores the new balance of that account alone. */
  lemma UpdateBalanceStores(l: Repo.Ledger, id: int, amount: int, faults: nat -> Repo.Fault)
    requires id > 0
    ensures var r := UpdateBalance(l, Integer(id), Integer(amount), faults);
      r.0.Success? ==>
        id in l && r.1.Keys == l.Keys && r.1[id] == l[id] + amount
        && forall u :: u in l && u != id ==> r.1[u] == l[u]
  {
    var repo := Repo.UpdateBalance(l, id, amount, faults);
    if UpdateBalance(l, Integer(id), Integer(amount), faults).0.Success? {
      Repo.UpdateBalanceCommits(l, id, amount, faults);
      assert repo.1 == l[id := repo.0.outcome.value.balance];
    }
  }

  /** A failed call, valid or not, changes no account. */
  lemma UpdateBalanceFailureKeepsLedger(l: Repo.Ledger, userId: Value, amount: Value, faults: nat -> Repo.Fault)
    ensures var r := UpdateBalance(l, userId, amount, faults);
      r.0.Failure? ==> r.1 == l
  {
  }

  /** `getUserById`. `fault` is the error the lookup raises, if any. */
  function GetUserById(l: Repo.Ledger, userId: Value, fault: Option<Error>): (r: Result<User, Error>)
    ensures ValidateUserId(userId).Failure? ==> r == Failure(ApplicationError(INVALID_ID_MESSAGE, 400))
    ensures r.Success? <==> userId.Integer? && userId.n > 0 && fault.None? && userId.n in l
    ensures r.Success? ==> r.value.id == userId.n && r.value.balance == l[userId.n]
    ensures ValidateUserId(userId).Success? && fault.None? && userId.n !in l ==>
              r == Failure(UserNotFound(userId.n))
    ensures ValidateUserId(userId).Success? && fault.Some? ==>
              r == Failure(if fault.value.UserNotFound? then fault.value
                           else ApplicationError(USER_FAILED_MESSAGE, 500))
  {
    match ValidateUserId(userId)
    case Failure(e) => Failure(e)
    case Success(id) =>
      if fault.Some? then
        Failure(if fault.value.UserNotFound? then fault.value else ApplicationError(USER_FAILED_MESSAGE, 500))
      else if id !in l then Failure(UserNotFound(id))
      else Success(FromDatabase(Row(id, l[id], None, None)))
  }

  /** `getAllUsers`: the rows in the order the query returns them, or a 500
      when the query fails. */
  function GetAllUsers(l: Repo.Ledger, order: seq<int>, fault: Option<Error>): (r: Result<seq<User>, Error>)
    requires forall k :: 0 <= k < |order| ==> order[k] in l
    ensures fault.Some? <==> r.Failure?
    ensures r.Failure? ==> r.error == ApplicationError(USERS_FAILED_MESSAGE, 500)
    ensures r.Success? ==> |r.value| == |order|
    ensures r.Success? ==> forall k :: 0 <= k < |order| ==> r.value[k].id == order[k] && r.value[k].balance == l[order[k]]
  {
    if fault.Some? then Failure(ApplicationError(USERS_FAILED_MESSAGE, 500))
    else Success(seq(|order|, k requires 0 <= k < |order| => FromDatabase(Row(order[k], l[order[k]], None, None))))
  }

  /** When the query lists every account once, the users listed are exactly
      the accounts, each once with its balance. */
  lemma AllUsersListed(l: Repo.Ledger, order: seq<int>)
    requires forall k :: 0 <= k < |order| ==> order[k] in l
    requires forall id :: id in l ==> id in order
    requires forall j, k :: 0 <= j < k < |order| ==> order[j] != order[k]
    ensures var users := GetAllUsers(l, order, None).value;
      (forall id :: id in l <==> exists k :: 0 <= k < |users| && users[k].id == id)
      && (forall j, k :: 0 <= j < k < |users| ==> users[j].id != users[k].id)
      && (forall k :: 0 <= k < |users| ==> users[k].balance == l[users[k].id])
  {
    var users := GetAllUsers(l, order, None).value;
    forall id | id in l ensures exists k :: 0 <= k < |users| && users[k].id == id {
      var k :| 0 <= k < |order| && order[k] == id;
      assert users[k].id == id;
    }
  }
}

=== FILE: wrappers.dfy ===
/** Failure-compatible wrappers used across the model: an optional value and a
    value-or-error result. */
module Wrappers {

  datatype Option<+T> = None | Some(value: T) {
    predicate IsFailure() {
      None?
    }

    function PropagateFailure<U>(): Option<U>
      requires None?
    {
      None
    }

    function Extract(): T
      requires Some?
    {
      value
    }

    /** The value, or `default` when there is none (JavaScript's `??`). */
    function GetOr(default: T): (r: T)
      ensures Some? ==> r == value
      ensures None? ==> r == default
    {
      match this
      case Some(v) => v
      case None => default
    }
  }

  datatype Result<+R, +E> = Success(value: R) | Failure(error: E) {
    predicate IsFailure() {
      Failure?
    }

    function PropagateFailure<U>(): Result<U, E>
      requires Failure?
    {
      Failure(error)
    }

    function Extract(): R
      requires Success?
    {
      value
    }
  }
}
